=== FILE: README.md ===
# SideStore anisette provisioning and friends, in Dafny

This project models the deterministic core of four parts of the SideStore iOS app, and proves properties about them.

**Anisette fetch.** `FetchAnisetteDataOperation` obtains the "anisette" header set that Apple's sign-in servers demand. It gets the headers from a third-party anisette server, which is either a legacy V1 server or a V3 server.
- A V1 server returns the headers directly, after the user has agreed to trust it.
- A V3 server first needs the device provisioned. That means:
  - A client-info request.
  - Apple's lookup of the provisioning URLs.
  - A WebSocket handshake in which the server asks for the device identifier and for Apple's start and end provisioning data.
  - Storing the resulting `adiPb`.

  The header fetch then sends the identifier and `adiPb`.

The operation is a pure step function `FetchAnisette.Step(env, state, event) = (state', commands)`:
- Completions, socket frames, timers and the user's answer are events.
- HTTP requests, socket writes, prompts, timers and finishing are commands.
- The keychain (`identifier`, `adiPb`) and the trusted-server setting are part of the state.

Inside sit these pure pieces:
- the V1 and V3 header remaps (`AnisetteHeaders`);
- the classifier for the server's handshake messages (`ServerMessages`);
- the upper-case hex encoding (`Hex`) of the SHA-256 of the base 64 decoded identifier (`Base64`, section 4 of RFC 4648), which gives `X-Apple-I-MD-LU`.

**Operation errors.** `OperationErrors` covers three pieces of `OperationError`:
- the total mapping `minimuxerToOperationError` from the on-device muxer's errors;
- `failureReason`;
- the recovery suggestion for the App ID limit, with its count wording (`Decimal` renders and parses the counts).

**Log capture.** `OutputCapture` covers `OutputCapturer.handle(data:)` and `addRemoves`:
- It drops chunks that are not UTF-8 or that contain a noisy library message.
- It redacts the user's secrets with `[removed]`.
- It echoes the original bytes.
- It maintains a duplicate-free list of the non-empty secrets to redact, which is empty while no secret is set.

**App icons.** `AppIcons` covers `AppIconsView.init`:
- The primary icon and the alternate icons are sorted by asset name.
- The three release-channel icons (Neon, Starburst, Steel) get their suffixes and are moved to their forced indices.
- The selected icon falls back to the primary icon.

Three behaviours of the code worth noting:
- Unknown handshake results are ignored, not rejected.
- The V3 reply is read under the Apple header names (`X-Apple-I-MD-M`, …).
- The client-info skip test includes the stored identifier.

The one place where the step function departs from the code is the pair of completion handlers in the first two findings below. `FetchAnisette.Step` uses the corrected handlers `V1Outcome` and `V3Verdict`, which finish where the code never finishes. The handlers as written, `V1VerdictAsWritten` and `V3VerdictAsWritten`, are modelled next to them, and the corrected ones agree with them wherever those reach a verdict.

## Model

| member | source | states |
|---|---|---|
| FetchAnisetteProofs.BeginWithContextError | AltStore/Operations/FetchAnisetteDataOperation.swift:42-46 | An error already in the context finishes the operation with exactly that error, and no network, socket, prompt or timer command is issued. |
| FetchAnisetteProofs.BeginRoutes | AltStore/Operations/FetchAnisetteDataOperation.swift:48-56 | Without a context error, the fresh operation first requests client info. It then continues to the V3 header fetch with exactly the stored identifier and `adiPb` when both are stored, and to provisioning otherwise. |
| FetchAnisetteProofs.ClientInfoSkippedIff | AltStore/Operations/FetchAnisetteDataOperation.swift:134-143 | The client-info request is issued if and only if one of client info, user agent, `mdLu`, device id or the stored identifier is missing. When it is skipped, the callback runs at once. |
| FetchAnisetteProofs.ClientInfoClassifies | AltStore/Operations/FetchAnisetteDataOperation.swift:145-183 | Missing data or an unparsable body fails with `anisetteError`. A string map with `client_info` is V3 and caches it, unless the step traps or identifier generation fails. A string map without it, or any other JSON value, leads to the V1 path. |
| FetchAnisetteProofs.V1GateTrusted | AltStore/Operations/FetchAnisetteDataOperation.swift:59-67 | A server equal to the trusted URL is fetched via V1 with no prompt. Any other server only gets the warning prompt. |
| FetchAnisetteProofs.V1GateAnswer | AltStore/Operations/FetchAnisetteDataOperation.swift:69-77 | "Continue" records the URL as trusted and then issues the V1 fetch. "Cancel" finishes with `cancelled` and issues no V1 fetch. |
| FetchAnisetteProofs.V1PathFailures | AltStore/Operations/FetchAnisetteDataOperation.swift:90-131 | Through the corrected handler, a V1 reply always finishes the operation. Wherever the handler as written finishes, the step finishes with the same outcome. Every failure is `invalidAnisette`. The step succeeds exactly when the body is a string map whose V1 remap the validator accepts, and then carries that remap. |
| FetchAnisetteProofs.NonStringMapBodyStalls | AltStore/Operations/FetchAnisetteDataOperation.swift:98-130 | A V1 or V3 reply that is JSON but not a string map leaves the handlers as written without a verdict. The corrected step finishes with the path's failure (`invalidAnisette` or `anisetteError`). |
| FetchAnisetteProofs.V3EndpointPlain | AltStore/Operations/FetchAnisetteDataOperation.swift:144 | For a server address with no query or fragment, the endpoint is the address, one `/` unless it already ends in one, then `v3/` and the endpoint name. |
| FetchAnisetteProofs.V3EndpointKeepsSuffix | AltStore/Operations/FetchAnisetteDataOperation.swift:206 | The components are appended to the path: a query or fragment of the server address stays after them, so `https://h/a?k=v` gives `https://h/a/v3/client_info?k=v`. |
| FetchAnisette.V1Outcome | AltStore/Operations/FetchAnisetteDataOperation.swift:93-130 | The V1 completion finishes on every reply and agrees with the code wherever the code finishes. It fails only with `invalidAnisette`, and it succeeds exactly when the body is a string map whose remap the validator accepts. |
| FetchAnisette.V3Verdict | AltStore/Operations/FetchAnisetteDataOperation.swift:312-363 | The V3 header completion never stalls, agrees with the code wherever the code reaches a verdict, and fails only with `anisetteError`. |
| FetchAnisetteHeadersPath.V3PathOutcome | AltStore/Operations/FetchAnisetteDataOperation.swift:312-363 | Through the corrected handler, the reply from the header-fetch phase always ends the operation. It traps exactly for a `GetHeadersError` without `message`. A `GetHeadersError` with a `message` fails with `anisetteError`, and no failure is anything else. The step succeeds exactly when the body is a string map that is not a `GetHeadersError` and whose V3 remap the validator accepts. Wherever the handler as written finishes or traps, the step does the same. A success is the V3 remap, with `localUserID`, `deviceUniqueIdentifier` and `deviceDescription` equal to the client's own `mdLu`, device id and client info. |
| AnisetteHeaders.CopyAllSpec | AltStore/Operations/FetchAnisetteDataOperation.swift:102-110 | Copying headers under a table with distinct targets sets each target exactly when its source header is present, with the header's value, and leaves every other key alone. |
| AnisetteHeaders.RemapV1 | AltStore/Operations/FetchAnisetteDataOperation.swift:101-110 | The result always has `deviceSerialNumber` = "0". Each of the nine canonical keys is present if and only if its Apple header is, and holds that header's value. No other key appears. |
| AnisetteHeaders.V3ServerPart | AltStore/Operations/FetchAnisetteDataOperation.swift:326-329 | The server's contribution is the serial number "0" plus `machineID`, `oneTimePassword` and `routingInfo`, each present if and only if its header is, and no other key. |
| AnisetteHeaders.AddClientFields | AltStore/Operations/FetchAnisetteDataOperation.swift:330-343 | Description, local user id, device id, date and locale are always set to the client's values. `timeZone` is set exactly when the client has one. Every non-client key is untouched. |
| AnisetteHeaders.RemapV3 | AltStore/Operations/FetchAnisetteDataOperation.swift:326-343 | Only M, MD and RINFO come from the server. The identity fields and date, locale and time zone are the client's whatever the server sent. The keys stay within the eleven V3 keys. |
| AnisetteHeaders.RemapV3OnlyReadsServerFields | AltStore/Operations/FetchAnisetteDataOperation.swift:326-333 | Two replies that agree on the three server headers give the same V3 header set, whatever identity or time fields either one carries. |
| ServerMessages.ClassifyFailureIff | AltStore/Operations/FetchAnisetteDataOperation.swift:276-281 | A result is a failure if and only if it contains "Error" or "Invalid" or is "ClosingPerRequest", "Timeout" or "TextOnly". It is ignored exactly when it is neither a failure nor one of the five answered results. |
| ServerMessages.HandledResultsAreNotFailures | AltStore/Operations/FetchAnisetteDataOperation.swift:221-277 | None of the five answered result names would pass the failure test, so the order of the switch cases does not matter. |
| ServerMessages.ClassifyNamedIff | AltStore/Operations/FetchAnisetteDataOperation.swift:221-270 | Each answered result is recognised by its exact name and by nothing else. |
| FetchAnisetteIdentity.StepIdentifier | AltStore/Operations/FetchAnisetteDataOperation.swift:158-168 | No step overwrites or removes a stored identifier. A step that creates one is a client-info reply, and it stores the base 64 encoding of the fresh random bytes. |
| FetchAnisetteIdentity.ClientInfoIdentifier | AltStore/Operations/FetchAnisetteDataOperation.swift:158-168 | The client-info completion never replaces an identifier, and creates one only from the fresh bytes. |
| FetchAnisetteIdentity.FrameIdentifier | AltStore/Operations/FetchAnisetteDataOperation.swift:270-274 | No handshake frame, `ProvisioningSuccess` included, adds, removes or changes the stored identifier. |
| FetchAnisetteIdentity.ClientInfoDerivesIdentity | AltStore/Operations/FetchAnisetteDataOperation.swift:158-176 | After a V3 client-info reply an identifier is stored; a newly created one decodes to exactly the fresh bytes. Unless the step traps, `mdLu` is the hex of the SHA-256 of the decoded identifier, 2·n upper-case hex digits, and the device id is the UUID string of the same bytes. |
| FetchAnisetteIdentity.RunKeepsIdentifier | AltStore/Operations/FetchAnisetteDataOperation.swift:158-274 | Over any run of events, retries included, an identifier once stored keeps its value. |
| Hex.Encode | AltStore/Operations/FetchAnisetteDataOperation.swift:409-411 | The encoding has exactly two characters per byte, each in 0-9A-F. |
| Hex.EncodeDigits | AltStore/Operations/FetchAnisetteDataOperation.swift:409-411 | Byte i is rendered at positions 2i (high nibble) and 2i+1 (low nibble). |
| Hex.RoundTrip | AltStore/Operations/FetchAnisetteDataOperation.swift:409-411 | Decoding the hex encoding gives the bytes back. |
| Hex.EncodeInjective | AltStore/Operations/FetchAnisetteDataOperation.swift:409-411 | Distinct digests have distinct hex strings, so `mdLu` identifies the digest. |
| Base64.RoundTrip | AltStore/Operations/FetchAnisetteDataOperation.swift:168-171 | Decoding the base 64 encoding of any byte string gives it back. The force unwrap of the decoded identifier is therefore safe for an identifier generated here. |
| FetchAnisetteHandshake.StepInv | AltStore/Operations/FetchAnisetteDataOperation.swift:188-274 | Every step preserves the phase invariant: client info is known while looking up; both provisioning URLs are also set during the handshake; client info, `mdLu` and device id are set during the header fetch. |
| FetchAnisetteHandshake.RunInv | AltStore/Operations/FetchAnisetteDataOperation.swift:188-274 | The phase invariant behind the handshake's force unwraps holds after any run from a state that satisfies it, the initial state included. |
| FetchAnisetteHandshake.GiveIdentifierReply | AltStore/Operations/FetchAnisetteDataOperation.swift:230-232 | `GiveIdentifier` is answered with exactly the stored identifier, and the state is unchanged. |
| FetchAnisetteHandshake.ProvisioningDataRequests | AltStore/Operations/FetchAnisetteDataOperation.swift:234-268 | `GiveStartProvisioningData` is answered by one POST to the looked-up start URL. `GiveEndProvisioningData` is answered by one POST to the end URL carrying the server's `cpim`. The state is unchanged. |
| FetchAnisetteHandshake.ProvisioningSuccessFetchesHeaders | AltStore/Operations/FetchAnisetteDataOperation.swift:270-274 | `ProvisioningSuccess` stores `adi_pb`, disconnects with code 0, and starts the V3 header fetch with the stored identifier and the new `adiPb`. |
| FetchAnisetteHandshake.TryAgainSoonOnlySchedules | AltStore/Operations/FetchAnisetteDataOperation.swift:222-228 | `TryAgainSoon` only schedules a restart after the given delay. Nothing else in the state changes except the count of pending timers. |
| FetchAnisetteHandshake.RetryReusesSession | AltStore/Operations/FetchAnisetteDataOperation.swift:205-228 | A due retry timer opens a new provisioning session and reuses the URLs, identity and keychain. |
| FetchAnisetteHandshake.RetriesKeepSession | AltStore/Operations/FetchAnisetteDataOperation.swift:222-228 | Any number of `TryAgainSoon` frames and timer firings leave the handshake with the same phase, keychain, URLs and client identity. |
| FetchAnisetteHandshake.RetriesThenSuccess | AltStore/Operations/FetchAnisetteDataOperation.swift:222-274 | After any number of retries, `ProvisioningSuccess` stores the new `adiPb`, keeps the original identifier, and moves to the header fetch. |
| FetchAnisetteHandshake.OtherResults | AltStore/Operations/FetchAnisetteDataOperation.swift:276-281 | Any other result fails with `provisioningError` if and only if it passes the failure test; otherwise it changes nothing. |
| FetchAnisetteHandshake.FailureResultsFail | AltStore/Operations/FetchAnisetteDataOperation.swift:276-280 | A failing result finishes with `provisioningError`. |
| FetchAnisetteHandshake.NonTextSocketEvents | AltStore/Operations/FetchAnisetteDataOperation.swift:288-298 | Connected, disconnected, error and other socket events leave the operation unchanged and unfinished. |
| FetchAnisetteHeadersPath.ProvisioningURLsSetOnlyByLookup | AltStore/Operations/FetchAnisetteDataOperation.swift:193-196 | The start and end provisioning URLs change only when the lookup reply arrives. |
| FetchAnisetteHeadersPath.FreshInstallScenario | AltStore/Operations/FetchAnisetteDataOperation.swift:188-274 | A fresh install against a V3 server passes through client info, the new identifier, the lookup, the full handshake and the header fetch. It succeeds with serial "0", the server's machine id and one-time password, and the client's description and date. The keychain then holds exactly the identifier and `adiPb`. |
| OperationErrors.ToOperationError | AltStore/Operations/OperationError.swift:128-179 | The mapping is total. It gives `unknown` exactly for non-muxer errors. The two pairing errors, and only they, give `invalidPairingFile`, with their two details. The two profile errors, and only they, give `profileManage`. The four `Create*` errors, and only they, give `createService` named "debug", "instproxy", "AFC" and "misagent". |
| OperationErrors.SourceErrorInverts | AltStore/Operations/OperationError.swift:130-175 | Every muxer error except `ProfileRemove` can be recovered from its operation error; `ProfileRemove` reads back as `ProfileInstall`. |
| OperationErrors.ToOperationErrorMerges | AltStore/Operations/OperationError.swift:130-175 | Two muxer errors map to the same operation error if and only if they are equal or are the two profile errors. |
| OperationErrors.FailureReason | AltStore/Operations/OperationError.swift:53-84 | Every case has a failure reason. |
| OperationErrors.FailureReasonMentions | AltStore/Operations/OperationError.swift:65-81 | The reason of a case carrying a name or details includes it. The App ID limit's reason names 10 App IDs. |
| OperationErrors.AvailableText | AltStore/Operations/OperationError.swift:97-102 | The available-count words start with "n" ("none are available") exactly when the count is 0. |
| OperationErrors.AvailableTextRoundTrip | AltStore/Operations/OperationError.swift:97-102 | The count can be read back from its words ("none…" for 0, "only 1 is…" for 1, "only N are…" otherwise), so no two counts share their words. |
| OperationErrors.AvailableCount | AltStore/Operations/OperationError.swift:97-102 | The reader gives 0 only for "none are available" and 1 only for "only 1 is available", so the plural form never stands for 0 or 1. |
| OperationErrors.CountsMessage | AltStore/Operations/OperationError.swift:104-105 | The message starts with the application name and contains the required count and the available-count words. |
| OperationErrors.WaitMessage | AltStore/Operations/OperationError.swift:117-118 | The message starts with the base advice and contains the remaining time. |
| OperationErrors.RecoverySuggestion | AltStore/Operations/OperationError.swift:86-125 | There is a suggestion exactly for the App ID limit. With more than one required App ID it names the application, the required count and the available count. Otherwise it gives the base advice and the waiting time. |
| OperationErrors.RecoveryNamesCounts | AltStore/Operations/OperationError.swift:93-106 | The suggestion for several required App IDs contains words from which the available count reads back exactly. |
| OutputCapture.AnyContained | AltStore/OutputCapturer.swift:83-85 | True exactly when some ignore entry occurs in the text. |
| OutputCapture.Handle | AltStore/OutputCapturer.swift:78-101 | A chunk is echoed if and only if it is logged. It is logged exactly when it decodes as UTF-8 and contains no ignore entry. The echo is the original bytes. The logged text is the decoded chunk with the secrets redacted in list order, so a chunk with no secret in it is logged unchanged. |
| OutputCapture.Redact | AltStore/OutputCapturer.swift:87-89 | When every secret is as long as the marker, redaction keeps the text's length. |
| OutputCapture.RedactAbsent | AltStore/OutputCapturer.swift:87-89 | Text containing none of the secrets is unchanged by redaction. |
| OutputCapture.RedactAppend | AltStore/OutputCapturer.swift:87-89 | Redacting with a list is redacting with each part of it in turn, in list order. |
| OutputCapture.RedactMarksLast | AltStore/OutputCapturer.swift:87-89 | When the only secret present is the last to be replaced, the logged text shows the marker. |
| Strings.ReplaceAll | AltStore/OutputCapturer.swift:88 | Replacing every occurrence with a text of the target's length keeps the length. |
| Strings.ReplaceAllAbsent | AltStore/OutputCapturer.swift:88 | Text without the target is returned unchanged. |
| Strings.ReplaceAllFirst | AltStore/OutputCapturer.swift:88 | Up to the first occurrence of a non-empty target the text is kept, that occurrence becomes the replacement, and the rest is processed the same way. With `ReplaceAllAbsent`, this fixes the result of replacing every occurrence, scanning from the left without overlap. |
| Strings.ReplaceAllLeavesMarker | AltStore/OutputCapturer.swift:88 | When a non-empty target occurs, the replacement appears in the result. |
| OutputCapture.WriteLog | AltStore/OutputCapturer.swift:94-105 | An existing log file gets the text appended after its old content. A missing one is created holding the text alone. |
| OutputCapture.Add | AltStore/OutputCapturer.swift:49-50 | A candidate is appended only when it is set, non-empty and new. The old list is a prefix, and a well-formed list stays well-formed. |
| OutputCapture.AddRemoves | AltStore/OutputCapturer.swift:41-52 | The old list stays a prefix. The result holds exactly the old entries plus the set, non-empty candidates. |
| OutputCapture.AddRemovesWellFormed | AltStore/OutputCapturer.swift:41-52 | A duplicate-free list with no empty entries stays so. |
| OutputCapture.AddRemovesNothingNew | AltStore/OutputCapturer.swift:49-51 | Candidates that are unset, empty or already present leave the list unchanged. |
| OutputCapture.AddRemovesIdempotent | AltStore/OutputCapturer.swift:41-52 | A second call with the same keychain values changes nothing. |
| OutputCapture.InitialRemoveList | AltStore/OutputCapturer.swift:41-55 | The list built at start-up is well-formed and holds exactly the set, non-empty secrets. |
| AppIcons.InitialIcons | AltStore/Views/Settings/AppIconsView.swift:42-50 | The primary icon comes first, then one icon per alternate key, each with display name equal to asset name. |
| AppIcons.Sort | AltStore/Views/Settings/AppIconsView.swift:54 | The result is ascending by asset name and a permutation of the input. |
| AppIcons.SortedUnique | AltStore/Views/Settings/AppIconsView.swift:54 | Two ascending orderings of the same icons are equal when equal names mean equal icons, so any correct sort gives the same list. |
| AppIcons.FirstIndex | AltStore/Views/Settings/AppIconsView.swift:57 | Finds the first icon with the name, or none when no icon has it. |
| AppIcons.Labelled | AltStore/Views/Settings/AppIconsView.swift:59-61 | A suffix is appended to the display name after a space. Without one the icon is unchanged, and the asset name never changes. |
| AppIcons.ApplySpecial | AltStore/Views/Settings/AppIconsView.swift:56-67 | An absent special icon changes nothing. A present one is labelled and sits at its forced index, clamped to the end. Every other icon keeps its display name and relative order. The names are a permutation. The result agrees with the code wherever the code does not trap. |
| AppIcons.ApplyAllAsWritten | AltStore/Views/Settings/AppIconsView.swift:56-67 | Where the loop as written does not trap, it produces the intended list. |
| AppIcons.ApplyAll | AltStore/Views/Settings/AppIconsView.swift:56-67 | Applying the special icons in turn keeps the length and the multiset of asset names. |
| AppIcons.BuildIcons | AltStore/Views/Settings/AppIconsView.swift:41-67 | The finished list has every bundle icon exactly once: its names are a permutation of the primary and alternate names. |
| AppIcons.BuildIconsAsWritten | AltStore/Views/Settings/AppIconsView.swift:41-67 | When `init()` as written does not trap, it builds the intended list. |
| AppIcons.SteelAloneTraps | AltStore/Views/Settings/AppIconsView.swift:63-66 | With Steel as the only alternate, `init()` as written traps on the insertion at 2. The intended list ends with "Steel (Nightly)". |
| AppIcons.ChannelIconsOnTop | AltStore/Views/Settings/AppIconsView.swift:25-67 | When Neon, Starburst and Steel are all in the bundle, they are rows 0, 1 and 2, labelled "(Stable)", "(Beta)" and "(Nightly)". The remaining rows stay sorted. The code as written does not trap on such a bundle and builds this same list. |
| AppIcons.BuildNeverTraps | AltStore/Views/Settings/AppIconsView.swift:53-67 | For every bundle of at least three icons, every forced index lies inside the list, so the code as written does not trap and builds the intended list. |
| AppIcons.AllWithin | AltStore/Views/Settings/AppIconsView.swift:56-67 | When every forced index lies inside the list, applying the special icons as written never traps and agrees with the intended list. |
| AppIcons.SelectedIcon | AltStore/Views/Settings/AppIconsView.swift:69-73 | The selected icon is the current alternate name when some row has it, and the primary icon otherwise. |

## Left out

- Network and transport: URLSession, the Starscream WebSocket and its timeout, and Apple's lookup. Their results are events and their requests are commands. The retry delay is kept as the server's millisecond number; the conversion to seconds is not modelled.
- Cryptography and randomness: SHA-256 and the UUID reinterpretation of the decoded identifier are opaque functions in `Env`. The 16 random bytes are part of the client-info event, and their absence models a failed `SecRandomCopyBytes`.
- JSON and property-list (de)serialisation: replies arrive already classified as missing, unparsable, not a string map, or a map.
- `ALTAnisetteData(json:)`: an abstract validator predicate in `Env`.
- Date, locale and time zone: the date formatter, `Locale.current` and `TimeZone.current` become the `Clock` parameter of the header reply.
- `buildAppleRequest`: the client-time, locale and time-zone headers are left out, for the same reason.
- Logging with `print`, the alert presentation, and the SwiftUI `body` of the icon screen.
- The keychain is a plain map rather than the KeychainAccess wrapper. Force unwraps, failing casts and `try!` are the `Crashed` phase.
- The `invalidAnisette`, `anisetteError` and `provisioningError` cases are not declared in this snapshot of `OperationError`. The fetch model uses its own failure type with exactly these cases.
- OperationErrors.RecoverySuggestion: the waiting time is a string parameter, because the date-components formatter and `NSLocalizedString` localisation are platform code. The contract states what the message contains, not its exact wording.
- OperationErrors.FailureReason: states that every case has a reason and, in `FailureReasonMentions`, that the payload appears in it. Each fixed English sentence is in the function but not restated in the contract.
- OutputCapture.Handle: UTF-8 decoding is the `decode` parameter, and writing to the standard-output pipe is the `echo` field. A failure to write the log file is ignored as in the source.
- OutputCapture.Redact: its own contract only states that the length is kept for marker-length secrets. What it replaces is stated by `RedactAbsent`, `RedactAppend` and `RedactMarksLast`. A secret can reappear across the boundary of an inserted marker, so absence of secrets after redaction is not promised, just as in the source.
- Strings.ReplaceAll: its own contract states only that the length is kept. `ReplaceAllFirst` and `ReplaceAllAbsent` together fix its result.
- Strings.Contains: matching, in `Contains` and `ReplaceAll`, compares characters one code unit at a time. Swift's `contains` and `replacingOccurrences(of:with:)` compare by Unicode canonical equivalence. So for secrets, ignore entries or logged text that are not ASCII, the model may match where the source does not, or the reverse. The same holds for `OutputCapture.Handle` and `OutputCapture.Redact`, which are built on them.
- OutputCapture.Add: string equality throughout the model is code-unit equality, where Swift's `String ==` uses canonical equivalence. So `Add` and `AddRemoves` append two canonically equivalent secrets, such as a precomposed "é" and "e" followed by a combining accent, where the membership test at `OutputCapturer.swift:50` keeps only the first. The "no duplicates" of `WellFormed` means no two entries with the same code units.
- The pipe and `dup2` set-up of `OutputCapturer.init` and `deinit` is plumbing with no logic.
- AppIcons.Sort: an insertion sort stands in for Swift's `sort`. `SortedUnique` shows that any correct sort gives the same list when asset names are unique, which bundle keys are.
- AppIcons.Below: it is lexicographic order by character code. Swift compares strings by Unicode canonical equivalence, which only matters for non-ASCII asset names.
- AppIcons.FirstIndex: asset names are compared by code units, where the name tests at `AppIconsView.swift:57` and `:70` use Swift's canonical equivalence. The same holds for `AppIcons.SelectedIcon`. Two asset names that differ only in Unicode normal form are told apart by the model but not by the code.
- AppIcons: the artist credits and the icon-changing button are UI and are not modelled.
- FetchAnisette.Step: it uses the corrected completion handlers `V1Outcome` and `V3Verdict`. For a reply body that is JSON but not a string map, it finishes where the code never finishes (see Findings). Everywhere else the corrected handlers agree with the code.
- FetchAnisette.V3Endpoint: the server address is a string. Appending a component splits it at its first `?` or `#` and puts the components at the end of the path before it; other URL parsing and normalisation by Foundation is not modelled.
- FetchAnisette.HandleV1: the trust check and the Continue answer (`OnConsent`) compare against and record `s.url`, the server address captured when the operation starts. The code re-reads the `currentURLString` setting at each of those moments. The model takes that setting to be the string form of the captured URL, unchanged while the operation runs. A server switch during the V1 prompt is not modelled.
- FetchAnisette.Step: an event that arrives outside its phase is ignored. In the code, the socket delegate and the retry closure do not check the operation's progress. A late retry timer can reopen a provisioning session after the operation has finished, for example after `TryAgainSoon` and then a `Timeout` failure. A frame on that session, such as `ProvisioningSuccess`, then still writes `adiPb` and fetches headers. The model promises nothing about such events after the operation has finished, or outside the phase they belong to.
- FetchAnisetteProofs.V1PathFailures: it describes the step with the corrected handler. For the code as written, it promises the same outcome only where that handler finishes. For a body that is not a string map, the code never finishes; `NonStringMapBodyStalls` shows this.
- FetchAnisetteHeadersPath.V3PathOutcome: likewise. For a body that is not a string map, the handler as written never finishes.
- FetchAnisetteHeadersPath.FreshInstallScenario: shown for one concrete reply and event sequence. `StepInv`, `V3PathOutcome` and the handshake lemmas state the general case.

## Findings

| source | as written | input that shows it | evidently intended | confidence | as-written member | corrected member |
|---|---|---|---|---|---|---|
| AltStore/Operations/FetchAnisetteDataOperation.swift:98 | The V1 completion only handles a body that casts to `[String: String]`. Another JSON value (a list, or a map with a number) matches neither the `if let` nor the `catch`, so the operation never finishes. | A V1 reply whose body is `[1]` | Finish with `invalidAnisette`, like every other V1 failure | not executed | FetchAnisette.V1VerdictAsWritten, shown by FetchAnisetteProofs.NonStringMapBodyStalls | FetchAnisette.V1Outcome |
| AltStore/Operations/FetchAnisetteDataOperation.swift:318 | The V3 header completion has the same gap: a JSON body that is not a string map is never finished. | A get_headers reply whose body is `{"result": 1}` | Finish with `anisetteError` | not executed | FetchAnisette.V3VerdictAsWritten, shown by FetchAnisetteProofs.NonStringMapBodyStalls | FetchAnisette.V3Verdict |
| AltStore/Views/Settings/AppIconsView.swift:65 | `insert(e, at: forceIndex)` traps when the forced index is beyond the end of the list after the removal. | A bundle with primary icon "AppIcon" and "Steel" as the only alternate: one row is left, and Steel's index is 2. | Put the icon at the end when the list is shorter than its forced index | not executed | AppIcons.BuildIconsAsWritten, shown by AppIcons.SteelAloneTraps | AppIcons.BuildIcons |

=== FILE: anisette_headers.dfy ===
/**
  The header assembler of `FetchAnisetteDataOperation`: the two functions that
  turn a server's string map into the field map handed to `ALTAnisetteData`.
*/
module AnisetteHeaders {
  import opened Wrappers

  type Fields = map<string, string>

  /** Set on every assembled map; the validator needs it although it is unused. */
  const SerialNumberKey: string := "deviceSerialNumber"

  /** The nine Apple header names a V1 server may return, each with its canonical field name. */
  const V1Renames: seq<(string, string)> := [
    ("X-Apple-I-MD-M", "machineID"),
    ("X-Apple-I-MD", "oneTimePassword"),
    ("X-Apple-I-MD-LU", "localUserID"),
    ("X-Apple-I-MD-RINFO", "routingInfo"),
    ("X-Mme-Device-Id", "deviceUniqueIdentifier"),
    ("X-MMe-Client-Info", "deviceDescription"),
    ("X-Apple-I-Client-Time", "date"),
    ("X-Apple-Locale", "locale"),
    ("X-Apple-I-TimeZone", "timeZone")
  ]

  /** The only three fields a V3 server's reply contributes. */
  const V3ServerRenames: seq<(string, string)> := [
    ("X-Apple-I-MD-M", "machineID"),
    ("X-Apple-I-MD", "oneTimePassword"),
    ("X-Apple-I-MD-RINFO", "routingInfo")
  ]

  /** Everything the client itself supplies to a V3 header set. */
  datatype ClientFields = ClientFields(
    clientInfo: string,        // the cached `client_info`
    mdLu: string,              // hex of the SHA-256 of the decoded identifier
    deviceId: string,          // UUID string of the decoded identifier
    date: string,              // current local time, `yyyy-MM-dd'T'HH:mm:ss'Z'`
    locale: string,            // `Locale.current.identifier`
    timeZone: Option<string>)  // `TimeZone.current.abbreviation()`, which may be nil

  function CopyIfPresent(out: Fields, json: Fields, from: string, to: string): Fields {
    if from in json then out[to := json[from]] else out
  }

  /** Applies `CopyIfPresent` for every row of the table, first row first. */
  function CopyAll(out: Fields, json: Fields, table: seq<(string, string)>): Fields
    decreases |table|
  {
    if |table| == 0 then out
    else
      var last := table[|table| - 1];
      CopyIfPresent(CopyAll(out, json, table[..|table| - 1]), json, last.0, last.1)
  }

  /** No two rows of the table write the same field. */
  ghost predicate DistinctTargets(table: seq<(string, string)>) {
    forall i, j :: 0 <= i < j < |table| ==> table[i].1 != table[j].1
  }

  /**
    With distinct targets, each target ends up holding its source header when
    that is present, keeps its old value otherwise, and no other key changes.
  */
  lemma {:induction false} CopyAllSpec(out: Fields, json: Fields, table: seq<(string, string)>)
    requires DistinctTargets(table)
    ensures forall k :: 0 <= k < |table| ==>
              (table[k].1 in CopyAll(out, json, table) <==> table[k].0 in json || table[k].1 in out)
    ensures forall k :: 0 <= k < |table| && table[k].0 in json ==>
              CopyAll(out, json, table)[table[k].1] == json[table[k].0]
    ensures forall k :: 0 <= k < |table| && table[k].0 !in json && table[k].1 in out ==>
              CopyAll(out, json, table)[table[k].1] == out[table[k].1]
    ensures forall key :: (forall k :: 0 <= k < |table| ==> table[k].1 != key) ==>
              (key in CopyAll(out, json, table) <==> key in out) &&
              (key in out ==> CopyAll(out, json, table)[key] == out[key])
    decreases |table|
  {
    if |table| > 0 {
      var init := table[..|table| - 1];
      assert DistinctTargets(init);
      CopyAllSpec(out, json, init);
    }
  }

  /** The V1 reply remap: the constant serial number plus every Apple header that is present. */
  function RemapV1(json: Fields): (r: Fields)
    ensures SerialNumberKey in r && r[SerialNumberKey] == "0"
    ensures forall k :: 0 <= k < |V1Renames| ==>
              (V1Renames[k].1 in r <==> V1Renames[k].0 in json)
    ensures forall k :: 0 <= k < |V1Renames| && V1Renames[k].0 in json ==>
              r[V1Renames[k].1] == json[V1Renames[k].0]
    ensures forall key :: key in r ==>
              key == SerialNumberKey || exists k :: 0 <= k < |V1Renames| && V1Renames[k].1 == key
  {
    var start := map[SerialNumberKey := "0"];
    assert DistinctTargets(V1Renames);
    CopyAllSpec(start, json, V1Renames);
    CopyAll(start, json, V1Renames)
  }

  /** The fields a V3 header set can take from the server reply, with the serial number. */
  const ServerKeys: set<string> := {SerialNumberKey, "machineID", "oneTimePassword", "routingInfo"}

  /** The fields a V3 header set always takes from the client. */
  const ClientKeys: set<string> := {
    "deviceDescription", "localUserID", "deviceUniqueIdentifier", "date", "locale", "timeZone"
  }

  /** The keys a V3 header set can hold. */
  const V3Keys: set<string> := ServerKeys + ClientKeys

  /** The server part of a V3 header set: the serial number and the three renamed server fields. */
  function V3ServerPart(json: Fields): (f: Fields)
    ensures SerialNumberKey in f && f[SerialNumberKey] == "0"
    ensures forall k :: 0 <= k < |V3ServerRenames| ==>
              (V3ServerRenames[k].1 in f <==> V3ServerRenames[k].0 in json)
    ensures forall k :: 0 <= k < |V3ServerRenames| && V3ServerRenames[k].0 in json ==>
              f[V3ServerRenames[k].1] == json[V3ServerRenames[k].0]
    ensures f.Keys <= ServerKeys
  {
    var start := map[SerialNumberKey := "0"];
    assert DistinctTargets(V3ServerRenames);
    CopyAllSpec(start, json, V3ServerRenames);
    var f := CopyAll(start, json, V3ServerRenames);
    assert f.Keys <= ServerKeys by {
      forall key | key in f
        ensures key in ServerKeys
      {
        if key != SerialNumberKey {
          assert exists k :: 0 <= k < |V3ServerRenames| && V3ServerRenames[k].1 == key;
        }
      }
    }
    f
  }

  /** No server field is a client field. */
  lemma ServerKeysNotClient()
    ensures forall key :: key in ServerKeys ==> key !in ClientKeys
  {
  }

  /** Overwrites the client-owned fields; every other field is left alone. */
  function AddClientFields(f: Fields, client: ClientFields): (r: Fields)
    ensures forall key :: key !in ClientKeys ==> (key in r <==> key in f) && (key in f ==> r[key] == f[key])
    ensures "deviceDescription" in r && r["deviceDescription"] == client.clientInfo
    ensures "localUserID" in r && r["localUserID"] == client.mdLu
    ensures "deviceUniqueIdentifier" in r && r["deviceUniqueIdentifier"] == client.deviceId
    ensures "date" in r && r["date"] == client.date
    ensures "locale" in r && r["locale"] == client.locale
    ensures "timeZone" in r <==> client.timeZone.Some?
    ensures client.timeZone.Some? ==> r["timeZone"] == client.timeZone.value
  {
    var f := f["deviceDescription" := client.clientInfo];
    var f := f["localUserID" := client.mdLu];
    var f := f["deviceUniqueIdentifier" := client.deviceId];
    var f := f["date" := client.date];
    var f := f["locale" := client.locale];
    match client.timeZone
    case Some(zone) => f["timeZone" := zone]
    case None => f - {"timeZone"}
  }

  /**
    The V3 reply remap: three fields come from the server, the identity fields
    and the date, locale and time zone always come from the client.
  */
  function RemapV3(json: Fields, client: ClientFields): (r: Fields)
    ensures SerialNumberKey in r && r[SerialNumberKey] == "0"
    ensures forall k :: 0 <= k < |V3ServerRenames| ==>
              (V3ServerRenames[k].1 in r <==> V3ServerRenames[k].0 in json)
    ensures forall k :: 0 <= k < |V3ServerRenames| && V3ServerRenames[k].0 in json ==>
              r[V3ServerRenames[k].1] == json[V3ServerRenames[k].0]
    ensures "deviceDescription" in r && r["deviceDescription"] == client.clientInfo
    ensures "localUserID" in r && r["localUserID"] == client.mdLu
    ensures "deviceUniqueIdentifier" in r && r["deviceUniqueIdentifier"] == client.deviceId
    ensures "date" in r && r["date"] == client.date
    ensures "locale" in r && r["locale"] == client.locale
    ensures "timeZone" in r <==> client.timeZone.Some?
    ensures client.timeZone.Some? ==> r["timeZone"] == client.timeZone.value
    ensures r.Keys <= V3Keys
  {
    var f := V3ServerPart(json);
    ServerKeysNotClient();
    assert forall k :: 0 <= k < |V3ServerRenames| ==> V3ServerRenames[k].1 in ServerKeys;
    AddClientFields(f, client)
  }

  /**
    Nothing but the three server fields of a V3 reply matters: two replies that
    agree on them give the same header set, whatever identity or time fields
    either one carries.
  */
  lemma RemapV3OnlyReadsServerFields(a: Fields, b: Fields, client: ClientFields)
    requires forall k :: 0 <= k < |V3ServerRenames| ==>
               (V3ServerRenames[k].0 in a <==> V3ServerRenames[k].0 in b)
    requires forall k :: 0 <= k < |V3ServerRenames| && V3ServerRenames[k].0 in a ==>
               a[V3ServerRenames[k].0] == b[V3ServerRenames[k].0]
    ensures RemapV3(a, client) == RemapV3(b, client)
  {
    ServerPartOnlyReads(a, b);
  }

  /** The server part of a V3 header set depends on the three server fields alone. */
  lemma ServerPartOnlyReads(a: Fields, b: Fields)
    requires forall k :: 0 <= k < |V3ServerRenames| ==>
               (V3ServerRenames[k].0 in a <==> V3ServerRenames[k].0 in b)
    requires forall k :: 0 <= k < |V3ServerRenames| && V3ServerRenames[k].0 in a ==>
               a[V3ServerRenames[k].0] == b[V3ServerRenames[k].0]
    ensures V3ServerPart(a) == V3ServerPart(b)
  {
    var fa, fb := V3ServerPart(a), V3ServerPart(b);
    forall key | key in ServerKeys
      ensures (key in fa <==> key in fb) && (key in fa ==> fa[key] == fb[key])
    {
      if key != SerialNumberKey {
        var k := if key == "machineID" then 0 else if key == "oneTimePassword" then 1 else 2;
        assert V3ServerRenames[k].1 == key;
      }
    }
    assert fa.Keys == fb.Keys;
  }
}

=== FILE: app_icons.dfy ===
/**
  The icon list of the app-icon settings screen: the primary icon and every
  alternate icon from the bundle, sorted by asset name, with the three
  channel icons labelled and moved to the top.
*/
module AppIcons {
  import opened Wrappers

  datatype Icon = Icon(displayName: string, assetName: string)

  datatype SpecialIcon = SpecialIcon(assetName: string, suffix: Option<string>, forceIndex: Option<int>)

  /** The release-channel icons, in the order they are applied. */
  const SpecialIcons: seq<SpecialIcon> := [
    SpecialIcon("Neon", Some("(Stable)"), Some(0)),
    SpecialIcon("Starburst", Some("(Beta)"), Some(1)),
    SpecialIcon("Steel", Some("(Nightly)"), Some(2))
  ]

  // ---------------------------------------------------------------------------
  // String order
  // ---------------------------------------------------------------------------

  /** `a < b` on strings: lexicographic by character, a proper prefix first. */
  predicate Below(a: string, b: string)
    decreases |a|
  {
    if |b| == 0 then false
    else if |a| == 0 then true
    else if a[0] != b[0] then a[0] < b[0]
    else Below(a[1..], b[1..])
  }

  lemma {:induction false} BelowIrreflexive(a: string)
    ensures !Below(a, a)
    decreases |a|
  {
    if |a| > 0 {
      BelowIrreflexive(a[1..]);
    }
  }

  lemma {:induction false} BelowTotal(a: string, b: string)
    ensures Below(a, b) || a == b || Below(b, a)
    decreases |a|
  {
    if |a| > 0 && |b| > 0 && a[0] == b[0] {
      BelowTotal(a[1..], b[1..]);
      if a[1..] == b[1..] {
        assert a == [a[0]] + a[1..] && b == [b[0]] + b[1..];
      }
    }
  }

  lemma {:induction false} BelowAsymmetric(a: string, b: string)
    ensures !(Below(a, b) && Below(b, a))
    decreases |a|
  {
    if |a| > 0 && |b| > 0 && a[0] == b[0] {
      BelowAsymmetric(a[1..], b[1..]);
    }
  }

  lemma {:induction false} BelowTransitive(a: string, b: string, c: string)
    requires Below(a, b) && Below(b, c)
    ensures Below(a, c)
    decreases |a|
  {
    if |a| > 0 && a[0] == b[0] && b[0] == c[0] {
      BelowTransitive(a[1..], b[1..], c[1..]);
    }
  }

  /** `a` may stand before `b` in ascending order. */
  predicate NotAfter(a: string, b: string) {
    !Below(b, a)
  }

  lemma NotAfterTransitive(a: string, b: string, c: string)
    requires NotAfter(a, b) && NotAfter(b, c)
    ensures NotAfter(a, c)
  {
    if Below(c, a) {
      BelowTotal(a, b);
      if Below(a, b) {
        BelowTransitive(c, a, b);
      } else if a == b {
      } else {
        assert false;
      }
    }
  }

  // ---------------------------------------------------------------------------
  // Sorting
  // ---------------------------------------------------------------------------

  /** Ascending by asset name. */
  ghost predicate Sorted(s: seq<Icon>) {
    forall i, j :: 0 <= i < j < |s| ==> NotAfter(s[i].assetName, s[j].assetName)
  }

  function Names(s: seq<Icon>): (r: seq<string>)
    ensures |r| == |s| && forall i :: 0 <= i < |s| ==> r[i] == s[i].assetName
  {
    seq(|s|, i requires 0 <= i < |s| => s[i].assetName)
  }

  lemma NamesAppend(a: seq<Icon>, b: seq<Icon>)
    ensures Names(a + b) == Names(a) + Names(b)
  {
  }

  /** No row of `t` comes before the name `n`. */
  ghost predicate LowerBound(n: string, t: seq<Icon>) {
    forall i :: 0 <= i < |t| ==> NotAfter(n, t[i].assetName)
  }

  lemma SortedCons(y: Icon, t: seq<Icon>)
    requires Sorted(t) && LowerBound(y.assetName, t)
    ensures Sorted([y] + t)
  {
    var r := [y] + t;
    forall i, j | 0 <= i < j < |r|
      ensures NotAfter(r[i].assetName, r[j].assetName)
    {
      if i > 0 {
        assert r[i] == t[i - 1] && r[j] == t[j - 1];
      }
    }
  }

  /** `x` put in front of the first icon it does not come after. */
  function Insert(x: Icon, s: seq<Icon>): (r: seq<Icon>)
    requires Sorted(s)
    ensures Sorted(r)
    ensures multiset(r) == multiset(s) + multiset{x}
  {
    if |s| == 0 then [x]
    else if NotAfter(x.assetName, s[0].assetName) then
      InsertFront(x, s);
      [x] + s
    else
      var rest := Insert(x, s[1..]);
      InsertBehind(x, s, rest);
      [s[0]] + rest
  }

  /** `x` goes in front of a sorted list whose head it does not come after. */
  lemma InsertFront(x: Icon, s: seq<Icon>)
    requires Sorted(s) && |s| > 0 && NotAfter(x.assetName, s[0].assetName)
    ensures Sorted([x] + s)
  {
    forall j | 0 <= j < |s|
      ensures NotAfter(x.assetName, s[j].assetName)
    {
      if j > 0 {
        NotAfterTransitive(x.assetName, s[0].assetName, s[j].assetName);
      }
    }
    SortedCons(x, s);
  }

  /** `x` placed into the tail of a sorted list whose head comes before it. */
  lemma InsertBehind(x: Icon, s: seq<Icon>, rest: seq<Icon>)
    requires Sorted(s) && |s| > 0 && !NotAfter(x.assetName, s[0].assetName)
    requires Sorted(rest) && multiset(rest) == multiset(s[1..]) + multiset{x}
    ensures Sorted([s[0]] + rest)
    ensures multiset([s[0]] + rest) == multiset(s) + multiset{x}
  {
    BelowAsymmetric(x.assetName, s[0].assetName);
    forall j | 0 <= j < |rest|
      ensures NotAfter(s[0].assetName, rest[j].assetName)
    {
      assert rest[j] in multiset(s[1..]) + multiset{x} by {
        assert rest[j] in multiset(rest);
      }
      if rest[j] != x {
        assert rest[j] in multiset(s[1..]);
        var m :| 0 <= m < |s[1..]| && s[1..][m] == rest[j];
        assert s[m + 1] == rest[j];
      }
    }
    SortedCons(s[0], rest);
    assert s == [s[0]] + s[1..];
  }

  /**
    `icons.sort { $0.assetName < $1.assetName }`, as an insertion sort.
    Icons with equal asset names are equal, so any correct sort gives this
    list (`SortedUnique`).
  */
  function Sort(s: seq<Icon>): (r: seq<Icon>)
    ensures Sorted(r)
    ensures multiset(r) == multiset(s)
  {
    if |s| == 0 then []
    else
      assert s == [s[0]] + s[1..];
      Insert(s[0], Sort(s[1..]))
  }

  /** Reordering the icons reorders their names. */
  lemma {:induction false} NamesPermutation(a: seq<Icon>, b: seq<Icon>)
    requires multiset(a) == multiset(b)
    ensures multiset(Names(a)) == multiset(Names(b))
    decreases |a|
  {
    if |a| == 0 {
      assert |b| == |multiset(b)| == 0;
    } else {
      assert a[0] in multiset(b);
      var i :| 0 <= i < |b| && b[i] == a[0];
      RemoveMatching(a, b, i);
      NamesPermutation(RemoveAt(a, 0), RemoveAt(b, i));
      NamesRemoveAt(a, 0);
      NamesRemoveAt(b, i);
      assert Names(a)[0] == a[0].assetName && Names(b)[i] == a[0].assetName;
      Cancel(multiset(Names(a)), multiset(Names(b)), a[0].assetName);
    }
  }

  /** Taking the same element out of two equal multisets leaves equal multisets. */
  lemma RemoveMatching<T>(a: seq<T>, b: seq<T>, i: nat)
    requires multiset(a) == multiset(b) && |a| > 0 && i < |b| && b[i] == a[0]
    ensures multiset(RemoveAt(a, 0)) == multiset(RemoveAt(b, i))
  {
    MultisetRemoveAt(a, 0);
    MultisetRemoveAt(b, i);
    Cancel(multiset(RemoveAt(a, 0)) + multiset{a[0]}, multiset(RemoveAt(b, i)) + multiset{a[0]}, a[0]);
    assert multiset(RemoveAt(a, 0)) == (multiset(RemoveAt(a, 0)) + multiset{a[0]}) - multiset{a[0]};
    assert multiset(RemoveAt(b, i)) == (multiset(RemoveAt(b, i)) + multiset{a[0]}) - multiset{a[0]};
  }

  /** Two multisets that hold `x` and agree once one `x` is taken out are equal. */
  lemma Cancel<T>(p: multiset<T>, q: multiset<T>, x: T)
    requires x in p && x in q && p - multiset{x} == q - multiset{x}
    ensures p == q
  {
    forall y
      ensures p[y] == q[y]
    {
      assert (p - multiset{x})[y] == (q - multiset{x})[y];
    }
  }

  /** The first row of a sorted list comes before every row. */
  lemma HeadFirst(s: seq<Icon>, y: Icon)
    requires Sorted(s) && y in s
    ensures NotAfter(s[0].assetName, y.assetName)
  {
    var j :| 0 <= j < |s| && s[j] == y;
    if j == 0 {
      BelowIrreflexive(y.assetName);
    }
  }

  /** Two sorted lists of the same icons start with the same icon, when equal names mean equal icons. */
  lemma SameHead(a: seq<Icon>, b: seq<Icon>)
    requires Sorted(a) && Sorted(b) && multiset(a) == multiset(b) && |a| > 0 && NamesIdentify(a)
    ensures |b| > 0 && a[0] == b[0]
  {
    assert |a| == |multiset(a)| == |multiset(b)| == |b|;
    assert b[0] in multiset(a) && a[0] in multiset(b);
    HeadFirst(a, b[0]);
    HeadFirst(b, a[0]);
    BelowTotal(a[0].assetName, b[0].assetName);
  }

  lemma SameTail<T>(a: seq<T>, b: seq<T>)
    requires multiset(a) == multiset(b) && |a| > 0 && |b| > 0 && a[0] == b[0]
    ensures multiset(a[1..]) == multiset(b[1..])
  {
    assert a == [a[0]] + a[1..] && b == [b[0]] + b[1..];
    forall e
      ensures multiset(a[1..])[e] == multiset(b[1..])[e]
    {
      assert multiset(a)[e] == multiset{a[0]}[e] + multiset(a[1..])[e];
      assert multiset(b)[e] == multiset{b[0]}[e] + multiset(b[1..])[e];
    }
  }

  /** Equal asset names mean equal icons. */
  ghost predicate NamesIdentify(a: seq<Icon>) {
    forall x, y :: x in a && y in a && x.assetName == y.assetName ==> x == y
  }

  lemma DropHead(a: seq<Icon>)
    requires |a| > 0 && Sorted(a) && NamesIdentify(a)
    ensures Sorted(a[1..]) && NamesIdentify(a[1..])
  {
    forall x, y | x in a[1..] && y in a[1..] && x.assetName == y.assetName
      ensures x == y
    {
      assert x in a && y in a;
    }
  }

  /** Two sorted lists of the same icons are the same list, when equal names mean equal icons. */
  lemma {:induction false} SortedUnique(a: seq<Icon>, b: seq<Icon>)
    requires Sorted(a) && Sorted(b) && multiset(a) == multiset(b) && NamesIdentify(a)
    ensures a == b
    decreases |a|
  {
    if |a| == 0 {
      assert |b| == |multiset(b)| == 0;
    } else {
      SameHead(a, b);
      SameTail(a, b);
      DropHead(a);
      SortedTail(b);
      SortedUnique(a[1..], b[1..]);
      assert a == [a[0]] + a[1..] && b == [b[0]] + b[1..];
    }
  }

  lemma SortedTail(b: seq<Icon>)
    requires |b| > 0 && Sorted(b)
    ensures Sorted(b[1..])
  {
    assert forall i :: 0 <= i < |b| - 1 ==> b[1..][i] == b[i + 1];
  }

  // ---------------------------------------------------------------------------
  // Building the list
  // ---------------------------------------------------------------------------

  /** The primary icon, then one icon per alternate key, each named after its asset. */
  function InitialIcons(primary: string, alternates: seq<string>): (r: seq<Icon>)
    ensures |r| == |alternates| + 1
    ensures r[0] == Icon(primary, primary)
    ensures forall i :: 0 <= i < |alternates| ==> r[i + 1] == Icon(alternates[i], alternates[i])
    ensures Names(r) == [primary] + alternates
  {
    [Icon(primary, primary)] + seq(|alternates|, i requires 0 <= i < |alternates| => Icon(alternates[i], alternates[i]))
  }

  /** The offset of the first icon with this asset name. */
  function FirstIndex(icons: seq<Icon>, name: string): (k: Option<nat>)
    ensures k.Some? ==> k.value < |icons| && icons[k.value].assetName == name
    ensures k.Some? ==> forall i :: 0 <= i < k.value ==> icons[i].assetName != name
    ensures k.None? ==> forall i :: 0 <= i < |icons| ==> icons[i].assetName != name
  {
    if |icons| == 0 then None
    else if icons[0].assetName == name then Some(0)
    else match FirstIndex(icons[1..], name)
      case None => None
      case Some(k) => Some(k + 1)
  }

  function RemoveAt<T>(s: seq<T>, k: nat): (r: seq<T>)
    requires k < |s|
    ensures |r| == |s| - 1
    ensures forall i :: 0 <= i < k ==> r[i] == s[i]
    ensures forall i :: k <= i < |r| ==> r[i] == s[i + 1]
  {
    s[..k] + s[k + 1..]
  }

  function InsertAt<T>(s: seq<T>, j: nat, x: T): (r: seq<T>)
    requires j <= |s|
    ensures |r| == |s| + 1 && r[j] == x
    ensures forall i :: 0 <= i < j ==> r[i] == s[i]
    ensures forall i :: j < i < |r| ==> r[i] == s[i - 1]
  {
    s[..j] + [x] + s[j..]
  }

  /** The icon with the special icon's suffix, if it has one, appended to its display name. */
  function Labelled(icon: Icon, sp: SpecialIcon): (r: Icon)
    ensures r.assetName == icon.assetName
    ensures sp.suffix.None? ==> r == icon
    ensures sp.suffix.Some? ==> r.displayName == icon.displayName + " " + sp.suffix.value
  {
    match sp.suffix
    case Some(suffix) => icon.(displayName := icon.displayName + " " + suffix)
    case None => icon
  }

  /**
    One special icon, as the loop body is written: a forced index beyond the
    end of the list after the removal makes `insert(_:at:)` trap (`None`).
  */
  function ApplySpecialAsWritten(icons: seq<Icon>, sp: SpecialIcon): (r: Option<seq<Icon>>)
    ensures FirstIndex(icons, sp.assetName).None? ==> r == Some(icons)
  {
    match FirstIndex(icons, sp.assetName)
    case None => Some(icons)
    case Some(k) =>
      var e := Labelled(icons[k], sp);
      match sp.forceIndex
      case None => Some(icons[k := e])
      case Some(f) =>
        var rest := RemoveAt(icons, k);
        if 0 <= f <= |rest| then Some(InsertAt(rest, f, e)) else None
  }

  /** The forced index, kept inside the list: an index beyond the end means the end. */
  function Target(f: int, size: nat): (j: nat)
    ensures j <= size
    ensures 0 <= f <= size ==> j == f
  {
    if f < 0 then 0 else if f > size then size else f
  }

  lemma MultisetRemoveAt<T>(s: seq<T>, k: nat)
    requires k < |s|
    ensures multiset(s) == multiset(RemoveAt(s, k)) + multiset{s[k]}
  {
    assert s == s[..k] + [s[k]] + s[k + 1..];
  }

  lemma MultisetInsertAt<T>(s: seq<T>, j: nat, x: T)
    requires j <= |s|
    ensures multiset(InsertAt(s, j, x)) == multiset(s) + multiset{x}
  {
    assert s == s[..j] + s[j..];
  }

  /** The icon at `k` replaced by `e`, a relabelled copy of it. */
  function Relabel(icons: seq<Icon>, k: nat, e: Icon): (r: seq<Icon>)
    requires k < |icons| && e.assetName == icons[k].assetName
    ensures |r| == |icons| && r[k] == e && RemoveAt(r, k) == RemoveAt(icons, k)
    ensures Names(r) == Names(icons)
  {
    icons[k := e]
  }

  /** The icon at `k` taken out and `e`, a relabelled copy of it, put in at `j`. */
  function Move(icons: seq<Icon>, k: nat, j: nat, e: Icon): (r: seq<Icon>)
    requires k < |icons| && j < |icons| && e.assetName == icons[k].assetName
    ensures |r| == |icons| && r[j] == e && RemoveAt(r, j) == RemoveAt(icons, k)
    ensures multiset(Names(r)) == multiset(Names(icons))
  {
    var rest := RemoveAt(icons, k);
    var r := InsertAt(rest, j, e);
    assert Names(rest) == RemoveAt(Names(icons), k);
    assert Names(r) == InsertAt(Names(rest), j, e.assetName);
    MultisetRemoveAt(Names(icons), k);
    MultisetInsertAt(Names(rest), j, e.assetName);
    r
  }

  /**
    One special icon, as intended: an absent icon changes nothing; a present
    one is labelled and moved to its forced index (the end when the list is
    shorter). Every other icon keeps its name and relative order.
  */
  function ApplySpecial(icons: seq<Icon>, sp: SpecialIcon): (r: seq<Icon>)
    ensures |r| == |icons|
    ensures FirstIndex(icons, sp.assetName).None? ==> r == icons
    ensures FirstIndex(icons, sp.assetName).Some? ==>
              var k := FirstIndex(icons, sp.assetName).value;
              var j := if sp.forceIndex.Some? then Target(sp.forceIndex.value, |icons| - 1) else k;
              && r[j] == Labelled(icons[k], sp)
              && RemoveAt(r, j) == RemoveAt(icons, k)
    ensures multiset(Names(r)) == multiset(Names(icons))
    ensures ApplySpecialAsWritten(icons, sp).Some? ==> ApplySpecialAsWritten(icons, sp).value == r
  {
    match FirstIndex(icons, sp.assetName)
    case None => icons
    case Some(k) =>
      var e := Labelled(icons[k], sp);
      match sp.forceIndex
      case None => Relabel(icons, k, e)
      case Some(f) => Move(icons, k, Target(f, |icons| - 1), e)
  }

  /** The special icons applied in turn; `None` when one of them traps. */
  function ApplyAllAsWritten(icons: seq<Icon>, specials: seq<SpecialIcon>): (r: Option<seq<Icon>>)
    ensures r.Some? ==> r.value == ApplyAll(icons, specials)
    decreases |specials|
  {
    if |specials| == 0 then Some(icons)
    else match ApplySpecialAsWritten(icons, specials[0])
      case None => None
      case Some(next) => ApplyAllAsWritten(next, specials[1..])
  }

  /** The special icons applied in turn, as intended. */
  function ApplyAll(icons: seq<Icon>, specials: seq<SpecialIcon>): (r: seq<Icon>)
    ensures |r| == |icons|
    ensures multiset(Names(r)) == multiset(Names(icons))
    decreases |specials|
  {
    if |specials| == 0 then icons else ApplyAll(ApplySpecial(icons, specials[0]), specials[1..])
  }

  /**
    The icon list of `init()`: every icon of the bundle once, under its own
    asset name, as intended.
  */
  function BuildIcons(primary: string, alternates: seq<string>): (r: seq<Icon>)
    ensures |r| == |alternates| + 1
    ensures multiset(Names(r)) == multiset([primary] + alternates)
  {
    var initial := InitialIcons(primary, alternates);
    NamesPermutation(Sort(initial), initial);
    ApplyAll(Sort(initial), SpecialIcons)
  }

  /** `init()` as written; `None` when moving a special icon traps. */
  function BuildIconsAsWritten(primary: string, alternates: seq<string>): (r: Option<seq<Icon>>)
    ensures r.Some? ==> r.value == BuildIcons(primary, alternates)
  {
    ApplyAllAsWritten(Sort(InitialIcons(primary, alternates)), SpecialIcons)
  }

  /**
    A bundle whose only alternate is Steel: after the removal one icon is
    left, and Steel's forced index 2 lies beyond it, so the code as written
    traps, where the intended list ends with the labelled Steel icon.
  */
  lemma SteelAloneTraps()
    ensures BuildIconsAsWritten("AppIcon", ["Steel"]).None?
    ensures BuildIcons("AppIcon", ["Steel"]) == [Icon("AppIcon", "AppIcon"), Icon("Steel (Nightly)", "Steel")]
  {
    SteelAloneSorted();
    var sorted := [Icon("AppIcon", "AppIcon"), Icon("Steel", "Steel")];
    SteelAloneAsWritten(sorted);
    SteelAloneIntended(sorted);
  }

  /** As written, Steel's insertion at 2 into the one remaining row traps. */
  lemma SteelAloneAsWritten(sorted: seq<Icon>)
    requires sorted == [Icon("AppIcon", "AppIcon"), Icon("Steel", "Steel")]
    ensures ApplyAllAsWritten(sorted, SpecialIcons).None?
  {
    SteelAloneNoChannelBefore(sorted);
    ApplyThreeAsWritten(sorted);
    assert ApplySpecialAsWritten(sorted, SpecialIcons[0]) == Some(sorted);
    assert ApplySpecialAsWritten(sorted, SpecialIcons[1]) == Some(sorted);
    SteelFound(sorted);
    assert |RemoveAt(sorted, 1)| == 1;
  }

  /** As intended, Steel is labelled and stays last. */
  lemma SteelAloneIntended(sorted: seq<Icon>)
    requires sorted == [Icon("AppIcon", "AppIcon"), Icon("Steel", "Steel")]
    ensures ApplyAll(sorted, SpecialIcons) == [Icon("AppIcon", "AppIcon"), Icon("Steel (Nightly)", "Steel")]
  {
    SteelAloneNoChannelBefore(sorted);
    ApplyThree(sorted);
    assert ApplySpecial(sorted, SpecialIcons[0]) == sorted;
    assert ApplySpecial(sorted, SpecialIcons[1]) == sorted;
    SteelFound(sorted);
    var r := ApplySpecial(sorted, SpecialIcons[2]);
    assert Target(2, 1) == 1;
    assert r[1] == Labelled(sorted[1], SpecialIcons[2]);
    assert RemoveAt(r, 1) == RemoveAt(sorted, 1) == [sorted[0]];
    assert r[0] == sorted[0];
    assert Labelled(sorted[1], SpecialIcons[2]) == Icon("Steel (Nightly)", "Steel");
  }

  lemma SteelFound(sorted: seq<Icon>)
    requires sorted == [Icon("AppIcon", "AppIcon"), Icon("Steel", "Steel")]
    ensures FirstIndex(sorted, SpecialIcons[2].assetName) == Some(1)
  {
    assert "Steel"[0] != "AppIcon"[0];
  }

  /** The bundle's two icons sorted: the primary icon first. */
  lemma SteelAloneSorted()
    ensures Sort(InitialIcons("AppIcon", ["Steel"])) == [Icon("AppIcon", "AppIcon"), Icon("Steel", "Steel")]
  {
    var a := Icon("AppIcon", "AppIcon");
    var b := Icon("Steel", "Steel");
    var initial := InitialIcons("AppIcon", ["Steel"]);
    assert initial == [a, b];
    assert initial[1..] == [b];
    assert Sort([b]) == Insert(b, Sort([])) == [b];
    assert Below("AppIcon", "Steel") by {
      assert "AppIcon"[0] == 'A' && "Steel"[0] == 'S';
    }
    assert Insert(a, [b]) == [a, b];
  }

  /** Neither Neon nor Starburst is in the Steel-only bundle. */
  lemma SteelAloneNoChannelBefore(s: seq<Icon>)
    requires s == [Icon("AppIcon", "AppIcon"), Icon("Steel", "Steel")]
    ensures FirstIndex(s, SpecialIcons[0].assetName).None?
    ensures FirstIndex(s, SpecialIcons[1].assetName).None?
  {
    assert "Neon"[0] != "AppIcon"[0] && "Neon"[0] != "Steel"[0];
    assert "Starburst"[2] != "Steel"[2] && "Starburst"[0] != "AppIcon"[0];
    assert s[1..][1..] == [];
  }

  /** The three channel icons applied one after another, as written. */
  lemma ApplyThreeAsWritten(s0: seq<Icon>)
    ensures ApplyAllAsWritten(s0, SpecialIcons)
         == match ApplySpecialAsWritten(s0, SpecialIcons[0])
            case None => None
            case Some(s1) =>
              match ApplySpecialAsWritten(s1, SpecialIcons[1])
              case None => None
              case Some(s2) => ApplySpecialAsWritten(s2, SpecialIcons[2])
  {
    var rest1 := SpecialIcons[1..];
    var rest2 := rest1[1..];
    assert rest1[0] == SpecialIcons[1] && rest2[0] == SpecialIcons[2] && rest2[1..] == [];
    match ApplySpecialAsWritten(s0, SpecialIcons[0])
    case None =>
    case Some(s1) =>
      match ApplySpecialAsWritten(s1, SpecialIcons[1])
      case None =>
      case Some(s2) =>
        match ApplySpecialAsWritten(s2, SpecialIcons[2])
        case None =>
        case Some(s3) =>
          assert ApplyAllAsWritten(s3, rest2[1..]) == Some(s3);
  }

  // ---------------------------------------------------------------------------
  // Properties of the finished list
  // ---------------------------------------------------------------------------

  /**
    The three channel icons, when all are in the bundle, are the first three
    rows, labelled; the rest stay sorted; and the code as written does not trap
    on such a bundle.
  */
  lemma ChannelIconsOnTop(primary: string, alternates: seq<string>)
    requires "Neon" in [primary] + alternates
    requires "Starburst" in [primary] + alternates
    requires "Steel" in [primary] + alternates
    ensures var r := BuildIcons(primary, alternates);
      && |r| >= 3
      && r[0] == Icon("Neon (Stable)", "Neon")
      && r[1] == Icon("Starburst (Beta)", "Starburst")
      && r[2] == Icon("Steel (Nightly)", "Steel")
      && Sorted(r[3..])
    ensures BuildIconsAsWritten(primary, alternates) == Some(BuildIcons(primary, alternates))
  {
    ChannelRows(primary, alternates);
    BuildNeverTraps(primary, alternates);
  }

  /** The rows of `ChannelIconsOnTop`. */
  lemma ChannelRows(primary: string, alternates: seq<string>)
    requires "Neon" in [primary] + alternates
    requires "Starburst" in [primary] + alternates
    requires "Steel" in [primary] + alternates
    ensures var r := BuildIcons(primary, alternates);
      && |r| >= 3
      && r[0] == Icon("Neon (Stable)", "Neon")
      && r[1] == Icon("Starburst (Beta)", "Starburst")
      && r[2] == Icon("Steel (Nightly)", "Steel")
      && Sorted(r[3..])
  {
    var initial := InitialIcons(primary, alternates);
    var s0 := Sort(initial);
    NamesPermutation(s0, initial);
    PlainSorted(primary, alternates);
    assert multiset(Names(s0)) == multiset([primary] + alternates);
    StartPlaced(s0);
    AllPlaced(s0);
    ApplyThree(s0);
    Captions();
  }

  /**
    A bundle of at least three icons never traps: every forced index lies
    inside the list, so the code as written builds the intended list.
  */
  lemma BuildNeverTraps(primary: string, alternates: seq<string>)
    requires |alternates| >= 2
    ensures BuildIconsAsWritten(primary, alternates) == Some(BuildIcons(primary, alternates))
  {
    var s0 := Sort(InitialIcons(primary, alternates));
    assert |s0| == |BuildIcons(primary, alternates)|;
    ChannelsWithin(|s0|);
    AllWithin(s0, SpecialIcons);
  }

  /** Every forced index of `specials` lies inside a list of `size` icons. */
  ghost predicate ForcedWithin(specials: seq<SpecialIcon>, size: nat) {
    forall i :: 0 <= i < |specials| && specials[i].forceIndex.Some? ==> 0 <= specials[i].forceIndex.value < size
  }

  lemma ChannelsWithin(size: nat)
    requires size >= 3
    ensures ForcedWithin(SpecialIcons, size)
  {
  }

  /** With every forced index inside the list, the special icons applied as written never trap. */
  lemma {:induction false} AllWithin(icons: seq<Icon>, specials: seq<SpecialIcon>)
    requires ForcedWithin(specials, |icons|)
    ensures ApplyAllAsWritten(icons, specials) == Some(ApplyAll(icons, specials))
    decreases |specials|
  {
    if |specials| > 0 {
      SpecialWithin(icons, specials[0]);
      var next := ApplySpecial(icons, specials[0]);
      assert forall i :: 0 <= i < |specials[1..]| ==> specials[1..][i] == specials[i + 1];
      AllWithin(next, specials[1..]);
    }
  }

  /** One special icon whose forced index lies inside the list: the code as written does not trap. */
  lemma SpecialWithin(icons: seq<Icon>, sp: SpecialIcon)
    requires sp.forceIndex.Some? ==> 0 <= sp.forceIndex.value < |icons|
    ensures ApplySpecialAsWritten(icons, sp) == Some(ApplySpecial(icons, sp))
  {
  }

  /** Applying the three channel icons to a list where none is placed yet places all three. */
  lemma AllPlaced(s0: seq<Icon>)
    requires Placed(s0, 0)
    ensures Placed(ApplySpecial(ApplySpecial(ApplySpecial(s0, SpecialIcons[0]), SpecialIcons[1]), SpecialIcons[2]), 3)
  {
    var s1 := PlaceNext(s0, 0);
    var s2 := PlaceNext(s1, 1);
    var s3 := PlaceNext(s2, 2);
  }

  /** `PlaceStep`, naming the list it produces. */
  lemma PlaceNext(s: seq<Icon>, m: nat) returns (t: seq<Icon>)
    requires m < 3 && Placed(s, m)
    ensures t == ApplySpecial(s, SpecialIcons[m]) && Placed(t, m + 1)
  {
    PlaceStep(s, m);
    t := ApplySpecial(s, SpecialIcons[m]);
  }

  /** The three channel icons are applied one after another. */
  lemma ApplyThree(s0: seq<Icon>)
    ensures ApplyAll(s0, SpecialIcons)
         == ApplySpecial(ApplySpecial(ApplySpecial(s0, SpecialIcons[0]), SpecialIcons[1]), SpecialIcons[2])
  {
    var rest1 := SpecialIcons[1..];
    var rest2 := rest1[1..];
    assert rest1[0] == SpecialIcons[1] && rest2[0] == SpecialIcons[2] && rest2[1..] == [];
  }

  /** The sorted initial list is plain. */
  lemma PlainSorted(primary: string, alternates: seq<string>)
    ensures Plain(Sort(InitialIcons(primary, alternates)))
  {
    var initial := InitialIcons(primary, alternates);
    assert Plain(initial) by {
      forall i | 0 <= i < |initial|
        ensures initial[i].displayName == initial[i].assetName
      {
        if i > 0 {
          assert initial[i] == Icon(alternates[i - 1], alternates[i - 1]);
        }
      }
    }
    PlainPermutation(Sort(initial), initial);
  }

  /** Reordering plain rows gives plain rows. */
  lemma PlainPermutation(a: seq<Icon>, b: seq<Icon>)
    requires multiset(a) == multiset(b) && Plain(b)
    ensures Plain(a)
  {
    forall i | 0 <= i < |a|
      ensures a[i].displayName == a[i].assetName
    {
      assert a[i] in multiset(b);
      var j :| 0 <= j < |b| && b[j] == a[i];
    }
  }

  /** The display name a special icon with a suffix gets. */
  function Caption(sp: SpecialIcon): (c: string)
    requires sp.suffix.Some?
    ensures |c| > |sp.assetName| && c[..|sp.assetName|] == sp.assetName
  {
    sp.assetName + " " + sp.suffix.value
  }

  /** The display names the channel suffixes produce. */
  lemma Captions()
    ensures Caption(SpecialIcons[0]) == "Neon (Stable)"
    ensures Caption(SpecialIcons[1]) == "Starburst (Beta)"
    ensures Caption(SpecialIcons[2]) == "Steel (Nightly)"
  {
  }

  /** The channel icons have three different names. */
  lemma ChannelNamesDistinct()
    ensures SpecialIcons[0].assetName != SpecialIcons[1].assetName
    ensures SpecialIcons[0].assetName != SpecialIcons[2].assetName
    ensures SpecialIcons[1].assetName != SpecialIcons[2].assetName
  {
    assert "Neon"[0] != "Starburst"[0] && "Neon"[0] != "Steel"[0] && "Starburst"[2] != "Steel"[2];
  }

  /**
    The first `m` channel icons are in place, labelled; the rows after them
    are sorted, plain, and hold the remaining channel icons.
  */
  ghost predicate Placed(s: seq<Icon>, m: nat) {
    && m <= 3 && m <= |s|
    && (forall c :: 0 <= c < m ==> s[c] == Icon(Caption(SpecialIcons[c]), SpecialIcons[c].assetName))
    && Sorted(s[m..]) && Plain(s[m..])
    && (forall c :: m <= c < 3 ==> SpecialIcons[c].assetName in multiset(Names(s[m..])))
  }

  /** A sorted, plain list holding the three channel names has none of them placed yet. */
  lemma StartPlaced(s: seq<Icon>)
    requires Sorted(s) && Plain(s)
    requires "Neon" in multiset(Names(s)) && "Starburst" in multiset(Names(s)) && "Steel" in multiset(Names(s))
    ensures Placed(s, 0)
  {
    assert s[0..] == s;
    assert SpecialIcons[0].assetName == "Neon" && SpecialIcons[1].assetName == "Starburst";
    assert SpecialIcons[2].assetName == "Steel";
  }

  /** Applying the next channel icon places it. */
  lemma PlaceStep(s: seq<Icon>, m: nat)
    requires m < 3 && Placed(s, m)
    ensures Placed(ApplySpecial(s, SpecialIcons[m]), m + 1)
  {
    ChannelNamesDistinct();
    var sp := SpecialIcons[m];
    assert |s[m..]| > 0;
    var r := MoveToFront(s, m, sp);
    PlacedPrefix(s, r, m);
    PlacedRemainder(s, r, m);
  }

  /** The rows before `m` kept and the channel icon `m` put at `m`: the first `m + 1` are placed. */
  lemma PlacedPrefix(s: seq<Icon>, r: seq<Icon>, m: nat)
    requires m < 3 && m < |s| && |r| == |s| && r[..m] == s[..m]
    requires forall c :: 0 <= c < m ==> s[c] == Icon(Caption(SpecialIcons[c]), SpecialIcons[c].assetName)
    requires r[m] == Icon(Caption(SpecialIcons[m]), SpecialIcons[m].assetName)
    ensures forall c :: 0 <= c < m + 1 ==> r[c] == Icon(Caption(SpecialIcons[c]), SpecialIcons[c].assetName)
  {
    forall c | 0 <= c < m + 1
      ensures r[c] == Icon(Caption(SpecialIcons[c]), SpecialIcons[c].assetName)
    {
      if c < m {
        assert r[c] == r[..m][c];
      }
    }
  }

  /** The channel icons after `m` are still among the rows after `m + 1`. */
  lemma PlacedRemainder(s: seq<Icon>, r: seq<Icon>, m: nat)
    requires m < 3 && m < |s| && |r| == |s|
    requires forall c :: m <= c < 3 ==> SpecialIcons[c].assetName in multiset(Names(s[m..]))
    requires multiset(Names(r[m + 1..])) == multiset(Names(s[m..])) - multiset{SpecialIcons[m].assetName}
    ensures forall c :: m + 1 <= c < 3 ==> SpecialIcons[c].assetName in multiset(Names(r[m + 1..]))
  {
    ChannelNamesDistinct();
    forall c | m + 1 <= c < 3
      ensures SpecialIcons[c].assetName in multiset(Names(r[m + 1..]))
    {
      assert SpecialIcons[c].assetName in multiset(Names(s[m..]));
      assert SpecialIcons[c].assetName != SpecialIcons[m].assetName;
    }
  }

  /** Rows still named after their asset, as `init()` creates them. */
  ghost predicate Plain(s: seq<Icon>) {
    forall i :: 0 <= i < |s| ==> s[i].displayName == s[i].assetName
  }

  /** Dropping a row keeps the others sorted. */
  lemma SortedRemoveAt(s: seq<Icon>, k: nat)
    requires k < |s| && Sorted(s)
    ensures Sorted(RemoveAt(s, k))
  {
    var r := RemoveAt(s, k);
    forall i, j | 0 <= i < j < |r|
      ensures NotAfter(r[i].assetName, r[j].assetName)
    {
      var i' := if i < k then i else i + 1;
      var j' := if j < k then j else j + 1;
      assert r[i] == s[i'] && r[j] == s[j'] && i' < j';
    }
  }

  /** Moving a row forward to `n`: the rows before `n` stay, the rows after are the others in order. */
  lemma MoveForward(s: seq<Icon>, k: nat, n: nat, e: Icon)
    requires n <= k < |s| && e.assetName == s[k].assetName
    ensures var r := Move(s, k, n, e);
      r[..n] == s[..n] && r[n + 1..] == RemoveAt(s[n..], k - n)
  {
    var r := Move(s, k, n, e);
    var tail := RemoveAt(s[n..], k - n);
    assert |r[n + 1..]| == |tail|;
    forall i | 0 <= i < |tail|
      ensures r[n + 1..][i] == tail[i]
    {
      if i < k - n {
        assert tail[i] == s[n + i];
      } else {
        assert tail[i] == s[n + i + 1];
      }
    }
  }

  /** Dropping a row keeps the others plain. */
  lemma PlainRemoveAt(s: seq<Icon>, k: nat)
    requires k < |s| && Plain(s)
    ensures Plain(RemoveAt(s, k))
  {
  }

  /** Dropping a row drops its name once. */
  lemma NamesRemoveAt(s: seq<Icon>, k: nat)
    requires k < |s|
    ensures multiset(Names(RemoveAt(s, k))) == multiset(Names(s)) - multiset{s[k].assetName}
  {
    var names := Names(s);
    assert Names(RemoveAt(s, k)) == RemoveAt(names, k);
    MultisetRemoveAt(names, k);
    forall m
      ensures multiset(RemoveAt(names, k))[m] == (multiset(names) - multiset{names[k]})[m]
    {
      assert multiset(names)[m] == multiset(RemoveAt(names, k))[m] + multiset{names[k]}[m];
    }
    assert multiset(RemoveAt(names, k)) == multiset(names) - multiset{names[k]};
  }

  /**
    Moving a special icon that is present and not yet placed to its forced
    index `n`: the rows before `n` stay, it lands at `n` labelled, and the
    rows after it are the other unplaced rows, still sorted and plain.
  */
  lemma MoveToFront(s: seq<Icon>, n: nat, sp: SpecialIcon) returns (r: seq<Icon>)
    requires sp.forceIndex == Some(n) && sp.suffix.Some?
    requires n < |s| && sp.assetName in multiset(Names(s[n..]))
    requires forall i :: 0 <= i < n ==> s[i].assetName != sp.assetName
    requires Sorted(s[n..]) && Plain(s[n..])
    ensures r == ApplySpecial(s, sp)
    ensures |r| == |s| && r[..n] == s[..n] && r[n] == Icon(Caption(sp), sp.assetName)
    ensures Sorted(r[n + 1..]) && Plain(r[n + 1..])
    ensures multiset(Names(r[n + 1..])) == multiset(Names(s[n..])) - multiset{sp.assetName}
  {
    var k := LocateSpecial(s, n, sp);
    r := ApplySpecial(s, sp);
    MovedRows(s, k, n, sp, r);
  }

  /** The rows after moving the plain special icon at `k` forward to `n`. */
  lemma MovedRows(s: seq<Icon>, k: nat, n: nat, sp: SpecialIcon, r: seq<Icon>)
    requires n <= k < |s| && sp.suffix.Some? && s[k] == Icon(sp.assetName, sp.assetName)
    requires r == Move(s, k, n, Labelled(s[k], sp))
    requires Sorted(s[n..]) && Plain(s[n..])
    ensures |r| == |s| && r[..n] == s[..n] && r[n] == Icon(Caption(sp), sp.assetName)
    ensures Sorted(r[n + 1..]) && Plain(r[n + 1..])
    ensures multiset(Names(r[n + 1..])) == multiset(Names(s[n..])) - multiset{sp.assetName}
  {
    var e := Labelled(s[k], sp);
    MoveForward(s, k, n, e);
    assert s[n..][k - n] == s[k];
    RemovedTail(r[n + 1..], s[n..], k - n, sp.assetName);
    LabelledPlain(s[k], sp);
  }

  /** The unplaced rows without the special icon: still sorted and plain, one name fewer. */
  lemma RemovedTail(rest: seq<Icon>, t: seq<Icon>, k: nat, name: string)
    requires k < |t| && rest == RemoveAt(t, k) && t[k].assetName == name && Sorted(t) && Plain(t)
    ensures Sorted(rest) && Plain(rest)
    ensures multiset(Names(rest)) == multiset(Names(t)) - multiset{name}
  {
    SortedRemoveAt(t, k);
    PlainRemoveAt(t, k);
    NamesRemoveAt(t, k);
  }

  /** A plain special icon, labelled, shows its caption. */
  lemma LabelledPlain(icon: Icon, sp: SpecialIcon)
    requires sp.suffix.Some? && icon == Icon(sp.assetName, sp.assetName)
    ensures Labelled(icon, sp) == Icon(Caption(sp), sp.assetName)
  {
  }

  /** A special icon present at or after `n` and not before: found at some `k >= n` and moved from there. */
  lemma LocateSpecial(s: seq<Icon>, n: nat, sp: SpecialIcon) returns (k: nat)
    requires sp.forceIndex == Some(n) && n < |s| && sp.assetName in multiset(Names(s[n..]))
    requires forall i :: 0 <= i < n ==> s[i].assetName != sp.assetName
    requires Plain(s[n..])
    ensures n <= k < |s| && FirstIndex(s, sp.assetName) == Some(k)
    ensures s[k] == Icon(sp.assetName, sp.assetName) && s[n..][k - n] == s[k]
    ensures ApplySpecial(s, sp) == Move(s, k, n, Labelled(s[k], sp))
  {
    assert sp.assetName in Names(s[n..]);
    var i :| 0 <= i < |s[n..]| && Names(s[n..])[i] == sp.assetName;
    assert s[n + i].assetName == sp.assetName;
    k := FirstIndex(s, sp.assetName).value;
    assert s[k] == s[n..][k - n];
  }

  /**
    The selected icon: the current alternate icon when some row has that
    asset name, otherwise the primary icon.
  */
  function SelectedIcon(icons: seq<Icon>, primary: string, alternateIconName: Option<string>): (r: string)
    ensures alternateIconName.Some? && alternateIconName.value in Names(icons) ==> r == alternateIconName.value
    ensures !(alternateIconName.Some? && alternateIconName.value in Names(icons)) ==> r == primary
  {
    match alternateIconName
    case None => primary
    case Some(name) =>
      match FirstIndex(icons, name)
      case Some(k) => icons[k].assetName
      case None => primary
  }
}

=== FILE: base64.dfy ===
/**
  Base 64 encoding with the standard alphabet and `=` padding (section 4 of
  RFC 4648), as `Data.base64EncodedString()` writes it and
  `Data(base64Encoded:)` reads it back.
*/
module Base64 {
  import opened Wrappers
  import opened Bytes

  /** The character that stands for a 6-bit value. */
  function CharOf(v: nat): char
    requires v < 64
  {
    if v < 26 then ('A' as int + v) as char
    else if v < 52 then ('a' as int + v - 26) as char
    else if v < 62 then ('0' as int + v - 52) as char
    else if v == 62 then '+'
    else '/'
  }

  /** The 6-bit value of an alphabet character; the pad `=` and anything else have none. */
  function ValueOf(c: char): (r: Option<nat>)
    ensures r.Some? ==> r.value < 64
  {
    if 'A' <= c <= 'Z' then Some(c as int - 'A' as int)
    else if 'a' <= c <= 'z' then Some(c as int - 'a' as int + 26)
    else if '0' <= c <= '9' then Some(c as int - '0' as int + 52)
    else if c == '+' then Some(62)
    else if c == '/' then Some(63)
    else None
  }

  lemma ValueOfCharOf(v: nat)
    requires v < 64
    ensures ValueOf(CharOf(v)) == Some(v)
  {
  }

  /** Three bytes become four characters. */
  function EncodeGroup(a: uint8, b: uint8, c: uint8): string {
    [CharOf(a as int / 4), CharOf(a as int % 4 * 16 + b as int / 16),
     CharOf(b as int % 16 * 4 + c as int / 64), CharOf(c as int % 64)]
  }

  /** A final single byte becomes two characters and two pads. */
  function EncodeLast1(a: uint8): string {
    [CharOf(a as int / 4), CharOf(a as int % 4 * 16), '=', '=']
  }

  /** A final pair of bytes becomes three characters and one pad. */
  function EncodeLast2(a: uint8, b: uint8): string {
    [CharOf(a as int / 4), CharOf(a as int % 4 * 16 + b as int / 16), CharOf(b as int % 16 * 4), '=']
  }

  function Encode(data: Bytes): (r: string)
    ensures |r| == 4 * ((|data| + 2) / 3)
    decreases |data|
  {
    if |data| == 0 then ""
    else if |data| == 1 then EncodeLast1(data[0])
    else if |data| == 2 then EncodeLast2(data[0], data[1])
    else EncodeGroup(data[0], data[1], data[2]) + Encode(data[3..])
  }

  /** Decodes one block of four characters, of which the last one or two may be pads. */
  function DecodeBlock(s: string): (r: Option<Bytes>)
    requires |s| == 4
    ensures r.Some? ==> 1 <= |r.value| <= 3
  {
    match (ValueOf(s[0]), ValueOf(s[1]), ValueOf(s[2]), ValueOf(s[3]))
    case (Some(v0), Some(v1), _, _) =>
      var b0 := (v0 * 4 + v1 / 16) as uint8;
      if s[2] == '=' && s[3] == '=' then Some([b0])
      else if s[3] == '=' then
        (match ValueOf(s[2])
         case Some(v2) => Some([b0, (v1 % 16 * 16 + v2 / 4) as uint8])
         case None => None)
      else
        (match (ValueOf(s[2]), ValueOf(s[3]))
         case (Some(v2), Some(v3)) => Some([b0, (v1 % 16 * 16 + v2 / 4) as uint8, (v2 % 4 * 64 + v3) as uint8])
         case _ => None)
    case _ => None
  }

  /** A string is decoded block by block; pads may only appear in the last block. */
  function Decode(s: string): Option<Bytes>
    decreases |s|
  {
    if |s| == 0 then Some([])
    else if |s| < 4 then None
    else
      match DecodeBlock(s[..4])
      case None => None
      case Some(block) =>
        if |s| == 4 then Some(block)
        else if |block| < 3 then None
        else
          match Decode(s[4..])
          case None => None
          case Some(rest) => Some(block + rest)
  }

  lemma GroupRoundTrip(a: uint8, b: uint8, c: uint8)
    ensures DecodeBlock(EncodeGroup(a, b, c)) == Some([a, b, c])
  {
    var s := EncodeGroup(a, b, c);
    var v0, v1, v2, v3 := a as int / 4, a as int % 4 * 16 + b as int / 16, b as int % 16 * 4 + c as int / 64, c as int % 64;
    ValueOfCharOf(v0);
    ValueOfCharOf(v1);
    ValueOfCharOf(v2);
    ValueOfCharOf(v3);
    assert v1 / 16 == a as int % 4 && v1 % 16 == b as int / 16;
    assert v2 / 4 == b as int % 16 && v2 % 4 == c as int / 64;
  }

  lemma Last1RoundTrip(a: uint8)
    ensures DecodeBlock(EncodeLast1(a)) == Some([a])
  {
    var v0, v1 := a as int / 4, a as int % 4 * 16;
    ValueOfCharOf(v0);
    ValueOfCharOf(v1);
    assert v1 / 16 == a as int % 4;
  }

  lemma Last2RoundTrip(a: uint8, b: uint8)
    ensures DecodeBlock(EncodeLast2(a, b)) == Some([a, b])
  {
    var v0, v1, v2 := a as int / 4, a as int % 4 * 16 + b as int / 16, b as int % 16 * 4;
    ValueOfCharOf(v0);
    ValueOfCharOf(v1);
    ValueOfCharOf(v2);
    assert v1 / 16 == a as int % 4 && v1 % 16 == b as int / 16;
    assert v2 / 4 == b as int % 16;
  }

  /** Decoding an encoding gives the bytes back. */
  lemma {:induction false} RoundTrip(data: Bytes)
    ensures Decode(Encode(data)) == Some(data)
    decreases |data|
  {
    if |data| == 1 {
      Last1RoundTrip(data[0]);
      DecodeSingle(EncodeLast1(data[0]));
      assert [data[0]] == data;
    } else if |data| == 2 {
      Last2RoundTrip(data[0], data[1]);
      DecodeSingle(EncodeLast2(data[0], data[1]));
      assert [data[0], data[1]] == data;
    } else if |data| == 3 {
      GroupRoundTrip(data[0], data[1], data[2]);
      assert Encode(data) == EncodeGroup(data[0], data[1], data[2]);
      DecodeSingle(Encode(data));
      assert [data[0], data[1], data[2]] == data;
    } else if |data| > 3 {
      RoundTrip(data[3..]);
      GroupThenRest(data);
    }
  }

  /** A single block decodes on its own. */
  lemma DecodeSingle(s: string)
    requires |s| == 4
    ensures Decode(s) == DecodeBlock(s)
  {
    assert s[..4] == s;
  }

  /** A full block followed by a decodable string decodes to the block's bytes and then the rest. */
  lemma DecodeCons(s: string, block: Bytes, rest: Bytes)
    requires |s| > 4 && DecodeBlock(s[..4]) == Some(block) && |block| == 3 && Decode(s[4..]) == Some(rest)
    ensures Decode(s) == Some(block + rest)
  {
  }

  /** A full group followed by a decodable encoding decodes to the group's bytes and then the rest. */
  lemma GroupThenRest(data: Bytes)
    requires |data| > 3 && Decode(Encode(data[3..])) == Some(data[3..])
    ensures Decode(Encode(data)) == Some(data)
  {
    var g := EncodeGroup(data[0], data[1], data[2]);
    var t := Encode(data[3..]);
    var s := Encode(data);
    assert s == g + t;
    assert s[..4] == g && s[4..] == t;
    GroupRoundTrip(data[0], data[1], data[2]);
    DecodeCons(s, [data[0], data[1], data[2]], data[3..]);
    SplitThree(data);
  }

  lemma SplitThree<T>(d: seq<T>)
    requires |d| >= 3
    ensures [d[0], d[1], d[2]] + d[3..] == d
  {
  }
}

=== FILE: bytes.dfy ===
/** Raw bytes, as Foundation's `Data` holds them. */
module Bytes {

  newtype uint8 = x: int | 0 <= x < 256

  type Bytes = seq<uint8>
}

=== FILE: decimal.dfy ===
/**
  Decimal rendering of integers, as `String(format: "%@", NSNumber(value:))`
  prints an `Int`, together with the parser that reads such text back.
*/
module Decimal {
  import opened Wrappers

  predicate IsDigit(c: char) {
    '0' <= c <= '9'
  }

  function DigitChar(d: nat): (c: char)
    requires d < 10
    ensures IsDigit(c)
  {
    ('0' as int + d) as char
  }

  /** The digits of `n`, most significant first, without leading zeros. */
  function NatToString(n: nat): (r: string)
    ensures |r| > 0
    ensures forall i :: 0 <= i < |r| ==> IsDigit(r[i])
    decreases n
  {
    if n < 10 then [DigitChar(n)] else NatToString(n / 10) + [DigitChar(n % 10)]
  }

  /** A leading `-` for negative values, then the digits of the magnitude. */
  function IntToString(i: int): (r: string)
    ensures |r| > 0
    ensures (r[0] == '-') <==> i < 0
  {
    if i < 0 then "-" + NatToString(-i) else NatToString(i)
  }

  /** The value of a string of digits. */
  function DigitsValue(s: string): (v: nat)
    requires forall i :: 0 <= i < |s| ==> IsDigit(s[i])
    ensures |s| == 1 ==> v < 10
    decreases |s|
  {
    if |s| == 0 then 0
    else
      assert IsDigit(s[|s| - 1]);
      DigitsValue(s[..|s| - 1]) * 10 + (s[|s| - 1] as int - '0' as int)
  }

  predicate AllDigits(s: string) {
    |s| > 0 && forall i :: 0 <= i < |s| ==> IsDigit(s[i])
  }

  /** Reads an optionally negative decimal integer; anything else is `None`. */
  function ParseInt(s: string): (r: Option<int>)
    ensures r.Some? ==> |s| > 0
    ensures r.Some? && r.value < 0 ==> s[0] == '-'
  {
    if |s| > 0 && s[0] == '-' then
      (if AllDigits(s[1..]) then Some(0 - DigitsValue(s[1..]) as int) else None)
    else if AllDigits(s) then Some(DigitsValue(s))
    else None
  }

  lemma {:induction false} NatRoundTrip(n: nat)
    ensures DigitsValue(NatToString(n)) == n
    decreases n
  {
    var r := NatToString(n);
    if n >= 10 {
      NatRoundTrip(n / 10);
      assert r[..|r| - 1] == NatToString(n / 10);
    }
  }

  /** Parsing the rendering of any integer gives the integer back. */
  lemma IntRoundTrip(i: int)
    ensures ParseInt(IntToString(i)) == Some(i)
  {
    if i < 0 {
      NegativeRoundTrip(i);
    } else {
      NonNegativeRoundTrip(i);
    }
  }

  lemma NegativeRoundTrip(i: int)
    requires i < 0
    ensures ParseInt("-" + NatToString(-i)) == Some(i)
  {
    var t := NatToString(-i);
    var s := "-" + t;
    NatRoundTrip(-i);
    assert s[0] == '-' && s[1..] == t;
    assert AllDigits(t);
  }

  lemma NonNegativeRoundTrip(n: nat)
    ensures ParseInt(NatToString(n)) == Some(n)
  {
    var s := NatToString(n);
    NatRoundTrip(n);
    assert IsDigit(s[0]) && AllDigits(s);
  }
}

=== FILE: fetch_anisette.dfy ===
/**
  `FetchAnisetteDataOperation` re-expressed as a pure step function
  `Step(env, state, event) = (state', commands)`.

  The source spreads the operation over URLSession completion handlers, a
  WebSocket delegate and a timer. Here every completion, every socket event and
  every answer of the user is an `Event`, and every request the operation
  makes (an HTTP call, a socket write, a prompt, a timer, finishing the
  operation) is a `Command` for the environment to carry out. The keychain and
  the trusted-server setting are part of the state; hashing, the UUID
  reinterpretation and the `ALTAnisetteData` validator are collaborators held
  by `Env`. A force unwrap that fails traps the process: the state then moves
  to `Crashed` and nothing further happens.
*/
module FetchAnisette {
  import opened Wrappers
  import opened Bytes
  import Base64
  import Hex
  import AnisetteHeaders
  import ServerMessages

  /** The keychain as a key-value map: an absent key reads as nil, storing nil removes the key. */
  type Store = map<string, string>

  const IdentifierKey: string := "identifier"
  const AdiPbKey: string := "adiPb"

  /** Apple's lookup endpoint for the provisioning URLs. */
  const GsaLookupURL: string := "https://gsa.apple.com/grandslam/GsService2/lookup"

  /** Where the query or fragment of `url` begins: its first `?` or `#`, or the end. */
  function PathEnd(url: string): (i: nat)
    ensures i <= |url|
    ensures forall j :: 0 <= j < i ==> url[j] != '?' && url[j] != '#'
    ensures i < |url| ==> url[i] == '?' || url[i] == '#'
    decreases |url|
  {
    if |url| == 0 || url[0] == '?' || url[0] == '#' then 0
    else 1 + PathEnd(url[1..])
  }

  /** One path component appended to a path, with a single `/` between them. */
  function AppendComponent(path: string, component: string): (r: string)
    ensures |r| == |path| + |component| || |r| == |path| + 1 + |component|
    ensures r[..|path|] == path && r[|r| - |component|..] == component
  {
    if |path| > 0 && path[|path| - 1] == '/' then path + component else path + "/" + component
  }

  /**
    `url.appendingPathComponent("v3").appendingPathComponent(name)`: the two
    components go at the end of the path, before any query or fragment.
  */
  function V3Endpoint(url: string, name: string): string {
    var i := PathEnd(url);
    AppendComponent(AppendComponent(url[..i], "v3"), name) + url[i..]
  }

  /** The output of `SecRandomCopyBytes` for a fresh identifier. */
  type Bytes16 = b: Bytes | |b| == 16 witness seq(16, i => 0 as uint8)

  /** Collaborators whose internals are not modelled. */
  datatype Env = Env(
    sha256: Bytes -> Bytes,                        // `Data.sha256()`, SHA-256 of FIPS 180-4
    uuidString: Bytes -> string,                   // `decoded.object()` as a UUID, upper-cased
    isValidAnisette: map<string, string> -> bool)  // `ALTAnisetteData(json:)` succeeds

  /** The errors the operation finishes with. */
  datatype AnisetteFailure =
    | Upstream(error: string)   // the error an earlier operation left in the context
    | Cancelled
    | InvalidAnisette
    | AnisetteError
    | ProvisioningError

  datatype Outcome = Succeeded(anisette: map<string, string>) | Failed(failure: AnisetteFailure)

  /** A reply body after `JSONSerialization.jsonObject(with:)` and the cast to `[String: String]`. */
  datatype Body = Unparsable | NotStringMap | StringMap(fields: map<string, string>)

  /** A URLSession completion: no data or an error, or a body. */
  datatype HttpReply = NoData | Received(body: Body)

  /** A value inside a JSON object or a property list, as far as the operation inspects it. */
  datatype Value = Str(text: string) | Number(number: real) | OtherValue

  /** A text frame from the provisioning socket, after JSON parsing. */
  datatype Frame =
    | Malformed                           // parsing throws
    | NotObject                           // parses, but not to a `[String: Any]`
    | Object(fields: map<string, Value>)

  /** Apple's reply to a provisioning POST: the `Response` dictionary, or anything unreadable. */
  datatype PlistReply = Unreadable | Plist(response: map<string, Value>)

  /** Apple's lookup reply: the two provisioning URLs, or anything unreadable. */
  datatype LookupResult = LookupUnreadable | ProvisioningURLs(start: string, end: string)

  /** Client-side values used when assembling V3 headers. */
  datatype Clock = Clock(date: string, locale: string, timeZone: Option<string>)

  datatype Event =
    | Begin(contextError: Option<string>)                  // `main()`
    | ClientInfoReply(reply: HttpReply, entropy: Option<Bytes16>)  // entropy: None if generation fails
    | ConsentAnswer(proceed: bool)                         // "Continue" or "Cancel" on the warning
    | V1Reply(reply: HttpReply)
    | LookupReply(lookup: LookupResult)
    | SocketText(frame: Frame)
    | SocketConnected
    | SocketDisconnected(reason: string, code: int)
    | SocketError
    | SocketOtherEvent
    | RetryTimerFired
    | StartDataReply(plist: PlistReply)
    | EndDataReply(plist: PlistReply)
    | HeadersReply(reply: HttpReply, clock: Clock)

  datatype Command =
    | GetClientInfo(url: string)
    | PromptLegacyServer(url: string)
    | GetV1(url: string)
    | GetLookup(url: string, headers: map<string, string>)
    | OpenSocket(url: string)
    | SendJson(fields: map<string, string>)
    | PostStartProvisioning(url: string, headers: map<string, string>)
    | PostEndProvisioning(url: string, cpim: string, headers: map<string, string>)
    | ScheduleRestart(delayMs: real)
    | Disconnect(closeCode: int)
    | PostGetHeaders(url: string, identifier: string, adiPb: string)
    | Finish(outcome: Outcome)

  /** What `fetchClientInfo` calls back into once client info is known. */
  datatype Continuation =
    | ThenLookup                                    // `provision()`
    | ThenGetHeaders(identifier: string, adiPb: string)  // `fetchAnisetteV3(identifier, adiPb)`

  datatype Phase =
    | Idle
    | FetchingClientInfo(next: Continuation)
    | AwaitingConsent
    | FetchingV1
    | LookingUp
    | Provisioning
    | FetchingHeaders
    | Done(outcome: Outcome)
    | Crashed

  datatype State = State(
    phase: Phase,
    url: string,                  // `AnisetteManager.currentURL`
    trustedURL: Option<string>,   // `UserDefaults.shared.trustedServerURL`
    store: Store,                 // the keychain
    startURL: Option<string>,
    endURL: Option<string>,
    clientInfo: Option<string>,
    userAgent: Option<string>,
    mdLu: Option<string>,
    deviceId: Option<string>,
    pendingRetries: nat)          // `TryAgainSoon` timers not yet fired

  function Initial(url: string, trustedURL: Option<string>, store: Store): State {
    State(Idle, url, trustedURL, store, None, None, None, None, None, None, 0)
  }

  function Conclude(s: State, o: Outcome): (State, seq<Command>) {
    (s.(phase := Done(o)), [Finish(o)])
  }

  function Crash(s: State): (State, seq<Command>) {
    (s.(phase := Crashed), [])
  }

  /**
    `buildAppleRequest`: the fixed headers of a request to Apple. It force
    unwraps the client info and user agent, so `None` stands for a trap.
    (The client time, locale and time zone headers are left out.)
  */
  function AppleHeaders(s: State): Option<map<string, string>> {
    if s.clientInfo.None? || s.userAgent.None? then None
    else
      var h := map[
        "X-Mme-Client-Info" := s.clientInfo.value,
        "User-Agent" := s.userAgent.value,
        "Content-Type" := "text/x-xml-plist",
        "Accept" := "*/*"];
      var h := if s.mdLu.Some? then h["X-Apple-I-MD-LU" := s.mdLu.value] else h;
      Some(if s.deviceId.Some? then h["X-Mme-Device-Id" := s.deviceId.value] else h)
  }

  /** The skip test of `fetchClientInfo`. */
  predicate ClientInfoKnown(s: State) {
    && s.clientInfo.Some?
    && s.userAgent.Some?
    && s.mdLu.Some?
    && s.deviceId.Some?
    && IdentifierKey in s.store
  }

  /** Runs the callback given to `fetchClientInfo`. */
  function Resume(s: State, next: Continuation): (State, seq<Command>) {
    match next
    case ThenLookup =>
      (match AppleHeaders(s)
       case Some(h) => (s.(phase := LookingUp), [GetLookup(GsaLookupURL, h)])
       case None => Crash(s))
    case ThenGetHeaders(identifier, adiPb) =>
      (s.(phase := FetchingHeaders), [PostGetHeaders(V3Endpoint(s.url, "get_headers"), identifier, adiPb)])
  }

  /** `fetchClientInfo(callback)`. */
  function FetchClientInfo(s: State, next: Continuation): (State, seq<Command>) {
    if ClientInfoKnown(s) then Resume(s, next)
    else (s.(phase := FetchingClientInfo(next)), [GetClientInfo(V3Endpoint(s.url, "client_info"))])
  }

  /** `fetchAnisetteV1()`. */
  function FetchV1(s: State): (State, seq<Command>) {
    (s.(phase := FetchingV1), [GetV1(s.url)])
  }

  /** `handleV1()`: a trusted server is fetched at once, any other needs the user's consent. */
  function HandleV1(s: State): (State, seq<Command>) {
    if s.trustedURL == Some(s.url) then FetchV1(s)
    else (s.(phase := AwaitingConsent), [PromptLegacyServer(s.url)])
  }

  /** `main()`. */
  function OnBegin(s: State, contextError: Option<string>): (State, seq<Command>) {
    match contextError
    case Some(error) => Conclude(s, Failed(Upstream(error)))
    case None =>
      if IdentifierKey in s.store && AdiPbKey in s.store then
        FetchClientInfo(s, ThenGetHeaders(s.store[IdentifierKey], s.store[AdiPbKey]))
      else
        FetchClientInfo(s, ThenLookup)
  }

  /**
    The V3 branch of the client-info completion: cache client info and user
    agent, make sure an identifier exists, derive `mdLu` and `deviceId` from it.
  */
  function AdoptClientInfo(env: Env, s: State, next: Continuation, m: map<string, string>, entropy: Option<Bytes16>): (State, seq<Command>)
    requires "client_info" in m
  {
    if "user_agent" !in m then Crash(s)
    else
      var s1 := s.(clientInfo := Some(m["client_info"]), userAgent := Some(m["user_agent"]));
      if IdentifierKey !in s1.store && entropy.None? then Conclude(s1, Failed(ProvisioningError))
      else
        var s2 :=
          if IdentifierKey in s1.store then s1
          else s1.(store := s1.store[IdentifierKey := Base64.Encode(entropy.value)]);
        match Base64.Decode(s2.store[IdentifierKey])
        case None => Crash(s2)
        case Some(decoded) =>
          Resume(s2.(mdLu := Some(Hex.Encode(env.sha256(decoded))), deviceId := Some(env.uuidString(decoded))), next)
  }

  /** The completion handler of the client-info request. */
  function OnClientInfo(env: Env, s: State, next: Continuation, reply: HttpReply, entropy: Option<Bytes16>): (State, seq<Command>) {
    match reply
    case NoData => Conclude(s, Failed(AnisetteError))
    case Received(Unparsable) => Conclude(s, Failed(AnisetteError))
    case Received(NotStringMap) => HandleV1(s)
    case Received(StringMap(m)) =>
      if "client_info" in m then AdoptClientInfo(env, s, next, m, entropy) else HandleV1(s)
  }

  /** The two actions of the legacy-server warning. */
  function OnConsent(s: State, proceed: bool): (State, seq<Command>) {
    if proceed then FetchV1(s.(trustedURL := Some(s.url)))
    else Conclude(s, Failed(Cancelled))
  }

  /** What a reply handler does to the operation. */
  datatype Verdict = Finishes(outcome: Outcome) | Stalls | Traps

  function V1Result(env: Env, m: map<string, string>): Outcome {
    var fields := AnisetteHeaders.RemapV1(m);
    if env.isValidAnisette(fields) then Succeeded(fields) else Failed(InvalidAnisette)
  }

  /**
    The V1 completion handler as written: a body that parses but is not a
    string map matches neither the `if let` nor the `catch`, so the operation
    is never finished.
  */
  function V1VerdictAsWritten(env: Env, reply: HttpReply): Verdict {
    match reply
    case NoData => Finishes(Failed(InvalidAnisette))
    case Received(Unparsable) => Finishes(Failed(InvalidAnisette))
    case Received(NotStringMap) => Stalls
    case Received(StringMap(m)) => Finishes(V1Result(env, m))
  }

  /**
    The V1 completion handler as intended: every reply finishes the operation,
    and every failure on this path is `invalidAnisette`.
  */
  function V1Outcome(env: Env, reply: HttpReply): (o: Outcome)
    ensures V1VerdictAsWritten(env, reply).Finishes? ==> o == V1VerdictAsWritten(env, reply).outcome
    ensures o.Failed? ==> o.failure == InvalidAnisette
    ensures o.Succeeded? <==>
              reply.Received? && reply.body.StringMap? &&
              env.isValidAnisette(AnisetteHeaders.RemapV1(reply.body.fields))
    ensures o.Succeeded? ==> o.anisette == AnisetteHeaders.RemapV1(reply.body.fields)
  {
    match reply
    case Received(StringMap(m)) => V1Result(env, m)
    case _ => Failed(InvalidAnisette)
  }

  /** The header set of a V3 reply, or a trap when `result` is `GetHeadersError` without a `message`. */
  function V3FromFields(env: Env, s: State, m: map<string, string>, clock: Clock): Verdict {
    if "result" in m && m["result"] == "GetHeadersError" then
      (if "message" in m then Finishes(Failed(AnisetteError)) else Traps)
    else if s.clientInfo.None? || s.mdLu.None? || s.deviceId.None? then Traps
    else
      var client := AnisetteHeaders.ClientFields(
        s.clientInfo.value, s.mdLu.value, s.deviceId.value, clock.date, clock.locale, clock.timeZone);
      var fields := AnisetteHeaders.RemapV3(m, client);
      if env.isValidAnisette(fields) then Finishes(Succeeded(fields)) else Finishes(Failed(AnisetteError))
  }

  /** The V3 header completion handler as written; a non-string-map body stalls as on the V1 path. */
  function V3VerdictAsWritten(env: Env, s: State, reply: HttpReply, clock: Clock): Verdict {
    match reply
    case NoData => Finishes(Failed(AnisetteError))
    case Received(Unparsable) => Finishes(Failed(AnisetteError))
    case Received(NotStringMap) => Stalls
    case Received(StringMap(m)) => V3FromFields(env, s, m, clock)
  }

  /**
    The V3 header completion handler as intended: it never stalls, it agrees
    with the code wherever the code reaches a verdict, and every failure on
    this path is `anisetteError`.
  */
  function V3Verdict(env: Env, s: State, reply: HttpReply, clock: Clock): (v: Verdict)
    ensures !v.Stalls?
    ensures !V3VerdictAsWritten(env, s, reply, clock).Stalls? ==> v == V3VerdictAsWritten(env, s, reply, clock)
    ensures v.Finishes? && v.outcome.Failed? ==> v.outcome.failure == AnisetteError
  {
    match reply
    case Received(StringMap(m)) => V3FromFields(env, s, m, clock)
    case _ => Finishes(Failed(AnisetteError))
  }

  function OnHeaders(env: Env, s: State, reply: HttpReply, clock: Clock): (State, seq<Command>) {
    match V3Verdict(env, s, reply, clock)
    case Finishes(o) => Conclude(s, o)
    case _ => Crash(s)
  }

  /** The lookup completion: records both URLs and opens the first provisioning session. */
  function OnLookup(s: State, lookup: LookupResult): (State, seq<Command>) {
    match lookup
    case LookupUnreadable => Crash(s)
    case ProvisioningURLs(start, end) =>
      (s.(phase := Provisioning, startURL := Some(start), endURL := Some(end)),
       [OpenSocket(V3Endpoint(s.url, "provisioning_session"))])
  }

  /** `ProvisioningSuccess`: store `adi_pb`, close the socket, fetch V3 headers. */
  function OnProvisioningSuccess(s: State, f: map<string, Value>): (State, seq<Command>) {
    if "adi_pb" !in f then Crash(s)
    else
      var store := if f["adi_pb"].Str? then s.store[AdiPbKey := f["adi_pb"].text] else s.store - {AdiPbKey};
      var s1 := s.(store := store);
      if IdentifierKey in store && AdiPbKey in store then
        var next := FetchClientInfo(s1, ThenGetHeaders(store[IdentifierKey], store[AdiPbKey]));
        (next.0, [Disconnect(0)] + next.1)
      else
        (s1.(phase := Crashed), [Disconnect(0)])
  }

  /** The `switch result` of the socket delegate, for a frame whose `result` is a string. */
  function OnResult(s: State, f: map<string, Value>, result: string): (State, seq<Command>) {
    match ServerMessages.Classify(result)
    case TryAgainSoon =>
      if "duration" in f && f["duration"].Number? then
        (s.(pendingRetries := s.pendingRetries + 1), [ScheduleRestart(f["duration"].number)])
      else Crash(s)
    case GiveIdentifier =>
      if IdentifierKey in s.store then (s, [SendJson(map["identifier" := s.store[IdentifierKey]])])
      else Crash(s)
    case GiveStartProvisioningData =>
      (match (s.startURL, AppleHeaders(s))
       case (Some(url), Some(h)) => (s, [PostStartProvisioning(url, h)])
       case _ => Crash(s))
    case GiveEndProvisioningData =>
      if "cpim" in f && f["cpim"].Str? then
        (match (s.endURL, AppleHeaders(s))
         case (Some(url), Some(h)) => (s, [PostEndProvisioning(url, f["cpim"].text, h)])
         case _ => Crash(s))
      else Crash(s)
    case ProvisioningSuccess => OnProvisioningSuccess(s, f)
    case Failure => Conclude(s, Failed(ProvisioningError))
    case Unrecognised => (s, [])
  }

  /** A text frame of the provisioning socket. */
  function OnFrame(s: State, frame: Frame): (State, seq<Command>) {
    match frame
    case Malformed => Conclude(s, Failed(ProvisioningError))
    case NotObject => (s, [])
    case Object(f) =>
      if "result" in f && f["result"].Str? then OnResult(s, f, f["result"].text) else Crash(s)
  }

  /** The `TryAgainSoon` timer: `startProvisioningSession()` with the same URLs and identity. */
  function OnRetryTimer(s: State): (State, seq<Command>) {
    if s.pendingRetries > 0 then
      (s.(pendingRetries := s.pendingRetries - 1), [OpenSocket(V3Endpoint(s.url, "provisioning_session"))])
    else (s, [])
  }

  /** Apple's start-provisioning reply: forward `spim` to the server. */
  function OnStartData(s: State, plist: PlistReply): (State, seq<Command>) {
    match plist
    case Plist(r) =>
      if "spim" in r && r["spim"].Str? then (s, [SendJson(map["spim" := r["spim"].text])]) else Crash(s)
    case Unreadable => Crash(s)
  }

  /** Apple's end-provisioning reply: forward `ptm` and `tk` to the server. */
  function OnEndData(s: State, plist: PlistReply): (State, seq<Command>) {
    match plist
    case Plist(r) =>
      if "ptm" in r && r["ptm"].Str? && "tk" in r && r["tk"].Str? then
        (s, [SendJson(map["ptm" := r["ptm"].text, "tk" := r["tk"].text])])
      else Crash(s)
    case Unreadable => Crash(s)
  }

  /**
    One step of the operation. An event the current phase does not expect, and
    every socket event other than a text frame, changes nothing.
  */
  function Step(env: Env, s: State, e: Event): (State, seq<Command>) {
    match (s.phase, e)
    case (Idle, Begin(contextError)) => OnBegin(s, contextError)
    case (FetchingClientInfo(next), ClientInfoReply(reply, entropy)) => OnClientInfo(env, s, next, reply, entropy)
    case (AwaitingConsent, ConsentAnswer(proceed)) => OnConsent(s, proceed)
    case (FetchingV1, V1Reply(reply)) => Conclude(s, V1Outcome(env, reply))
    case (LookingUp, LookupReply(lookup)) => OnLookup(s, lookup)
    case (Provisioning, SocketText(frame)) => OnFrame(s, frame)
    case (Provisioning, RetryTimerFired) => OnRetryTimer(s)
    case (Provisioning, StartDataReply(plist)) => OnStartData(s, plist)
    case (Provisioning, EndDataReply(plist)) => OnEndData(s, plist)
    case (FetchingHeaders, HeadersReply(reply, clock)) => OnHeaders(env, s, reply, clock)
    case _ => (s, [])
  }

  /** A sequence of events, one step after another; the commands are concatenated. */
  function Run(env: Env, s: State, events: seq<Event>): (State, seq<Command>)
    decreases |events|
  {
    if |events| == 0 then (s, [])
    else
      var first := Step(env, s, events[0]);
      var rest := Run(env, first.0, events[1..]);
      (rest.0, first.1 + rest.1)
  }
}

=== FILE: fetch_anisette_proofs.dfy ===
/**
  Properties of the `FetchAnisetteDataOperation` step function: how `main`
  routes, when client info is fetched, how the identity is created and kept,
  how handshake frames are answered, and how the V1 and V3 paths finish.
*/
module FetchAnisetteProofs {
  import opened Wrappers
  import opened Bytes
  import Base64
  import Hex
  import AnisetteHeaders
  import ServerMessages
  import opened FetchAnisette

  /** Commands that touch the network, the socket, the user or a timer. */
  predicate IsExternal(c: Command) {
    !c.Finish?
  }

  /**
    With an error already in the context, `main` finishes with exactly that
    error and issues nothing else.
  */
  lemma BeginWithContextError(env: Env, s: State, error: string)
    requires s.phase == Idle
    ensures Step(env, s, Begin(Some(error))).0.phase == Done(Failed(Upstream(error)))
    ensures Step(env, s, Begin(Some(error))).1 == [Finish(Failed(Upstream(error)))]
    ensures forall c :: c in Step(env, s, Begin(Some(error))).1 ==> !IsExternal(c)
  {
  }

  /**
    Without a context error, a fresh operation always asks for client info
    first; with both an identifier and an `adiPb` stored it then goes to the V3
    header fetch with exactly those values, and with anything less to provisioning.
  */
  lemma BeginRoutes(env: Env, url: string, trusted: Option<string>, store: Store)
    ensures var r := Step(env, Initial(url, trusted, store), Begin(None));
      && r.1 == [GetClientInfo(V3Endpoint(url, "client_info"))]
      && (IdentifierKey in store && AdiPbKey in store ==>
            r.0.phase == FetchingClientInfo(ThenGetHeaders(store[IdentifierKey], store[AdiPbKey])))
      && (!(IdentifierKey in store && AdiPbKey in store) ==>
            r.0.phase == FetchingClientInfo(ThenLookup))
  {
  }

  /** `fetchClientInfo` issues its request exactly when one of the five values is missing. */
  lemma ClientInfoSkippedIff(s: State, next: Continuation)
    ensures (exists c :: c in FetchClientInfo(s, next).1 && c.GetClientInfo?) <==> !ClientInfoKnown(s)
    ensures ClientInfoKnown(s) ==> FetchClientInfo(s, next) == Resume(s, next)
  {
    if !ClientInfoKnown(s) {
      assert FetchClientInfo(s, next).1[0].GetClientInfo?;
    }
  }

  /** The phases a server classified as V1 leads to. */
  predicate OnV1Path(s: State) {
    s.phase == AwaitingConsent || s.phase == FetchingV1
  }

  /**
    The client-info reply classifies the server: a missing or unparsable body
    fails with `anisetteError`, a string map with `client_info` is V3 and caches
    it, and a string map without it or any other JSON value is V1.
  */
  lemma ClientInfoClassifies(env: Env, s: State, next: Continuation, reply: HttpReply, entropy: Option<Bytes16>)
    requires s.phase == FetchingClientInfo(next)
    ensures var r := Step(env, s, ClientInfoReply(reply, entropy));
      && (reply.NoData? || reply.body.Unparsable? ==> r.0.phase == Done(Failed(AnisetteError)))
      && (reply.Received? && reply.body.NotStringMap? ==> OnV1Path(r.0))
      && (reply.Received? && reply.body.StringMap? && "client_info" !in reply.body.fields ==> OnV1Path(r.0))
      && (reply.Received? && reply.body.StringMap? && "client_info" in reply.body.fields ==>
            !OnV1Path(r.0) &&
            (r.0.phase.Crashed? || r.0.phase == Done(Failed(ProvisioningError)) ||
             r.0.clientInfo == Some(reply.body.fields["client_info"])))
  {
  }

  /** The V1 gate: a trusted server is fetched without a prompt, any other server is only prompted for. */
  lemma V1GateTrusted(s: State)
    ensures s.trustedURL == Some(s.url) ==> HandleV1(s) == (s.(phase := FetchingV1), [GetV1(s.url)])
    ensures s.trustedURL != Some(s.url) ==> HandleV1(s) == (s.(phase := AwaitingConsent), [PromptLegacyServer(s.url)])
  {
  }

  /**
    "Continue" records the server as trusted and then fetches; "Cancel"
    finishes with `cancelled` and fetches nothing.
  */
  lemma V1GateAnswer(env: Env, s: State, proceed: bool)
    requires s.phase == AwaitingConsent
    ensures var r := Step(env, s, ConsentAnswer(proceed));
      && (proceed ==> r.0.trustedURL == Some(s.url) && r.1 == [GetV1(s.url)])
      && (!proceed ==> r.0.phase == Done(Failed(Cancelled)) && r.1 == [Finish(Failed(Cancelled))])
      && (!proceed ==> forall c :: c in r.1 ==> !c.GetV1?)
  {
  }

  /**
    The V1 reply, through the corrected handler `V1Outcome`: wherever the
    handler as written finishes, the step finishes with the same outcome;
    every failure is `invalidAnisette`; and the step succeeds exactly when the
    body is a string map whose remap the validator accepts, carrying that remap.
  */
  lemma V1PathFailures(env: Env, s: State, reply: HttpReply)
    requires s.phase == FetchingV1
    ensures var r := Step(env, s, V1Reply(reply));
      && r.0.phase.Done?
      && (V1VerdictAsWritten(env, reply).Finishes? ==> r.0.phase == Done(V1VerdictAsWritten(env, reply).outcome))
      && (r.0.phase.outcome.Failed? ==> r.0.phase.outcome.failure == InvalidAnisette)
      && (r.0.phase.outcome.Succeeded? <==>
            reply.Received? && reply.body.StringMap? &&
            env.isValidAnisette(AnisetteHeaders.RemapV1(reply.body.fields)))
      && (r.0.phase.outcome.Succeeded? ==>
            reply.Received? && reply.body.StringMap? &&
            r.0.phase.outcome.anisette == AnisetteHeaders.RemapV1(reply.body.fields))
  {
  }

  /**
    A reply body that is JSON but not a string-to-string map (a list, say):
    both completion handlers as written leave the operation unfinished,
    while the step function finishes it with the failure of its path.
  */
  lemma NonStringMapBodyStalls(env: Env, s: State, clock: Clock)
    requires s.phase == FetchingV1 || s.phase == FetchingHeaders
    ensures V1VerdictAsWritten(env, Received(NotStringMap)) == Stalls
    ensures V3VerdictAsWritten(env, s, Received(NotStringMap), clock) == Stalls
    ensures s.phase == FetchingV1 ==>
              Step(env, s, V1Reply(Received(NotStringMap))).0.phase == Done(Failed(InvalidAnisette))
    ensures s.phase == FetchingHeaders ==>
              Step(env, s, HeadersReply(Received(NotStringMap), clock)).0.phase == Done(Failed(AnisetteError))
  {
  }

  /** A server address without query or fragment gets `/v3/<name>` appended, with one slash before `v3`. */
  lemma {:induction false} V3EndpointPlain(url: string, name: string)
    requires forall j :: 0 <= j < |url| ==> url[j] != '?' && url[j] != '#'
    ensures V3Endpoint(url, name)
         == url + (if |url| > 0 && url[|url| - 1] == '/' then "" else "/") + "v3/" + name
  {
    NoSuffix(url);
    assert url[..|url|] == url && url[|url|..] == [];
    AppendV3(url, name);
  }

  lemma {:induction false} NoSuffix(url: string)
    requires forall j :: 0 <= j < |url| ==> url[j] != '?' && url[j] != '#'
    ensures PathEnd(url) == |url|
    decreases |url|
  {
    if |url| > 0 {
      NoSuffix(url[1..]);
    }
  }

  /**
    A query or fragment stays after the appended components: `https://h/a?k=v`
    gives `https://h/a/v3/client_info?k=v`.
  */
  lemma V3EndpointKeepsSuffix(path: string, suffix: string, name: string)
    requires forall j :: 0 <= j < |path| ==> path[j] != '?' && path[j] != '#'
    requires |suffix| > 0 && (suffix[0] == '?' || suffix[0] == '#')
    ensures V3Endpoint(path + suffix, name)
         == path + (if |path| > 0 && path[|path| - 1] == '/' then "" else "/") + "v3/" + name + suffix
  {
    var url := path + suffix;
    PathEndAt(url, |path|);
    assert url[..|path|] == path && url[|path|..] == suffix;
    AppendV3(path, name);
  }

  /** The two components appended to a path that ends before any query. */
  lemma AppendV3(path: string, name: string)
    ensures AppendComponent(AppendComponent(path, "v3"), name)
         == path + (if |path| > 0 && path[|path| - 1] == '/' then "" else "/") + "v3/" + name
  {
    var p1 := AppendComponent(path, "v3");
    assert p1[|p1| - 1] == '3';
    assert AppendComponent(p1, name) == p1 + "/" + name;
  }

  /** The query or fragment begins at the first `?` or `#`. */
  lemma {:induction false} PathEndAt(url: string, i: nat)
    requires i < |url| && (url[i] == '?' || url[i] == '#')
    requires forall j :: 0 <= j < i ==> url[j] != '?' && url[j] != '#'
    ensures PathEnd(url) == i
    decreases i
  {
    if i > 0 {
      PathEndAt(url[1..], i - 1);
    }
  }
}

module FetchAnisetteIdentity {
  import opened Wrappers
  import opened Bytes
  import Base64
  import Hex
  import opened FetchAnisette

  /** The stored identifier, once there, is still there with the same value. */
  ghost predicate KeepsIdentifier(s: State, s': State) {
    IdentifierKey in s.store ==> IdentifierKey in s'.store && s'.store[IdentifierKey] == s.store[IdentifierKey]
  }

  /**
    No step overwrites or removes a stored identifier, and a step that creates
    one is a client-info reply that stores the base 64 encoding of its fresh bytes.
  */
  lemma StepIdentifier(env: Env, s: State, e: Event)
    ensures KeepsIdentifier(s, Step(env, s, e).0)
    ensures IdentifierKey !in s.store && IdentifierKey in Step(env, s, e).0.store ==>
              e.ClientInfoReply? && e.entropy.Some? &&
              Step(env, s, e).0.store[IdentifierKey] == Base64.Encode(e.entropy.value)
  {
    match (s.phase, e)
    case (FetchingClientInfo(next), ClientInfoReply(reply, entropy)) =>
      ClientInfoIdentifier(env, s, next, reply, entropy);
    case (Provisioning, SocketText(frame)) =>
      FrameIdentifier(s, frame);
    case _ =>
  }

  /** The client-info completion creates the identifier only from the fresh bytes and never replaces one. */
  lemma ClientInfoIdentifier(env: Env, s: State, next: Continuation, reply: HttpReply, entropy: Option<Bytes16>)
    ensures var r := OnClientInfo(env, s, next, reply, entropy).0;
      && KeepsIdentifier(s, r)
      && (IdentifierKey !in s.store && IdentifierKey in r.store ==>
            entropy.Some? && r.store[IdentifierKey] == Base64.Encode(entropy.value))
  {
    if reply.Received? && reply.body.StringMap? && "client_info" in reply.body.fields {
      AdoptIdentifier(env, s, next, reply.body.fields, entropy);
    }
  }

  lemma AdoptIdentifier(env: Env, s: State, next: Continuation, m: map<string, string>, entropy: Option<Bytes16>)
    requires "client_info" in m
    ensures var r := AdoptClientInfo(env, s, next, m, entropy).0;
      && KeepsIdentifier(s, r)
      && (IdentifierKey !in s.store && IdentifierKey in r.store ==>
            entropy.Some? && r.store[IdentifierKey] == Base64.Encode(entropy.value))
  {
  }

  /** A text frame touches at most the `adi_pb` entry of the keychain. */
  lemma FrameIdentifier(s: State, frame: Frame)
    ensures var r := OnFrame(s, frame).0;
      && (IdentifierKey in r.store <==> IdentifierKey in s.store)
      && (IdentifierKey in s.store ==> r.store[IdentifierKey] == s.store[IdentifierKey])
  {
    assert IdentifierKey != AdiPbKey by {
      assert |IdentifierKey| != |AdiPbKey|;
    }
    match frame
    case Object(f) =>
      if "result" in f && f["result"].Str? {
        ResultIdentifier(s, f, f["result"].text);
      }
    case _ =>
  }

  lemma ResultIdentifier(s: State, f: map<string, Value>, result: string)
    requires IdentifierKey != AdiPbKey
    ensures var r := OnResult(s, f, result).0;
      && (IdentifierKey in r.store <==> IdentifierKey in s.store)
      && (IdentifierKey in s.store ==> r.store[IdentifierKey] == s.store[IdentifierKey])
  {
    if ServerMessages.Classify(result) == ServerMessages.ProvisioningSuccess && "adi_pb" in f {
      var store := if f["adi_pb"].Str? then s.store[AdiPbKey := f["adi_pb"].text] else s.store - {AdiPbKey};
      assert IdentifierKey in store <==> IdentifierKey in s.store;
    }
  }

  /**
    Where the client-info reply classifies the server as V3 and the operation
    goes on, `mdLu` is the upper-case hex of the SHA-256 of the decoded stored
    identifier, two digits per digest byte; when the identifier was created by
    this very step, the decoded bytes are exactly the fresh random bytes.
  */
  lemma ClientInfoDerivesIdentity(env: Env, s: State, next: Continuation, m: map<string, string>, entropy: Option<Bytes16>)
    requires s.phase == FetchingClientInfo(next)
    requires "client_info" in m && "user_agent" in m
    requires IdentifierKey !in s.store ==> entropy.Some?
    ensures var r := Step(env, s, ClientInfoReply(Received(StringMap(m)), entropy)).0;
      && IdentifierKey in r.store
      && (IdentifierKey in s.store ==> r.store[IdentifierKey] == s.store[IdentifierKey])
      && (IdentifierKey !in s.store ==> Base64.Decode(r.store[IdentifierKey]) == Some(entropy.value))
      && (!r.phase.Crashed? ==>
            exists decoded :: Base64.Decode(r.store[IdentifierKey]) == Some(decoded) &&
              r.mdLu == Some(Hex.Encode(env.sha256(decoded))) &&
              r.deviceId == Some(env.uuidString(decoded)) &&
              |r.mdLu.value| == 2 * |env.sha256(decoded)| &&
              forall i :: 0 <= i < |r.mdLu.value| ==> Hex.IsUpperHexDigit(r.mdLu.value[i]))
  {
    if IdentifierKey !in s.store {
      Base64.RoundTrip(entropy.value);
    }
  }

  /** Every step of a run keeps the stored identifier: however many retries happen, the identity survives. */
  lemma {:induction false} RunKeepsIdentifier(env: Env, s: State, events: seq<Event>)
    ensures KeepsIdentifier(s, Run(env, s, events).0)
    decreases |events|
  {
    if |events| > 0 {
      StepIdentifier(env, s, events[0]);
      RunKeepsIdentifier(env, Step(env, s, events[0]).0, events[1..]);
    }
  }
}

=== FILE: handshake_proofs.dfy ===
/**
  Properties of the provisioning handshake: what each server frame causes, the
  invariant that makes the source's force unwraps safe on every run, and the
  retry path.
*/
module FetchAnisetteHandshake {
  import opened Wrappers
  import Base64
  import Hex
  import ServerMessages
  import opened FetchAnisette
  import FetchAnisetteIdentity

  /** A text frame whose `result` is the given string, plus extra fields. */
  function ResultFrame(result: string, extra: map<string, Value>): Frame {
    Object(extra["result" := Str(result)])
  }

  /**
    What the operation has established in each phase. It is what the source's
    force unwraps of the identifier, the provisioning URLs and the client info
    silently rely on.
  */
  ghost predicate Inv(s: State) {
    match s.phase
    case LookingUp => ClientInfoKnown(s)
    case Provisioning => ClientInfoKnown(s) && s.startURL.Some? && s.endURL.Some?
    case FetchingHeaders => s.clientInfo.Some? && s.mdLu.Some? && s.deviceId.Some?
    case _ => true
  }

  lemma InitialInv(url: string, trusted: Option<string>, store: Store)
    ensures Inv(Initial(url, trusted, store))
  {
  }

  lemma ResumeInv(s: State, next: Continuation)
    requires ClientInfoKnown(s)
    ensures Inv(Resume(s, next).0)
  {
  }

  lemma FetchClientInfoInv(s: State, next: Continuation)
    ensures Inv(FetchClientInfo(s, next).0)
  {
    if ClientInfoKnown(s) {
      ResumeInv(s, next);
    }
  }

  lemma ClientInfoInv(env: Env, s: State, next: Continuation, reply: HttpReply, entropy: Option<Bytes16>)
    ensures Inv(OnClientInfo(env, s, next, reply, entropy).0)
  {
    if reply.Received? && reply.body.StringMap? && "client_info" in reply.body.fields {
      var m := reply.body.fields;
      if "user_agent" in m {
        var s1 := s.(clientInfo := Some(m["client_info"]), userAgent := Some(m["user_agent"]));
        if IdentifierKey in s1.store || entropy.Some? {
          var s2 :=
            if IdentifierKey in s1.store then s1
            else s1.(store := s1.store[IdentifierKey := Base64.Encode(entropy.value)]);
          match Base64.Decode(s2.store[IdentifierKey])
          case None =>
          case Some(decoded) =>
            ResumeInv(s2.(mdLu := Some(Hex.Encode(env.sha256(decoded))), deviceId := Some(env.uuidString(decoded))), next);
        }
      }
    }
  }

  lemma FrameInv(s: State, frame: Frame)
    requires Inv(s) && s.phase == Provisioning
    ensures Inv(OnFrame(s, frame).0)
  {
    if frame.Object? && "result" in frame.fields && frame.fields["result"].Str? {
      var f := frame.fields;
      if ServerMessages.Classify(f["result"].text) == ServerMessages.ProvisioningSuccess && "adi_pb" in f {
        var store := if f["adi_pb"].Str? then s.store[AdiPbKey := f["adi_pb"].text] else s.store - {AdiPbKey};
        if IdentifierKey in store && AdiPbKey in store {
          FetchClientInfoInv(s.(store := store), ThenGetHeaders(store[IdentifierKey], store[AdiPbKey]));
        }
      }
    }
  }

  lemma {:induction false} StepInv(env: Env, s: State, e: Event)
    requires Inv(s)
    ensures Inv(Step(env, s, e).0)
  {
    match (s.phase, e)
    case (Idle, Begin(contextError)) =>
      if contextError.None? {
        if IdentifierKey in s.store && AdiPbKey in s.store {
          FetchClientInfoInv(s, ThenGetHeaders(s.store[IdentifierKey], s.store[AdiPbKey]));
        } else {
          FetchClientInfoInv(s, ThenLookup);
        }
      }
    case (FetchingClientInfo(next), ClientInfoReply(reply, entropy)) =>
      ClientInfoInv(env, s, next, reply, entropy);
    case (Provisioning, SocketText(frame)) =>
      FrameInv(s, frame);
    case _ =>
  }

  /** The invariant holds after any run from any state that satisfies it, in particular from the initial state. */
  lemma {:induction false} RunInv(env: Env, s: State, events: seq<Event>)
    requires Inv(s)
    ensures Inv(Run(env, s, events).0)
    decreases |events|
  {
    if |events| > 0 {
      StepInv(env, s, events[0]);
      RunInv(env, Step(env, s, events[0]).0, events[1..]);
    }
  }

  /** `GiveIdentifier` is answered with exactly the stored identifier, and nothing else changes. */
  lemma GiveIdentifierReply(env: Env, s: State, extra: map<string, Value>)
    requires Inv(s) && s.phase == Provisioning
    ensures Step(env, s, SocketText(ResultFrame("GiveIdentifier", extra))) ==
              (s, [SendJson(map["identifier" := s.store[IdentifierKey]])])
  {
  }

  /**
    `GiveStartProvisioningData` and `GiveEndProvisioningData` are answered by a
    POST to the URL resolved by the lookup, carrying the server's `cpim` for the latter.
  */
  lemma ProvisioningDataRequests(env: Env, s: State, extra: map<string, Value>, cpim: string)
    requires Inv(s) && s.phase == Provisioning
    ensures var r := Step(env, s, SocketText(ResultFrame("GiveStartProvisioningData", extra)));
      r.0 == s && |r.1| == 1 && r.1[0].PostStartProvisioning? && r.1[0].url == s.startURL.value
    ensures var r := Step(env, s, SocketText(ResultFrame("GiveEndProvisioningData", extra["cpim" := Str(cpim)])));
      r.0 == s && |r.1| == 1 && r.1[0].PostEndProvisioning? && r.1[0].url == s.endURL.value && r.1[0].cpim == cpim
  {
    StartDataRequest(env, s, extra);
    EndDataRequest(env, s, extra["cpim" := Str(cpim)], cpim);
  }

  lemma StartDataRequest(env: Env, s: State, extra: map<string, Value>)
    requires Inv(s) && s.phase == Provisioning
    ensures var r := Step(env, s, SocketText(ResultFrame("GiveStartProvisioningData", extra)));
      r.0 == s && |r.1| == 1 && r.1[0].PostStartProvisioning? && r.1[0].url == s.startURL.value
  {
    var f := extra["result" := Str("GiveStartProvisioningData")];
    ServerMessages.ClassifyNamedIff("GiveStartProvisioningData");
    assert Step(env, s, SocketText(ResultFrame("GiveStartProvisioningData", extra)))
        == OnResult(s, f, "GiveStartProvisioningData");
  }

  lemma EndDataRequest(env: Env, s: State, extra: map<string, Value>, cpim: string)
    requires Inv(s) && s.phase == Provisioning && "cpim" in extra && extra["cpim"] == Str(cpim)
    ensures var r := Step(env, s, SocketText(ResultFrame("GiveEndProvisioningData", extra)));
      r.0 == s && |r.1| == 1 && r.1[0].PostEndProvisioning? && r.1[0].url == s.endURL.value && r.1[0].cpim == cpim
  {
    var f := extra["result" := Str("GiveEndProvisioningData")];
    ServerMessages.ClassifyNamedIff("GiveEndProvisioningData");
    assert "cpim" in f && f["cpim"] == Str(cpim);
    assert Step(env, s, SocketText(ResultFrame("GiveEndProvisioningData", extra)))
        == OnResult(s, f, "GiveEndProvisioningData");
  }

  /**
    `ProvisioningSuccess` stores `adi_pb`, closes the socket with code 0 and
    starts the V3 header fetch with the stored identifier and the new `adiPb`.
  */
  lemma ProvisioningSuccessFetchesHeaders(env: Env, s: State, extra: map<string, Value>, adiPb: string)
    requires Inv(s) && s.phase == Provisioning
    ensures var r := Step(env, s, SocketText(ResultFrame("ProvisioningSuccess", extra["adi_pb" := Str(adiPb)])));
      && r.0.store == s.store[AdiPbKey := adiPb]
      && r.0.phase == FetchingHeaders
      && r.1 == [Disconnect(0), PostGetHeaders(V3Endpoint(s.url, "get_headers"), s.store[IdentifierKey], adiPb)]
  {
    var f := extra["adi_pb" := Str(adiPb)]["result" := Str("ProvisioningSuccess")];
    ServerMessages.ClassifyNamedIff("ProvisioningSuccess");
    assert "adi_pb" in f && f["adi_pb"] == Str(adiPb);
    assert Step(env, s, SocketText(ResultFrame("ProvisioningSuccess", extra["adi_pb" := Str(adiPb)])))
        == OnProvisioningSuccess(s, f);
  }

  /**
    `TryAgainSoon` only schedules a new session after the given delay: the
    state is untouched apart from the count of pending timers.
  */
  lemma TryAgainSoonOnlySchedules(env: Env, s: State, extra: map<string, Value>, delay: real)
    requires s.phase == Provisioning
    ensures Step(env, s, SocketText(ResultFrame("TryAgainSoon", extra["duration" := Number(delay)]))) ==
              (s.(pendingRetries := s.pendingRetries + 1), [ScheduleRestart(delay)])
  {
  }

  /** A due timer opens a new session; the provisioning URLs, the identity and the keychain are reused. */
  lemma RetryReusesSession(env: Env, s: State)
    requires s.phase == Provisioning && s.pendingRetries > 0
    ensures Step(env, s, RetryTimerFired) ==
              (s.(pendingRetries := s.pendingRetries - 1), [OpenSocket(V3Endpoint(s.url, "provisioning_session"))])
  {
  }

  /**
    A frame with any other result fails the operation with `provisioningError`
    exactly when the result passes the failure test; otherwise it changes nothing.
  */
  lemma OtherResults(env: Env, s: State, result: string, extra: map<string, Value>)
    requires s.phase == Provisioning
    requires result !in ServerMessages.HandledResults
    ensures var r := Step(env, s, SocketText(ResultFrame(result, extra)));
      && (r.0.phase == Done(Failed(ProvisioningError)) <==> ServerMessages.IsFailureResult(result))
      && (!ServerMessages.IsFailureResult(result) ==> r == (s, []))
  {
    ServerMessages.ClassifyFailureIff(result);
  }

  /** A failing result ends the handshake whichever phase-internal state it arrives in. */
  lemma FailureResultsFail(env: Env, s: State, result: string, extra: map<string, Value>)
    requires s.phase == Provisioning
    requires ServerMessages.IsFailureResult(result)
    ensures Step(env, s, SocketText(ResultFrame(result, extra))) ==
              (s.(phase := Done(Failed(ProvisioningError))), [Finish(Failed(ProvisioningError))])
  {
    ServerMessages.ClassifyFailureIff(result);
  }

  /** Connection, disconnection, socket errors and other non-text events leave the operation as it is. */
  lemma NonTextSocketEvents(env: Env, s: State, e: Event)
    requires e.SocketConnected? || e.SocketDisconnected? || e.SocketError? || e.SocketOtherEvent?
    ensures Step(env, s, e) == (s, [])
  {
  }

  /** A retry event: a `TryAgainSoon` frame or a timer. */
  predicate IsRetryEvent(e: Event) {
    || e == RetryTimerFired
    || (e.SocketText? && e.frame.Object? && "result" in e.frame.fields && e.frame.fields["result"] == Str("TryAgainSoon")
        && "duration" in e.frame.fields && e.frame.fields["duration"].Number?)
  }

  /**
    Any number of `TryAgainSoon` frames and timer firings leaves the handshake
    in its phase with the same keychain, URLs and client identity.
  */
  lemma {:induction false} RetriesKeepSession(env: Env, s: State, events: seq<Event>)
    requires s.phase == Provisioning
    requires forall i :: 0 <= i < |events| ==> IsRetryEvent(events[i])
    ensures var r := Run(env, s, events).0;
      r == s.(pendingRetries := r.pendingRetries)
    decreases |events|
  {
    if |events| > 0 {
      var s1 := Step(env, s, events[0]).0;
      assert s1 == s.(pendingRetries := s1.pendingRetries);
      RetriesKeepSession(env, s1, events[1..]);
    }
  }

  /**
    After any number of retries, a final `ProvisioningSuccess` persists the new
    `adiPb` and leaves the identifier as it was before the first attempt.
  */
  lemma RetriesThenSuccess(env: Env, s: State, retries: seq<Event>, extra: map<string, Value>, adiPb: string)
    requires Inv(s) && s.phase == Provisioning
    requires forall i :: 0 <= i < |retries| ==> IsRetryEvent(retries[i])
    ensures var r := Run(env, s, retries + [SocketText(ResultFrame("ProvisioningSuccess", extra["adi_pb" := Str(adiPb)]))]).0;
      && AdiPbKey in r.store && r.store[AdiPbKey] == adiPb
      && IdentifierKey in r.store && r.store[IdentifierKey] == s.store[IdentifierKey]
      && r.phase == FetchingHeaders
  {
    var success := SocketText(ResultFrame("ProvisioningSuccess", extra["adi_pb" := Str(adiPb)]));
    RetriesKeepSession(env, s, retries);
    var mid := Run(env, s, retries).0;
    RunSplit(env, s, retries, [success]);
    assert Inv(mid);
    ProvisioningSuccessFetchesHeaders(env, mid, extra, adiPb);
  }

  /** Running two event sequences one after the other is running their concatenation. */
  lemma {:induction false} RunSplit(env: Env, s: State, first: seq<Event>, second: seq<Event>)
    ensures Run(env, s, first + second).0 == Run(env, Run(env, s, first).0, second).0
    decreases |first|
  {
    if |first| > 0 {
      assert (first + second)[1..] == first[1..] + second;
      RunSplit(env, Step(env, s, first[0]).0, first[1..], second);
    } else {
      assert first + second == second;
    }
  }
}

=== FILE: headers_path_proofs.dfy ===
/**
  The V3 header fetch that ends a provisioning run, and the whole run of a
  fresh installation from `main` to the finished header set.
*/
module FetchAnisetteHeadersPath {
  import opened Wrappers
  import opened Bytes
  import Base64
  import AnisetteHeaders
  import opened FetchAnisette
  import FetchAnisetteHandshake

  /** The client fields a V3 header set of this state is assembled from. */
  function ClientOf(s: State, clock: Clock): AnisetteHeaders.ClientFields
    requires s.clientInfo.Some? && s.mdLu.Some? && s.deviceId.Some?
  {
    AnisetteHeaders.ClientFields(s.clientInfo.value, s.mdLu.value, s.deviceId.value, clock.date, clock.locale, clock.timeZone)
  }

  /**
    The header reply, through the corrected handler `V3Verdict`, always ends
    the operation: with `anisetteError` on every failure (a `GetHeadersError`
    with a `message` among them), with the remapped reply on success, and with
    a trap only for a `GetHeadersError` that carries no `message`. It succeeds
    exactly when the body is a string map that is not a `GetHeadersError` and
    whose V3 remap the validator accepts; the identity fields of a success are
    the client's own, whatever the server sent. Wherever the handler as written
    reaches a verdict, the step follows it.
  */
  lemma V3PathOutcome(env: Env, s: State, reply: HttpReply, clock: Clock)
    requires FetchAnisetteHandshake.Inv(s) && s.phase == FetchingHeaders
    ensures var r := Step(env, s, HeadersReply(reply, clock)).0;
      && (r.phase.Done? || r.phase.Crashed?)
      && (r.phase.Crashed? <==>
            reply.Received? && reply.body.StringMap? && "result" in reply.body.fields &&
            reply.body.fields["result"] == "GetHeadersError" && "message" !in reply.body.fields)
      && (r.phase.Done? && r.phase.outcome.Failed? ==> r.phase.outcome.failure == AnisetteError)
      && (reply.Received? && reply.body.StringMap? && "result" in reply.body.fields &&
            reply.body.fields["result"] == "GetHeadersError" && "message" in reply.body.fields ==>
            r.phase == Done(Failed(AnisetteError)))
      && (r.phase.Done? && r.phase.outcome.Succeeded? <==>
            reply.Received? && reply.body.StringMap? &&
            !("result" in reply.body.fields && reply.body.fields["result"] == "GetHeadersError") &&
            env.isValidAnisette(AnisetteHeaders.RemapV3(reply.body.fields, ClientOf(s, clock))))
      && (V3VerdictAsWritten(env, s, reply, clock).Finishes? ==>
            r.phase == Done(V3VerdictAsWritten(env, s, reply, clock).outcome))
      && (V3VerdictAsWritten(env, s, reply, clock).Traps? ==> r.phase.Crashed?)
      && (r.phase.Done? && r.phase.outcome.Succeeded? ==>
            reply.Received? && reply.body.StringMap? &&
            r.phase.outcome.anisette == AnisetteHeaders.RemapV3(reply.body.fields, ClientOf(s, clock)) &&
            r.phase.outcome.anisette["localUserID"] == s.mdLu.value &&
            r.phase.outcome.anisette["deviceUniqueIdentifier"] == s.deviceId.value &&
            r.phase.outcome.anisette["deviceDescription"] == s.clientInfo.value)
  {
  }

  /** The provisioning URLs change only when the lookup reply arrives. */
  lemma ProvisioningURLsSetOnlyByLookup(env: Env, s: State, e: Event)
    ensures var r := Step(env, s, e).0;
      (r.startURL != s.startURL || r.endURL != s.endURL) ==> s.phase == LookingUp && e.LookupReply?
  {
    match (s.phase, e)
    case (FetchingClientInfo(next), ClientInfoReply(reply, entropy)) =>
      ClientInfoKeepsURLs(env, s, next, reply, entropy);
    case (Provisioning, SocketText(frame)) =>
      FrameKeepsURLs(s, frame);
    case _ =>
  }

  lemma ClientInfoKeepsURLs(env: Env, s: State, next: Continuation, reply: HttpReply, entropy: Option<Bytes16>)
    ensures var r := OnClientInfo(env, s, next, reply, entropy).0;
      r.startURL == s.startURL && r.endURL == s.endURL
  {
    if reply.Received? && reply.body.StringMap? && "client_info" in reply.body.fields {
      AdoptKeepsURLs(env, s, next, reply.body.fields, entropy);
    }
  }

  lemma AdoptKeepsURLs(env: Env, s: State, next: Continuation, m: map<string, string>, entropy: Option<Bytes16>)
    requires "client_info" in m
    ensures var r := AdoptClientInfo(env, s, next, m, entropy).0;
      r.startURL == s.startURL && r.endURL == s.endURL
  {
  }

  lemma FrameKeepsURLs(s: State, frame: Frame)
    ensures var r := OnFrame(s, frame).0;
      r.startURL == s.startURL && r.endURL == s.endURL
  {
    match frame
    case Object(f) =>
      if "result" in f && f["result"].Str? {
        ResultKeepsURLs(s, f, f["result"].text);
      }
    case _ =>
  }

  lemma ResultKeepsURLs(s: State, f: map<string, Value>, result: string)
    ensures var r := OnResult(s, f, result).0;
      r.startURL == s.startURL && r.endURL == s.endURL
  {
    if ServerMessages.Classify(result) == ServerMessages.ProvisioningSuccess {
      SuccessKeepsURLs(s, f);
    }
  }

  lemma SuccessKeepsURLs(s: State, f: map<string, Value>)
    ensures var r := OnProvisioningSuccess(s, f).0;
      r.startURL == s.startURL && r.endURL == s.endURL
  {
  }

  const ScenarioClientInfo := ClientInfoReply(Received(StringMap(map["client_info" := "abc", "user_agent" := "ua"])), None)
  const ScenarioLookup := LookupReply(ProvisioningURLs("https://start", "https://end"))
  const ScenarioHandshake := [
    SocketText(Object(map["result" := Str("GiveIdentifier")])),
    SocketText(Object(map["result" := Str("GiveStartProvisioningData")])),
    StartDataReply(Plist(map["spim" := Str("SPIM")])),
    SocketText(Object(map["result" := Str("GiveEndProvisioningData"), "cpim" := Str("CPIM")])),
    EndDataReply(Plist(map["ptm" := Str("PTM"), "tk" := Str("TK")]))
  ]
  const ScenarioSuccess := SocketText(Object(map["result" := Str("ProvisioningSuccess"), "adi_pb" := Str("XYZ")]))
  const ScenarioReply := Received(StringMap(map["X-Apple-I-MD-M" := "m1", "X-Apple-I-MD" := "p1"]))

  /** The events of a fresh installation against a V3 server, the client's entropy and clock filled in. */
  function ScenarioEvents(entropy: Bytes16, clock: Clock): (events: seq<Event>)
    ensures |events| == 10
    ensures events == [Begin(None), ScenarioClientInfo.(entropy := Some(entropy))] + [ScenarioLookup] +
                      ScenarioHandshake + [ScenarioSuccess] + [HeadersReply(ScenarioReply, clock)]
  {
    [Begin(None), ScenarioClientInfo.(entropy := Some(entropy)), ScenarioLookup] + ScenarioHandshake +
      [ScenarioSuccess, HeadersReply(ScenarioReply, clock)]
  }

  /** `main` on a fresh device: client info is fetched and a new identifier generated from the entropy. */
  lemma ScenarioStart(env: Env, url: string, entropy: Bytes16) returns (s2: State)
    ensures Run(env, Initial(url, None, map[]), [Begin(None), ScenarioClientInfo.(entropy := Some(entropy))]).0 == s2
    ensures s2.phase == LookingUp && FetchAnisetteHandshake.Inv(s2)
    ensures s2.clientInfo == Some("abc") && s2.store == map[IdentifierKey := Base64.Encode(entropy)]
  {
    var s0 := Initial(url, None, map[]);
    var s1 := ScenarioBegin(env, url);
    s2 := ScenarioFirstClientInfo(env, s1, entropy);
    RunUnfold(env, s0, [Begin(None), ScenarioClientInfo.(entropy := Some(entropy))], [s0, s1, s2]);
  }

  /** `main` with an empty keychain asks the server for client info. */
  lemma ScenarioBegin(env: Env, url: string) returns (s1: State)
    ensures s1 == Step(env, Initial(url, None, map[]), Begin(None)).0
    ensures s1.phase == FetchingClientInfo(ThenLookup) && s1.store == map[]
  {
    s1 := Step(env, Initial(url, None, map[]), Begin(None)).0;
  }

  /** The client-info reply on an empty keychain stores a new identifier and goes on to the lookup. */
  lemma ScenarioFirstClientInfo(env: Env, s1: State, entropy: Bytes16) returns (s2: State)
    requires s1.phase == FetchingClientInfo(ThenLookup) && s1.store == map[]
    ensures s2 == Step(env, s1, ScenarioClientInfo.(entropy := Some(entropy))).0
    ensures s2.phase == LookingUp && FetchAnisetteHandshake.Inv(s2)
    ensures s2.clientInfo == Some("abc") && s2.store == map[IdentifierKey := Base64.Encode(entropy)]
  {
    var m := map["client_info" := "abc", "user_agent" := "ua"];
    assert "client_info" in m && "user_agent" in m && m["client_info"] == "abc";
    s2 := Step(env, s1, ScenarioClientInfo.(entropy := Some(entropy))).0;
    assert s2 == AdoptClientInfo(env, s1, ThenLookup, m, Some(entropy)).0;
    Base64.RoundTrip(entropy);
    FetchAnisetteHandshake.ClientInfoInv(env, s1, ThenLookup, ScenarioClientInfo.reply, Some(entropy));
  }

  /** The handshake messages of a provisioning session only issue commands. */
  lemma ScenarioHandshakeKeepsState(env: Env, s: State)
    requires FetchAnisetteHandshake.Inv(s) && s.phase == Provisioning
    ensures Run(env, s, ScenarioHandshake).0 == s
  {
    var hs := ScenarioHandshake;
    var states := [s, s, s, s, s, s];
    ScenarioFramesKeepState(env, s);
    ScenarioRepliesKeepState(env, s);
    forall i | 0 <= i < 5
      ensures states[i + 1] == Step(env, states[i], hs[i]).0
    {
    }
    RunUnfold(env, s, hs, states);
  }

  /** The three server frames of the handshake are answered without a change of state. */
  lemma ScenarioFramesKeepState(env: Env, s: State)
    requires FetchAnisetteHandshake.Inv(s) && s.phase == Provisioning
    ensures Step(env, s, ScenarioHandshake[0]).0 == s
    ensures Step(env, s, ScenarioHandshake[1]).0 == s
    ensures Step(env, s, ScenarioHandshake[3]).0 == s
  {
    var none: map<string, Value> := map[];
    FetchAnisetteHandshake.GiveIdentifierReply(env, s, none);
    assert ScenarioHandshake[0] == SocketText(FetchAnisetteHandshake.ResultFrame("GiveIdentifier", none));
    FetchAnisetteHandshake.StartDataRequest(env, s, none);
    assert ScenarioHandshake[1] == SocketText(FetchAnisetteHandshake.ResultFrame("GiveStartProvisioningData", none));
    var cpim := map["cpim" := Str("CPIM")];
    FetchAnisetteHandshake.EndDataRequest(env, s, cpim, "CPIM");
    assert ScenarioHandshake[3] == SocketText(FetchAnisetteHandshake.ResultFrame("GiveEndProvisioningData", cpim));
  }

  /** Apple's two provisioning replies are forwarded without a change of state. */
  lemma ScenarioRepliesKeepState(env: Env, s: State)
    requires s.phase == Provisioning
    ensures Step(env, s, ScenarioHandshake[2]).0 == s
    ensures Step(env, s, ScenarioHandshake[4]).0 == s
  {
  }

  /** `ProvisioningSuccess` stores `adi_pb` and, the client info being known, goes straight to the header fetch. */
  lemma ScenarioProvisioned(env: Env, s: State) returns (r: State)
    requires FetchAnisetteHandshake.Inv(s) && s.phase == Provisioning
    ensures Run(env, s, [ScenarioSuccess]).0 == r
    ensures r.phase == FetchingHeaders && FetchAnisetteHandshake.Inv(r)
    ensures r.store == s.store[AdiPbKey := "XYZ"] && r.clientInfo == s.clientInfo
  {
    r := Step(env, s, ScenarioSuccess).0;
    var none: map<string, Value> := map[];
    FetchAnisetteHandshake.ProvisioningSuccessFetchesHeaders(env, s, none, "XYZ");
    assert ScenarioSuccess == SocketText(FetchAnisetteHandshake.ResultFrame("ProvisioningSuccess", none["adi_pb" := Str("XYZ")]));
    FetchAnisetteHandshake.StepInv(env, s, ScenarioSuccess);
    RunUnfold(env, s, [ScenarioSuccess], [s, r]);
  }

  /** The header reply of the scenario, the server's machine ID and one-time password accepted. */
  lemma ScenarioHeaders(env: Env, s: State, clock: Clock) returns (r: State)
    requires forall h :: "machineID" in h && "oneTimePassword" in h ==> env.isValidAnisette(h)
    requires FetchAnisetteHandshake.Inv(s) && s.phase == FetchingHeaders
    ensures Run(env, s, [HeadersReply(ScenarioReply, clock)]).0 == r
    ensures r.phase.Done? && r.phase.outcome.Succeeded? && r.store == s.store
    ensures var h := r.phase.outcome.anisette;
      && AnisetteHeaders.SerialNumberKey in h && h[AnisetteHeaders.SerialNumberKey] == "0"
      && "machineID" in h && h["machineID"] == "m1"
      && "oneTimePassword" in h && h["oneTimePassword"] == "p1"
      && "deviceDescription" in h && h["deviceDescription"] == s.clientInfo.value
      && "date" in h && h["date"] == clock.date
  {
    r := Step(env, s, HeadersReply(ScenarioReply, clock)).0;
    V3PathOutcome(env, s, ScenarioReply, clock);
    var fields := AnisetteHeaders.RemapV3(ScenarioReply.body.fields, ClientOf(s, clock));
    var json := ScenarioReply.body.fields;
    assert AnisetteHeaders.V3ServerRenames[0] == ("X-Apple-I-MD-M", "machineID") && AnisetteHeaders.V3ServerRenames[0].0 in json;
    assert AnisetteHeaders.V3ServerRenames[1] == ("X-Apple-I-MD", "oneTimePassword") && AnisetteHeaders.V3ServerRenames[1].0 in json;
    assert fields["machineID"] == "m1" && fields["oneTimePassword"] == "p1";
    assert env.isValidAnisette(fields);
    RunUnfold(env, s, [HeadersReply(ScenarioReply, clock)], [s, r]);
  }

  /** Runs compose. */
  lemma RunThen(env: Env, s: State, t: State, u: State, first: seq<Event>, second: seq<Event>)
    requires Run(env, s, first).0 == t && Run(env, t, second).0 == u
    ensures Run(env, s, first + second).0 == u
  {
    FetchAnisetteHandshake.RunSplit(env, s, first, second);
  }

  /**
    A fresh installation against a V3 server: client info, a new identifier,
    the lookup, the full handshake and the header fetch end in a header set
    with serial number "0", the server's machine ID and one-time password and
    the client's own description and date, and the new `adiPb` is in the keychain.
  */
  lemma FreshInstallScenario(env: Env, url: string, entropy: Bytes16, clock: Clock)
    requires forall h :: "machineID" in h && "oneTimePassword" in h ==> env.isValidAnisette(h)
    ensures var r := Run(env, Initial(url, None, map[]), ScenarioEvents(entropy, clock)).0;
      && r.phase.Done? && r.phase.outcome.Succeeded?
      && var h := r.phase.outcome.anisette;
      && AnisetteHeaders.SerialNumberKey in h && h[AnisetteHeaders.SerialNumberKey] == "0"
      && "machineID" in h && h["machineID"] == "m1"
      && "oneTimePassword" in h && h["oneTimePassword"] == "p1"
      && "deviceDescription" in h && h["deviceDescription"] == "abc"
      && "date" in h && h["date"] == clock.date
      && r.store == map[IdentifierKey := Base64.Encode(entropy), AdiPbKey := "XYZ"]
  {
    var s0 := Initial(url, None, map[]);
    var s2 := ScenarioStart(env, url, entropy);
    var s3 := ScenarioLookedUp(env, s2);
    ScenarioHandshakeKeepsState(env, s3);
    var s9 := ScenarioProvisioned(env, s3);
    var s10 := ScenarioHeaders(env, s9, clock);
    RunFive(env, [Begin(None), ScenarioClientInfo.(entropy := Some(entropy))], [ScenarioLookup], ScenarioHandshake,
            [ScenarioSuccess], [HeadersReply(ScenarioReply, clock)],
            s0, s2, s3, s3, s9, s10);
  }

  /** Runs compose: five stretches of events, each leading to the next state. */
  lemma RunFive(env: Env, e1: seq<Event>, e2: seq<Event>, e3: seq<Event>, e4: seq<Event>, e5: seq<Event>,
                s0: State, s1: State, s2: State, s3: State, s4: State, s5: State)
    requires Run(env, s0, e1).0 == s1 && Run(env, s1, e2).0 == s2 && Run(env, s2, e3).0 == s3
    requires Run(env, s3, e4).0 == s4 && Run(env, s4, e5).0 == s5
    ensures Run(env, s0, e1 + e2 + e3 + e4 + e5).0 == s5
  {
    RunThen(env, s3, s4, s5, e4, e5);
    RunThen(env, s2, s3, s5, e3, e4 + e5);
    RunThen(env, s1, s2, s5, e2, e3 + (e4 + e5));
    RunThen(env, s0, s1, s5, e1, e2 + (e3 + (e4 + e5)));
    Regroup(e1, e2, e3, e4, e5);
  }

  lemma Regroup<T>(e1: seq<T>, e2: seq<T>, e3: seq<T>, e4: seq<T>, e5: seq<T>)
    ensures e1 + e2 + e3 + e4 + e5 == e1 + (e2 + (e3 + (e4 + e5)))
  {
  }

  /** The lookup reply of the scenario opens the provisioning session. */
  lemma ScenarioLookedUp(env: Env, s: State) returns (r: State)
    requires FetchAnisetteHandshake.Inv(s) && s.phase == LookingUp
    ensures Run(env, s, [ScenarioLookup]).0 == r
    ensures r.phase == Provisioning && FetchAnisetteHandshake.Inv(r)
    ensures r.store == s.store && r.clientInfo == s.clientInfo
  {
    r := Step(env, s, ScenarioLookup).0;
    FetchAnisetteHandshake.StepInv(env, s, ScenarioLookup);
    RunUnfold(env, s, [ScenarioLookup], [s, r]);
  }

  /** A run is the chain of its steps. */
  lemma {:induction false} RunUnfold(env: Env, s: State, events: seq<Event>, states: seq<State>)
    requires |states| == |events| + 1 && states[0] == s
    requires forall i :: 0 <= i < |events| ==> states[i + 1] == Step(env, states[i], events[i]).0
    ensures Run(env, s, events).0 == states[|events|]
    decreases |events|
  {
    if |events| > 0 {
      RunUnfold(env, states[1], events[1..], states[1..]);
    }
  }
}

=== FILE: hex.dfy ===
/**
  `Data.hexEncodedString()`: every byte rendered with `%02hhX`, that is two
  upper-case hexadecimal digits, high nibble first. The decoder is its inverse.
*/
module Hex {
  import opened Wrappers
  import opened Bytes

  predicate IsUpperHexDigit(c: char) {
    '0' <= c <= '9' || 'A' <= c <= 'F'
  }

  function DigitChar(d: nat): (c: char)
    requires d < 16
    ensures IsUpperHexDigit(c)
  {
    if d < 10 then ('0' as int + d) as char else ('A' as int + d - 10) as char
  }

  function DigitValue(c: char): (r: Option<nat>)
    ensures r.Some? ==> r.value < 16
  {
    if '0' <= c <= '9' then Some(c as int - '0' as int)
    else if 'A' <= c <= 'F' then Some(c as int - 'A' as int + 10)
    else None
  }

  function Encode(data: Bytes): (r: string)
    ensures |r| == 2 * |data|
    ensures forall i :: 0 <= i < |r| ==> IsUpperHexDigit(r[i])
  {
    if |data| == 0 then ""
    else [DigitChar(data[0] as int / 16), DigitChar(data[0] as int % 16)] + Encode(data[1..])
  }

  function Decode(s: string): Option<Bytes>
    decreases |s|
  {
    if |s| == 0 then Some([])
    else if |s| == 1 then None
    else
      match (DigitValue(s[0]), DigitValue(s[1]), Decode(s[2..]))
      case (Some(hi), Some(lo), Some(rest)) => Some([(hi * 16 + lo) as uint8] + rest)
      case _ => None
  }

  /** Byte `i` of the input is rendered at positions `2i` (high nibble) and `2i + 1` (low nibble). */
  lemma {:induction false} EncodeDigits(data: Bytes, i: nat)
    requires i < |data|
    ensures DigitValue(Encode(data)[2 * i]) == Some(data[i] as int / 16)
    ensures DigitValue(Encode(data)[2 * i + 1]) == Some(data[i] as int % 16)
    decreases i
  {
    if i > 0 {
      EncodeDigits(data[1..], i - 1);
      assert Encode(data)[2 * i] == Encode(data[1..])[2 * (i - 1)];
      assert Encode(data)[2 * i + 1] == Encode(data[1..])[2 * (i - 1) + 1];
    }
  }

  /** Decoding an encoding gives the bytes back. */
  lemma {:induction false} RoundTrip(data: Bytes)
    ensures Decode(Encode(data)) == Some(data)
    decreases |data|
  {
    if |data| > 0 {
      var s := Encode(data);
      RoundTrip(data[1..]);
      assert s[2..] == Encode(data[1..]);
      assert [data[0]] + data[1..] == data;
    }
  }

  /** Distinct byte strings have distinct encodings. */
  lemma EncodeInjective(a: Bytes, b: Bytes)
    requires Encode(a) == Encode(b)
    ensures a == b
  {
    RoundTrip(a);
    RoundTrip(b);
  }
}

=== FILE: operation_error.dfy ===
/** The error type of minimuxer, the on-device muxer library the operations call into. */
module Minimuxer {
  datatype Errors =
    | NoDevice | NoConnection | PairingFile | UDIDMismatch
    | CreateDebug | CreateInstproxy | LookupApps | FindApp | BundlePath
    | MaxPacket | WorkingDirectory | Argv | LaunchSuccess | Detach | Attach
    | CreateAfc | RwAfc | InstallApp | UninstallApp | CreateMisagent
    | ProfileInstall | ProfileRemove
}

/**
  `OperationError`, the error type of the install and refresh operations:
  the mapping from minimuxer errors, the failure reason of every case and the
  recovery suggestion of the App ID limit.
*/
module OperationErrors {
  import opened Wrappers
  import opened Strings
  import Decimal
  import Minimuxer

  /**
    The cases of `OperationError`. The application of the App ID limit is
    represented by its name, the only part the messages read, and the
    expiration date by an opaque instant.
  */
  datatype OperationError =
    | Unknown | UnknownResult | Cancelled | TimedOut
    | NotAuthenticated | AppNotFound | UnknownUDID | InvalidApp | InvalidParameters
    | MaximumAppIDLimitReached(applicationName: string, requiredAppIDs: int, availableAppIDs: int, nextExpirationDate: int)
    | NoSources | OpenAppFailed(name: string) | MissingAppGroup
    | NoDevice | CreateService(name: string) | GetFromDevice(name: string) | SetArgument(name: string)
    | Afc | Install | Uninstall | LookupApps | Detach | Attach | FunctionArguments
    | ProfileManage | NoConnection | InvalidPairingFile(details: string) | SwiftBridgeIssue

  /** Anything thrown at `minimuxerToOperationError`: a minimuxer error or some other error. */
  datatype AnyError = Minimuxer(error: Minimuxer.Errors) | OtherError(description: string)

  const PairingFileDetails :=
    "Your pairing file either didn't have a UDID, or it wasn't a valid plist. Please use jitterbugpair to generate it"
  const UDIDMismatchDetails :=
    "Your pairing file's UDID didn't match up with your device. Please regenerate the pairing file, and ensure you generate it for the correct device"

  /** The service name `createService` reports for each `Create*` error. */
  predicate IsCreateError(e: Minimuxer.Errors) {
    e.CreateDebug? || e.CreateInstproxy? || e.CreateAfc? || e.CreateMisagent?
  }

  /**
    `minimuxerToOperationError`: total over the minimuxer errors, and
    `unknown` exactly for everything else. The two pairing-file errors share
    `invalidPairingFile` with different details, the two profile errors
    share `profileManage`, and the four `Create*` errors are `createService`
    naming the service.
  */
  function ToOperationError(err: AnyError): (r: OperationError)
    ensures r.Unknown? <==> err.OtherError?
    ensures r.InvalidPairingFile? <==> err.Minimuxer? && (err.error.PairingFile? || err.error.UDIDMismatch?)
    ensures r.ProfileManage? <==> err.Minimuxer? && (err.error.ProfileInstall? || err.error.ProfileRemove?)
    ensures r.CreateService? <==> err.Minimuxer? && IsCreateError(err.error)
    ensures err == Minimuxer(Minimuxer.PairingFile) ==> r == InvalidPairingFile(PairingFileDetails)
    ensures err == Minimuxer(Minimuxer.UDIDMismatch) ==> r == InvalidPairingFile(UDIDMismatchDetails)
    ensures err == Minimuxer(Minimuxer.CreateDebug) ==> r == CreateService("debug")
    ensures err == Minimuxer(Minimuxer.CreateInstproxy) ==> r == CreateService("instproxy")
    ensures err == Minimuxer(Minimuxer.CreateAfc) ==> r == CreateService("AFC")
    ensures err == Minimuxer(Minimuxer.CreateMisagent) ==> r == CreateService("misagent")
  {
    match err
    case OtherError(_) => Unknown
    case Minimuxer(e) =>
      match e
      case NoDevice => NoDevice
      case NoConnection => NoConnection
      case PairingFile => InvalidPairingFile(PairingFileDetails)
      case UDIDMismatch => InvalidPairingFile(UDIDMismatchDetails)
      case CreateDebug => CreateService("debug")
      case CreateInstproxy => CreateService("instproxy")
      case LookupApps => GetFromDevice("installed apps")
      case FindApp => GetFromDevice("path to the app")
      case BundlePath => GetFromDevice("bundle path")
      case MaxPacket => SetArgument("max packet")
      case WorkingDirectory => SetArgument("working directory")
      case Argv => SetArgument("argv")
      case LaunchSuccess => GetFromDevice("launch success")
      case Detach => Detach
      case Attach => Attach
      case CreateAfc => CreateService("AFC")
      case RwAfc => Afc
      case InstallApp => Install
      case UninstallApp => Uninstall
      case CreateMisagent => CreateService("misagent")
      case ProfileInstall => ProfileManage
      case ProfileRemove => ProfileManage
  }

  /**
    The minimuxer error an operation error came from, read back from the
    case and its payload; `profileManage` reads back as `ProfileInstall`.
  */
  function SourceError(r: OperationError): (e: Option<Minimuxer.Errors>)
    ensures e.Some? ==> !r.Unknown?
  {
    match r
    case NoDevice => Some(Minimuxer.NoDevice)
    case NoConnection => Some(Minimuxer.NoConnection)
    case InvalidPairingFile(details) =>
      if details == PairingFileDetails then Some(Minimuxer.PairingFile)
      else if details == UDIDMismatchDetails then Some(Minimuxer.UDIDMismatch)
      else None
    case CreateService(name) =>
      if name == "debug" then Some(Minimuxer.CreateDebug)
      else if name == "instproxy" then Some(Minimuxer.CreateInstproxy)
      else if name == "AFC" then Some(Minimuxer.CreateAfc)
      else if name == "misagent" then Some(Minimuxer.CreateMisagent)
      else None
    case GetFromDevice(name) =>
      if name == "installed apps" then Some(Minimuxer.LookupApps)
      else if name == "path to the app" then Some(Minimuxer.FindApp)
      else if name == "bundle path" then Some(Minimuxer.BundlePath)
      else if name == "launch success" then Some(Minimuxer.LaunchSuccess)
      else None
    case SetArgument(name) =>
      if name == "max packet" then Some(Minimuxer.MaxPacket)
      else if name == "working directory" then Some(Minimuxer.WorkingDirectory)
      else if name == "argv" then Some(Minimuxer.Argv)
      else None
    case Detach => Some(Minimuxer.Detach)
    case Attach => Some(Minimuxer.Attach)
    case Afc => Some(Minimuxer.RwAfc)
    case Install => Some(Minimuxer.InstallApp)
    case Uninstall => Some(Minimuxer.UninstallApp)
    case ProfileManage => Some(Minimuxer.ProfileInstall)
    case _ => None
  }

  /** Every minimuxer error except `ProfileRemove` can be read back from its operation error. */
  lemma SourceErrorInverts(e: Minimuxer.Errors)
    ensures e != Minimuxer.ProfileRemove ==> SourceError(ToOperationError(Minimuxer(e))) == Some(e)
    ensures e == Minimuxer.ProfileRemove ==> SourceError(ToOperationError(Minimuxer(e))) == Some(Minimuxer.ProfileInstall)
  {
    match e
    case PairingFile | UDIDMismatch => PairingInverts(e);
    case CreateDebug | CreateInstproxy | CreateAfc | CreateMisagent => CreateInverts(e);
    case LookupApps | FindApp | BundlePath | LaunchSuccess => DeviceInverts(e);
    case MaxPacket | WorkingDirectory | Argv => ArgumentInverts(e);
    case _ =>
  }

  lemma PairingInverts(e: Minimuxer.Errors)
    requires e.PairingFile? || e.UDIDMismatch?
    ensures SourceError(ToOperationError(Minimuxer(e))) == Some(e)
  {
    assert |PairingFileDetails| != |UDIDMismatchDetails|;
  }

  lemma CreateInverts(e: Minimuxer.Errors)
    requires e.CreateDebug? || e.CreateInstproxy? || e.CreateAfc? || e.CreateMisagent?
    ensures SourceError(ToOperationError(Minimuxer(e))) == Some(e)
  {
    assert "instproxy"[0] != "debug"[0];
    assert "AFC"[0] != "debug"[0] && "AFC"[0] != "instproxy"[0];
    assert "misagent"[0] != "debug"[0] && "misagent"[0] != "instproxy"[0] && "misagent"[0] != "AFC"[0];
  }

  lemma DeviceInverts(e: Minimuxer.Errors)
    requires e.LookupApps? || e.FindApp? || e.BundlePath? || e.LaunchSuccess?
    ensures SourceError(ToOperationError(Minimuxer(e))) == Some(e)
  {
    assert "path to the app"[0] != "installed apps"[0];
    assert "bundle path"[0] != "installed apps"[0] && "bundle path"[0] != "path to the app"[0];
    assert "launch success"[0] != "installed apps"[0] && "launch success"[0] != "path to the app"[0];
    assert "launch success"[0] != "bundle path"[0];
  }

  lemma ArgumentInverts(e: Minimuxer.Errors)
    requires e.MaxPacket? || e.WorkingDirectory? || e.Argv?
    ensures SourceError(ToOperationError(Minimuxer(e))) == Some(e)
  {
    assert "working directory"[0] != "max packet"[0];
    assert "argv"[0] != "max packet"[0] && "argv"[0] != "working directory"[0];
  }

  /**
    Distinct minimuxer errors give distinct operation errors, with the one
    exception the source makes: both profile errors are `profileManage`.
  */
  lemma ToOperationErrorMerges(a: Minimuxer.Errors, b: Minimuxer.Errors)
    ensures ToOperationError(Minimuxer(a)) == ToOperationError(Minimuxer(b)) <==>
            a == b || {a, b} == {Minimuxer.ProfileInstall, Minimuxer.ProfileRemove}
  {
    SourceErrorInverts(a);
    SourceErrorInverts(b);
    if {a, b} == {Minimuxer.ProfileInstall, Minimuxer.ProfileRemove} {
      assert a in {Minimuxer.ProfileInstall, Minimuxer.ProfileRemove};
      assert b in {Minimuxer.ProfileInstall, Minimuxer.ProfileRemove};
    }
  }

  /**
    `failureReason`: some text for every case, and for the cases that carry a
    name or details the text includes it. The App ID limit names 10 App IDs,
    the constant of the free developer account, whatever the counts are.
  */
  function FailureReason(e: OperationError): (r: Option<string>)
    ensures r.Some?
  {
    match e
    case Unknown => Some("An unknown error occured.")
    case UnknownResult => Some("The operation returned an unknown result.")
    case Cancelled => Some("The operation was cancelled.")
    case TimedOut => Some("The operation timed out.")
    case NotAuthenticated => Some("You are not signed in.")
    case AppNotFound => Some("App not found.")
    case UnknownUDID => Some("Unknown device UDID.")
    case InvalidApp => Some("The app is invalid.")
    case InvalidParameters => Some("Invalid parameters.")
    case NoSources => Some("There are no SideStore sources.")
    case OpenAppFailed(name) => Some(Mention("SideStore was denied permission to launch ", name, "."))
    case MissingAppGroup => Some("SideStore's shared app group could not be found.")
    case MaximumAppIDLimitReached(_, _, _, _) => Some(Mention("Cannot register more than ", "10", " App IDs."))
    case NoDevice => Some("Cannot fetch the device from the muxer")
    case CreateService(name) => Some(Mention("Cannot start a ", name, " server on the device."))
    case GetFromDevice(name) => Some(Mention("Cannot fetch ", name, " from the device."))
    case SetArgument(name) => Some(Mention("Cannot set ", name, " on the device."))
    case Afc => Some("AFC was unable to manage files on the device")
    case Install => Some("Unable to install the app from the staging directory")
    case Uninstall => Some("Unable to uninstall the app")
    case LookupApps => Some("Unable to fetch apps from the device")
    case Detach => Some("Unable to detach from the app's process")
    case Attach => Some("Unable to attach to the app's process")
    case FunctionArguments => Some("A function was passed invalid arguments")
    case ProfileManage => Some("Unable to manage profiles on the device")
    case NoConnection => Some("Unable to connect to the device, make sure Wireguard is enabled and you're connected to WiFi")
    case InvalidPairingFile(details) => Some(Mention("Invalid pairing file. ", details, ""))
    case SwiftBridgeIssue => Some("There was an issue giving bytes to Rust. PLEASE REPORT THIS TO GITHUB ISSUES!")
  }

  /**
    The failure reason of a case that carries a name or details includes it,
    and the App ID limit names 10 App IDs.
  */
  lemma FailureReasonMentions(e: OperationError)
    ensures e.OpenAppFailed? ==> Contains(FailureReason(e).value, e.name)
    ensures e.CreateService? ==> Contains(FailureReason(e).value, e.name)
    ensures e.GetFromDevice? ==> Contains(FailureReason(e).value, e.name)
    ensures e.SetArgument? ==> Contains(FailureReason(e).value, e.name)
    ensures e.InvalidPairingFile? ==> Contains(FailureReason(e).value, e.details)
    ensures e.MaximumAppIDLimitReached? ==> Contains(FailureReason(e).value, "10")
  {
    match e
    case OpenAppFailed(name) =>
    case CreateService(name) =>
    case GetFromDevice(name) =>
    case SetArgument(name) =>
    case InvalidPairingFile(details) =>
    case MaximumAppIDLimitReached(_, _, _, _) =>
    case _ =>
  }

  /** A one-argument format: `arg` between a non-empty lead and a tail. */
  function Mention(lead: string, arg: string, tail: string): (r: string)
    requires |lead| > 0
    ensures |r| > 0 && Contains(r, arg)
  {
    ContainsInfix(lead, arg, tail);
    lead + arg + tail
  }

  const BaseMessage := "Delete sideloaded apps to free up App ID slots."

  /** How many App IDs are still available, in words. */
  function AvailableText(available: int): (r: string)
    ensures |r| > 0 && (r[0] == 'n' <==> available == 0)
  {
    if available == 0 then "none are available"
    else if available == 1 then "only 1 is available"
    else "only " + Decimal.IntToString(available) + " are available"
  }

  /** Reads a count back from its words. */
  function AvailableCount(text: string): (n: Option<int>)
    ensures n == Some(0) <==> text == "none are available"
    ensures n == Some(1) <==> text == "only 1 is available"
  {
    if text == "none are available" then Some(0)
    else if text == "only 1 is available" then Some(1)
    else if |text| > 19 && text[..5] == "only " && text[|text| - 14..] == " are available" then
      match Decimal.ParseInt(text[5..|text| - 14])
      case Some(v) => if v == 0 || v == 1 then None else Some(v)
      case None => None
    else None
  }

  /** The words for a count name exactly that count: no two counts share their words. */
  lemma AvailableTextRoundTrip(available: int)
    ensures AvailableCount(AvailableText(available)) == Some(available)
  {
    var t := AvailableText(available);
    if available != 0 && available != 1 {
      var digits := Decimal.IntToString(available);
      Decimal.IntRoundTrip(available);
      assert t[..5] == "only ";
      assert t[5..|t| - 14] == digits;
      assert t[|t| - 14..] == " are available";
      assert t != "none are available" by {
        assert t[0] != "none are available"[0];
      }
      assert t != "only 1 is available" by {
        assert |t| != |"only 1 is available"|;
      }
    }
  }

  /**
    The suggestion when more than one App ID is required: the application,
    the required count and the available count in words, then the base advice.
  */
  function CountsMessage(name: string, required: int, available: int): (r: string)
    ensures StartsWith(r, name)
    ensures Contains(r, Decimal.IntToString(required))
    ensures Contains(r, AvailableText(available))
  {
    Spliced(name, " requires ", Decimal.IntToString(required), " App IDs, but ", AvailableText(available), ". " + BaseMessage)
  }

  /** `name + lead + first + middle + second + tail`, which starts with `name` and contains both `first` and `second`. */
  function Spliced(name: string, lead: string, first: string, middle: string, second: string, tail: string): (r: string)
    ensures StartsWith(r, name) && Contains(r, first) && Contains(r, second)
  {
    ContainsSpliced(name + lead, first, middle, second, tail);
    StartsWithHead(name, lead, first + middle + second + tail);
    assert name + lead + first + middle + second + tail == name + lead + (first + middle + second + tail);
    name + lead + first + middle + second + tail
  }

  /** The suggestion otherwise: the base advice, then the time until another App ID can be registered. */
  function WaitMessage(remainingTime: string): (r: string)
    ensures StartsWith(r, BaseMessage) && Contains(r, remainingTime)
  {
    var head := BaseMessage + " You can register another App ID in ";
    var message := head + remainingTime + ".";
    assert message[..|BaseMessage|] == BaseMessage;
    ContainsInfix(head, remainingTime, ".");
    message
  }

  /**
    `recoverySuggestion`: text only for the App ID limit, naming the counts
    when more than one App ID is required and the waiting time otherwise;
    the caller formats the waiting time from the expiration date.
  */
  function RecoverySuggestion(e: OperationError, remainingTime: string): (r: Option<string>)
    ensures r.Some? <==> e.MaximumAppIDLimitReached?
    ensures r.Some? && e.requiredAppIDs > 1 ==>
              && StartsWith(r.value, e.applicationName)
              && Contains(r.value, AvailableText(e.availableAppIDs))
              && Contains(r.value, Decimal.IntToString(e.requiredAppIDs))
    ensures r.Some? && e.requiredAppIDs <= 1 ==>
              StartsWith(r.value, BaseMessage) && Contains(r.value, remainingTime)
  {
    match e
    case MaximumAppIDLimitReached(name, required, available, _) =>
      if required > 1 then Some(CountsMessage(name, required, available))
      else Some(WaitMessage(remainingTime))
    case _ => None
  }

  /** The counts of an App ID limit can be read back from its suggestion's words. */
  lemma RecoveryNamesCounts(name: string, required: int, available: int, date: int, remainingTime: string)
    requires required > 1
    ensures var r := RecoverySuggestion(MaximumAppIDLimitReached(name, required, available, date), remainingTime);
      exists words :: Contains(r.value, words) && AvailableCount(words) == Some(available)
  {
    AvailableTextRoundTrip(available);
  }
}

=== FILE: output_capturer.dfy ===
/**
  The log capture of the app: every chunk written to standard output or
  standard error is decoded, dropped when it contains a noisy library
  message, redacted of the user's secrets and appended to the log file,
  while the original bytes are passed on to the real standard output.
*/
module OutputCapture {
  import opened Wrappers
  import opened Bytes
  import opened Strings

  /** Chunks containing any of these are neither echoed nor logged. */
  const Ignore: seq<string> := [
    " internal_ssl_write(): ",
    " internal_ssl_read(): ",
    " idevice_connection_receive_timeout(): ",
    " internal_plist_receive_timeout(): ",
    "pre-send length = ",
    "pre-send length = ",
    "post-send sent ",
    "service_send(): sending "
  ]

  /** What every occurrence of a secret is replaced with. */
  const Marker := "[removed]"

  /** Some item of `items` occurs in `s`. */
  function AnyContained(s: string, items: seq<string>): (b: bool)
    ensures b <==> exists i :: 0 <= i < |items| && Contains(s, items[i])
  {
    if |items| == 0 then false
    else if Contains(s, items[0]) then true
    else
      var rest := AnyContained(s, items[1..]);
      assert forall i :: 1 <= i < |items| ==> items[i] == items[1..][i - 1];
      rest
  }

  /** Each secret of `remove`, in list order, replaced everywhere by the marker. */
  function Redact(s: string, remove: seq<string>): (r: string)
    ensures (forall i :: 0 <= i < |remove| ==> |remove[i]| == |Marker|) ==> |r| == |s|
    decreases |remove|
  {
    if |remove| == 0 then s else Redact(ReplaceAll(s, remove[0], Marker), remove[1..])
  }

  /** A chunk in which no secret occurs is logged exactly as it came. */
  lemma {:induction false} RedactAbsent(s: string, remove: seq<string>)
    requires forall i :: 0 <= i < |remove| ==> !Contains(s, remove[i])
    ensures Redact(s, remove) == s
  {
    if |remove| > 0 {
      ReplaceAllAbsent(s, remove[0], Marker);
      assert forall i :: 0 <= i < |remove[1..]| ==> remove[1..][i] == remove[i + 1];
      RedactAbsent(s, remove[1..]);
    }
  }

  /** Redacting with two lists one after the other is redacting with the joined list. */
  lemma {:induction false} RedactAppend(s: string, first: seq<string>, second: seq<string>)
    ensures Redact(s, first + second) == Redact(Redact(s, first), second)
    decreases |first|
  {
    if |first| > 0 {
      assert (first + second)[1..] == first[1..] + second;
      RedactAppend(ReplaceAll(s, first[0], Marker), first[1..], second);
    } else {
      assert first + second == second;
    }
  }

  /**
    The only secret that occurs is the last one to be replaced: the logged
    text shows the marker in its place.
  */
  lemma RedactMarksLast(s: string, remove: seq<string>)
    requires |remove| > 0 && |remove[|remove| - 1]| > 0 && Contains(s, remove[|remove| - 1])
    requires forall i :: 0 <= i < |remove| - 1 ==> !Contains(s, remove[i])
    ensures Contains(Redact(s, remove), Marker)
  {
    var n := |remove| - 1;
    assert remove == remove[..n] + [remove[n]];
    RedactAppend(s, remove[..n], [remove[n]]);
    RedactAbsent(s, remove[..n]);
    ReplaceAllLeavesMarker(s, remove[n], Marker);
  }

  /** What one chunk produces: the bytes echoed to standard output and the text appended to the log. */
  datatype Handled = Handled(echo: Option<Bytes>, logged: Option<string>)

  /**
    `handle(data:)`. Chunks that are not UTF-8 (`decode` answers `None`) and
    chunks containing an ignored message produce nothing; every other chunk
    is echoed as the original bytes and logged redacted.
  */
  function Handle(decode: Bytes -> Option<string>, data: Bytes, remove: seq<string>): (h: Handled)
    ensures h.echo.Some? <==> h.logged.Some?
    ensures h.echo.Some? <==> decode(data).Some? && forall i :: 0 <= i < |Ignore| ==> !Contains(decode(data).value, Ignore[i])
    ensures h.echo.Some? ==> h.echo.value == data
    ensures h.logged.Some? ==> h.logged.value == Redact(decode(data).value, remove)
    ensures h.logged.Some? && (forall i :: 0 <= i < |remove| ==> !Contains(decode(data).value, remove[i])) ==>
              h.logged.value == decode(data).value
  {
    match decode(data)
    case None => Handled(None, None)
    case Some(text) =>
      if AnyContained(text, Ignore) then Handled(None, None)
      else
        RedactAbsentWhenClear(text, remove);
        Handled(Some(data), Some(Redact(text, remove)))
  }

  lemma RedactAbsentWhenClear(s: string, remove: seq<string>)
    ensures (forall i :: 0 <= i < |remove| ==> !Contains(s, remove[i])) ==> Redact(s, remove) == s
  {
    if forall i :: 0 <= i < |remove| ==> !Contains(s, remove[i]) {
      RedactAbsent(s, remove);
    }
  }

  /** The log file: missing, or holding what was written so far. */
  datatype LogFile = Missing | Present(content: string)

  /**
    The main-queue block of `handle`: append to the log when it can be
    opened, otherwise write the file with this text alone.
  */
  function WriteLog(log: LogFile, text: string): (r: LogFile)
    ensures r.Present?
    ensures log.Present? ==> |r.content| == |log.content| + |text|
    ensures log.Present? ==> r.content[..|log.content|] == log.content && r.content[|log.content|..] == text
    ensures log.Missing? ==> r.content == text
  {
    match log
    case Missing => Present(text)
    case Present(content) => Present(content + text)
  }

  /** The secrets kept in the keychain, any of which may be unset. */
  datatype KeychainSecrets = KeychainSecrets(
    appleIDEmailAddress: Option<string>,
    appleIDPassword: Option<string>,
    signingCertificateSerialNumber: Option<string>,
    signingCertificatePassword: Option<string>)

  function Candidates(k: KeychainSecrets): (c: seq<Option<string>>)
    ensures |c| == 4
  {
    [k.appleIDEmailAddress, k.appleIDPassword, k.signingCertificateSerialNumber, k.signingCertificatePassword]
  }

  /** `remove` keeps each secret once, and never an empty one. */
  ghost predicate WellFormed(remove: seq<string>) {
    && (forall i :: 0 <= i < |remove| ==> |remove[i]| > 0)
    && (forall i, j :: 0 <= i < j < |remove| ==> remove[i] != remove[j])
  }

  /** The candidate is set, not empty, and not yet in the list. */
  predicate Admits(remove: seq<string>, item: Option<string>) {
    item.Some? && |item.value| > 0 && item.value !in remove
  }

  /**
    `addRemoves`: each candidate, in order, is appended when it is set, not
    empty and not yet in the list. The old list stays a prefix, a well-formed
    list stays well-formed, and the result holds exactly the old entries and
    the set, non-empty candidates.
  */
  function AddRemoves(remove: seq<string>, maybe: seq<Option<string>>): (r: seq<string>)
    ensures |r| >= |remove| && r[..|remove|] == remove
    ensures forall x :: x in r <==> x in remove || (Some(x) in maybe && |x| > 0)
    decreases |maybe|
  {
    if |maybe| == 0 then remove
    else
      var next := Add(remove, maybe[0]);
      var r := AddRemoves(next, maybe[1..]);
      assert maybe == [maybe[0]] + maybe[1..];
      assert r[..|remove|] == next[..|remove|];
      r
  }

  /** One candidate of `addRemoves`. */
  function Add(remove: seq<string>, item: Option<string>): (r: seq<string>)
    ensures |r| >= |remove| && r[..|remove|] == remove
    ensures forall x :: x in r <==> x in remove || (item == Some(x) && |x| > 0)
    ensures WellFormed(remove) ==> WellFormed(r)
  {
    if Admits(remove, item) then remove + [item.value] else remove
  }

  /** `addRemoves` keeps a well-formed list well-formed. */
  lemma {:induction false} AddRemovesWellFormed(remove: seq<string>, maybe: seq<Option<string>>)
    requires WellFormed(remove)
    ensures WellFormed(AddRemoves(remove, maybe))
    decreases |maybe|
  {
    if |maybe| > 0 {
      AddRemovesWellFormed(Add(remove, maybe[0]), maybe[1..]);
    }
  }

  /** Candidates that are unset, empty or already present leave the list alone. */
  lemma {:induction false} AddRemovesNothingNew(remove: seq<string>, maybe: seq<Option<string>>)
    requires forall i :: 0 <= i < |maybe| ==> !Admits(remove, maybe[i])
    ensures AddRemoves(remove, maybe) == remove
    decreases |maybe|
  {
    if |maybe| > 0 {
      AddRemovesNothingNew(remove, maybe[1..]);
    }
  }

  /** A second `addRemoves` with the same keychain contents changes nothing. */
  lemma AddRemovesIdempotent(remove: seq<string>, maybe: seq<Option<string>>)
    ensures AddRemoves(AddRemoves(remove, maybe), maybe) == AddRemoves(remove, maybe)
  {
    var r := AddRemoves(remove, maybe);
    forall i | 0 <= i < |maybe|
      ensures !Admits(r, maybe[i])
    {
      if maybe[i].Some? && |maybe[i].value| > 0 {
        assert Some(maybe[i].value) in maybe;
      }
    }
    AddRemovesNothingNew(r, maybe);
  }

  /** The list built at start-up from the keychain is well-formed and holds exactly its set secrets. */
  lemma InitialRemoveList(k: KeychainSecrets)
    ensures var r := AddRemoves([], Candidates(k));
      && WellFormed(r)
      && (forall x :: x in r <==> Some(x) in Candidates(k) && |x| > 0)
  {
    AddRemovesWellFormed([], Candidates(k));
  }
}

=== FILE: server_messages.dfy ===
/**
  Classification of the `result` field of a text frame the provisioning
  server sends over the handshake socket.
*/
module ServerMessages {
  import opened Strings

  datatype Kind =
    | TryAgainSoon
    | GiveIdentifier
    | GiveStartProvisioningData
    | GiveEndProvisioningData
    | ProvisioningSuccess
    | Failure        // ends the operation with `provisioningError`
    | Unrecognised   // ignored: the operation stays unfinished

  /** The five results the handshake answers. */
  const HandledResults: set<string> := {
    "TryAgainSoon", "GiveIdentifier", "GiveStartProvisioningData", "GiveEndProvisioningData", "ProvisioningSuccess"
  }

  /** The test of the `default:` branch: which other results end the handshake. */
  predicate IsFailureResult(result: string) {
    || Contains(result, "Error")
    || Contains(result, "Invalid")
    || result == "ClosingPerRequest"
    || result == "Timeout"
    || result == "TextOnly"
  }

  /** The `switch result` of the socket delegate: the named cases first, then the failure test. */
  function Classify(result: string): Kind {
    match result
    case "TryAgainSoon" => TryAgainSoon
    case "GiveIdentifier" => GiveIdentifier
    case "GiveStartProvisioningData" => GiveStartProvisioningData
    case "GiveEndProvisioningData" => GiveEndProvisioningData
    case "ProvisioningSuccess" => ProvisioningSuccess
    case _ => if IsFailureResult(result) then Failure else Unrecognised
  }

  /** A string without any adjacent pair of characters from `sub` does not contain it. */
  lemma LacksPair(s: string, sub: string, k: nat)
    requires k + 1 < |sub|
    requires forall i :: 0 <= i < |s| - 1 ==> !(s[i] == sub[k] && s[i + 1] == sub[k + 1])
    ensures !Contains(s, sub)
  {
    if Contains(s, sub) {
      ContainsAdjacentPair(s, sub, k);
    }
  }

  lemma NotAFailure(result: string)
    requires forall i :: 0 <= i < |result| - 1 ==> !(result[i] == 'E' && result[i + 1] == 'r')
    requires forall i :: 0 <= i < |result| - 1 ==> !(result[i] == 'a' && result[i + 1] == 'l')
    requires result != "ClosingPerRequest" && result != "Timeout" && result != "TextOnly"
    ensures !IsFailureResult(result)
  {
    LacksPair(result, "Error", 0);
    LacksPair(result, "Invalid", 3);
  }

  /** None of the five answered results would pass the failure test. */
  lemma HandledResultsAreNotFailures(result: string)
    requires result in HandledResults
    ensures !IsFailureResult(result)
  {
    // one branch per name, so each call sees a single literal
    if result == "TryAgainSoon" {
      NotAFailure(result);
    } else if result == "GiveIdentifier" {
      NotAFailure(result);
    } else if result == "GiveStartProvisioningData" {
      NotAFailure(result);
    } else if result == "GiveEndProvisioningData" {
      NotAFailure(result);
    } else {
      NotAFailure(result);
    }
  }

  /**
    A result fails the handshake exactly when it contains "Error" or "Invalid"
    or is one of "ClosingPerRequest", "Timeout" and "TextOnly"; it is ignored
    exactly when it is neither such a failure nor one of the five answered results.
  */
  lemma ClassifyFailureIff(result: string)
    ensures Classify(result) == Failure <==> IsFailureResult(result)
    ensures Classify(result) == Unrecognised <==> !IsFailureResult(result) && result !in HandledResults
  {
    if result in HandledResults {
      HandledResultsAreNotFailures(result);
      ClassifyHandled(result);
    } else {
      ClassifyOther(result);
    }
  }

  /** An answered result is classified as one of the five answers. */
  lemma ClassifyHandled(result: string)
    requires result in HandledResults
    ensures Classify(result) != Failure && Classify(result) != Unrecognised
  {
  }

  /** Any other result is either a failure or ignored, by the failure test alone. */
  lemma ClassifyOther(result: string)
    requires result !in HandledResults
    ensures Classify(result) == (if IsFailureResult(result) then Failure else Unrecognised)
  {
  }

  /** Each answered result is recognised by its exact name and nothing else. */
  lemma ClassifyNamedIff(result: string)
    ensures Classify(result) == TryAgainSoon <==> result == "TryAgainSoon"
    ensures Classify(result) == GiveIdentifier <==> result == "GiveIdentifier"
    ensures Classify(result) == GiveStartProvisioningData <==> result == "GiveStartProvisioningData"
    ensures Classify(result) == GiveEndProvisioningData <==> result == "GiveEndProvisioningData"
    ensures Classify(result) == ProvisioningSuccess <==> result == "ProvisioningSuccess"
  {
  }
}

=== FILE: strings.dfy ===
/**
  The two Foundation string operations the core relies on: substring search
  (`String.contains(_:)`) and `replacingOccurrences(of:with:)`.
*/
module Strings {

  predicate StartsWith(s: string, prefix: string) {
    |prefix| <= |s| && s[..|prefix|] == prefix
  }

  /** `sub` occurs somewhere in `s`, searched from the left. */
  predicate Contains(s: string, sub: string)
    decreases |s|
  {
    StartsWith(s, sub) || (|s| > 0 && Contains(s[1..], sub))
  }

  /** The declarative reading of an occurrence: `sub` sits in `s` at index `i`. */
  ghost predicate OccursAt(s: string, sub: string, i: int) {
    0 <= i && i + |sub| <= |s| && s[i..i + |sub|] == sub
  }

  /** The left-to-right search finds `sub` exactly when it occurs at some index. */
  lemma ContainsIffOccurs(s: string, sub: string)
    ensures Contains(s, sub) <==> exists i :: OccursAt(s, sub, i)
  {
    if Contains(s, sub) {
      var i := FoundAt(s, sub);
    } else {
      forall i | OccursAt(s, sub, i)
        ensures false
      {
        OccursFound(s, sub, i);
      }
    }
  }

  /** Where the search succeeds, `sub` occurs at the index it stops at. */
  lemma {:induction false} FoundAt(s: string, sub: string) returns (i: nat)
    requires Contains(s, sub)
    ensures OccursAt(s, sub, i)
    decreases |s|
  {
    if StartsWith(s, sub) {
      i := 0;
    } else {
      var j := FoundAt(s[1..], sub);
      assert s[1..][j..j + |sub|] == s[j + 1..j + 1 + |sub|];
      i := j + 1;
    }
  }

  /** An occurrence at any index is found by the search. */
  lemma {:induction false} OccursFound(s: string, sub: string, i: int)
    requires OccursAt(s, sub, i)
    ensures Contains(s, sub)
    decreases i
  {
    if i == 0 {
      assert StartsWith(s, sub);
    } else {
      assert s[1..][i - 1..i - 1 + |sub|] == s[i..i + |sub|];
      OccursFound(s[1..], sub, i - 1);
    }
  }

  /** Every string contains itself placed between any context. */
  lemma ContainsInfix(a: string, sub: string, b: string)
    ensures Contains(a + sub + b, sub)
  {
    var s := a + sub + b;
    assert s[|a|..|a| + |sub|] == sub;
    assert OccursAt(s, sub, |a|);
    ContainsIffOccurs(s, sub);
  }

  /** A string starts with its own head, and with every prefix of that head. */
  lemma StartsWithHead(a: string, b: string, rest: string)
    ensures StartsWith(a + b + rest, a)
  {
    assert (a + b + rest)[..|a|] == a;
  }

  /** Text spliced from five parts contains the second and the fourth. */
  lemma ContainsSpliced(p1: string, p2: string, p3: string, p4: string, p5: string)
    ensures Contains(p1 + p2 + p3 + p4 + p5, p2)
    ensures Contains(p1 + p2 + p3 + p4 + p5, p4)
  {
    var m := p1 + p2 + p3 + p4 + p5;
    assert m == p1 + p2 + (p3 + p4 + p5);
    ContainsInfix(p1, p2, p3 + p4 + p5);
    assert m == (p1 + p2 + p3) + p4 + p5;
    ContainsInfix(p1 + p2 + p3, p4, p5);
  }

  /** Any two adjacent characters of an occurring substring are adjacent in the string too. */
  lemma ContainsAdjacentPair(s: string, sub: string, k: nat)
    requires k + 1 < |sub| && Contains(s, sub)
    ensures exists i :: 0 <= i < |s| - 1 && s[i] == sub[k] && s[i + 1] == sub[k + 1]
  {
    ContainsIffOccurs(s, sub);
    var i :| OccursAt(s, sub, i);
    assert s[i + k] == sub[k] && s[i + k + 1] == sub[k + 1];
  }

  /**
    `replacingOccurrences(of: target, with: replacement)`: occurrences of
    `target` are found from the left, without overlap, and each is replaced.
    An empty target leaves the string unchanged.
  */
  function ReplaceAll(s: string, target: string, replacement: string): (r: string)
    ensures |replacement| == |target| ==> |r| == |s|
    decreases |s|
  {
    if |target| == 0 || |s| < |target| then s
    else if s[..|target|] == target then replacement + ReplaceAll(s[|target|..], target, replacement)
    else [s[0]] + ReplaceAll(s[1..], target, replacement)
  }

  /** A string in which the target does not occur is returned unchanged. */
  lemma {:induction false} ReplaceAllAbsent(s: string, target: string, replacement: string)
    requires !Contains(s, target)
    ensures ReplaceAll(s, target, replacement) == s
    decreases |s|
  {
    if |target| == 0 || |s| < |target| {
    } else {
      assert !StartsWith(s, target);
      ReplaceAllAbsent(s[1..], target, replacement);
      assert [s[0]] + s[1..] == s;
    }
  }

  /**
    The scan up to the first occurrence: when `target` occurs in `s` first at
    index `|before|`, the text before it is kept, that occurrence becomes the
    replacement, and the rest is processed the same way. Together with
    `ReplaceAllAbsent` this fixes the result for every string.
  */
  lemma {:induction false} ReplaceAllFirst(s: string, before: string, target: string, after: string, replacement: string)
    requires |target| > 0 && s == before + target + after
    requires forall i :: 0 <= i < |before| ==> !OccursAt(s, target, i)
    ensures ReplaceAll(s, target, replacement) == before + replacement + ReplaceAll(after, target, replacement)
    decreases |before|
  {
    if |before| == 0 {
      assert s[..|target|] == target && s[|target|..] == after;
    } else {
      assert !OccursAt(s, target, 0);
      assert s[..|target|] != target;
      forall i | 0 <= i < |before| - 1
        ensures !OccursAt(s[1..], target, i)
      {
        assert s[1..][i..i + |target|] == s[i + 1..i + 1 + |target|];
        assert !OccursAt(s, target, i + 1);
      }
      assert s[1..] == before[1..] + target + after;
      ReplaceAllFirst(s[1..], before[1..], target, after, replacement);
      assert [s[0]] + before[1..] == before;
    }
  }

  /** When a non-empty target occurs, the replacement text appears in the result. */
  lemma {:induction false} ReplaceAllLeavesMarker(s: string, target: string, replacement: string)
    requires |target| > 0 && Contains(s, target)
    ensures Contains(ReplaceAll(s, target, replacement), replacement)
    decreases |s|
  {
    if StartsWith(s, target) {
      var r := ReplaceAll(s, target, replacement);
      ContainsInfix([], replacement, ReplaceAll(s[|target|..], target, replacement));
      assert [] + replacement + ReplaceAll(s[|target|..], target, replacement) == r;
    } else {
      assert |s| > 0 && Contains(s[1..], target);
      if |s| < |target| {
        // a target longer than the string cannot occur in it
        ContainsIffOccurs(s, target);
        assert false;
      } else {
        ReplaceAllLeavesMarker(s[1..], target, replacement);
        var rest := ReplaceAll(s[1..], target, replacement);
        ContainsIffOccurs(rest, replacement);
        var i :| OccursAt(rest, replacement, i);
        assert ([s[0]] + rest)[i + 1..i + 1 + |replacement|] == rest[i..i + |replacement|];
        assert OccursAt([s[0]] + rest, replacement, i + 1);
        ContainsIffOccurs([s[0]] + rest, replacement);
      }
    }
  }
}

=== FILE: wrappers.dfy ===
/** Swift's `Optional`, the only failure-compatible wrapper the model needs. */
module Wrappers {

  datatype Option<+T> = None | Some(value: T) {

    /** Returns the wrapped value, or `default` when there is none (Swift's `??`). */
    function GetOr(default: T): T {
      match this
      case Some(v) => v
      case None => default
    }
  }
}
